=== FILE: README.md ===
# Company research agent: task lifecycle, dashboards and scraper utilities in Dafny

This project models the core of a company-research service. A research session
plans a handful of tasks (scrape the company website, look the company up in a
registry, extract metadata, and for some research types find contacts or
analyse jobs). Each task moves through a lifecycle: create, update, complete,
fail, retry and cancel. Every status change is written to an append-only
audit log. A dashboard aggregates a session's tasks into buckets, an overall
status, a completion percentage, stale items and recommended next actions.
The HTTP layer guards these operations with a JSON/required-field check and
maps exceptions to status codes. Next to this core sit three scraper
utilities: a per-domain sliding-window rate limiter, a robots.txt cache with a
time to live, and text helpers for HTML content.

The model is functional throughout:

- the task store is a `map<TaskId, Task>`;
- the audit log is a `seq<AuditEntry>`;
- the clock is an explicit `now` (integer seconds);
- a failed database write is a boolean in `Io`.

Each operation returns the new state together with its reply: a value, a raised
`ValueError`, or `None`.

Modules, one per source file or record:

| module | file | models |
|---|---|---|
| `Wrappers`, `Text`, `Json`, `Seqs` | wrappers.dfy, text.dfy, json.dfy, seqs.dfy | `Option`/`Result`, Python string predicates, JSON values, list comprehensions |
| `TaskRecord` | task_record.dfy | the task record (union of both `Task` classes), status names, `validate`, `complete` |
| `TaskStore` | task_store.dfy | the task queries of `app/database/models.py` |
| `SessionRecord` | session_record.dfy | the research-session record, `validate`, `add_task`, `complete`, session queries |
| `StatusLog` | status_log.dfy | the task-status audit entry and its queries |
| `CompanyRecord`, `ContactRecord` | company.dfy, contact.dfy | company and contact records, `validate`, `to_dict` |
| `TaskService` | task_service.dfy | `app/services/task_service.py` |
| `Progress`, `StatusService` | progress.dfy, status_service.dfy | `app/services/status_service.py` |
| `ResearchService` | research_service.dfy | `app/services/research_service.py` |
| `ApiUtils`, `TasksApi` | api_utils.dfy, api_tasks.dfy | `app/api/utils.py`, `app/api/tasks.py` |
| `Calls` | calls.dfy | Python's binding of positional arguments, for the service calls as written |
| `RateLimiter`, `RobotsChecker`, `HtmlParser` | rate_limiter.dfy, robots_checker.dfy, html_parser.dfy | the scraper utilities |

## Model

| member | source | states |
|---|---|---|
| TaskRecord.NewTask | app/database/models.py:13-43 | A new task is pending with progress 0, retry count 0, three allowed retries, no start or completion time, and is internally consistent |
| TaskRecord.StatusNameRoundTrip | app/database/models.py:21 | Every status name reads back as the same status |
| TaskRecord.Validate | app/database/models/task.py:33-45 | A task is valid exactly when it has a session id, a non-blank title, one of the four declared task types, one of the four declared statuses and a progress in [0,100]; the first failing check names the error, in source order |
| TaskRecord.CompletePreservesValidity | app/database/models/task.py:60-64 | `complete()` sets status completed, progress 100 and the completion time, so a valid task stays valid |
| TaskStore.FindById | app/database/models.py:75-81 | The empty id finds nothing; any other id finds exactly the stored task |
| TaskStore.FindBySession | app/database/models.py:84-88 | Exactly the tasks of the session |
| TaskStore.SessionAndStatusRefinesSession | app/database/models.py:91-98 | The session-and-status query is the session query further filtered on status |
| TaskStore.FindDependentTasks | app/database/models.py:101-105 | Exactly the tasks whose dependency list holds the id |
| TaskStore.FindStaleTasks | app/database/models.py:108-115 | Exactly the pending or in-progress tasks updated strictly before the threshold |
| TaskStore.StaleTasksMonotone | app/database/models.py:108-115 | A later threshold finds every task an earlier one finds |
| SessionRecord.NewSession | app/database/models/research_session.py:22-37 | A new session is planned, of type company_profile, with progress 0 and no completion time, keeps the given task ids in order, and validates once it has a target company id |
| SessionRecord.Validate | app/database/models/research_session.py:39-49 | A session is valid exactly when it has a target company id, a declared research type, a declared status and a progress in [0,100]; the first failing check names the error |
| SessionRecord.AddTask | app/database/models/research_session.py:65-68 | A known id leaves the session unchanged; a new id is appended after the existing ids, so the list grows by at most one and stays duplicate-free |
| SessionRecord.AddTaskIdempotent | app/database/models/research_session.py:65-68 | Adding the same id twice equals adding it once |
| SessionRecord.Complete | app/database/models/research_session.py:70-74 | Status completed, progress 100 and the completion time are set and nothing else changes; a session with a company and a declared type becomes valid |
| SessionRecord.FindActiveSessions | app/database/models.py:165-176 | Exactly the sessions whose status is pending or in_progress |
| SessionRecord.FindByCompany | app/database/models.py:177-185 | Exactly the sessions whose target company is the given one |
| StatusLog.NewEntry | app/database/models/task_status_log.py:10-17 | A new audit entry is recorded as changed by "system" with the empty reason |
| StatusLog.ToDict | app/database/models/task_status_log.py:19-30 | Reading the dictionary back gives the same entry, so task id, both statuses, author and reason are carried unchanged |
| StatusLog.FindByTaskId | app/database/models/task_status_log.py:32-37 | Newest first, and holding exactly that task's entries |
| StatusLog.FindRecentChanges | app/database/models/task_status_log.py:39-45 | Newest first, and holding exactly the entries strictly newer than `now - hours`, each as many times as the log holds it |
| StatusLog.AppendKeepsHistory | app/services/task_service.py:224-239 | Appending to the log extends a task's history by the new entry only when it is about that task |
| CompanyRecord.Validate | app/database/models/company.py:23-29 | A company is valid exactly when both name and domain have a non-whitespace character; the name is checked first |
| CompanyRecord.ToDict | app/database/models/company.py:31-48 | Reading the dictionary back gives the same company, every field included |
| CompanyRecord.RoundTripKeepsValidity | app/database/models/company.py:23-48 | A company read back from its dictionary has the same name and domain and validates as the original |
| ContactRecord.Validate | app/database/models/contact.py:23-28 | A contact is valid exactly when its name has a non-whitespace character and it has a company id; the name is checked first |
| ContactRecord.ToDict | app/database/models/contact.py:30-43 | Reading the dictionary back gives the same contact, every field included |
| ContactRecord.NamedContactNeedsCompany | app/database/models/contact.py:10-27 | A contact built with only a name is rejected for its missing company id |
| TaskService.CreateTask | app/services/task_service.py:14-30 | The new task is pending with the given dependencies (empty when none), is stored when the write succeeds, and exactly one audit entry none→pending "Task created" is appended when the log write succeeds |
| TaskService.UpdateTaskStatus | app/services/task_service.py:32-78 | Unknown id raises "Task <id> not found" and changes nothing; a failed write returns None and changes nothing; otherwise any status follows any status, optional inputs overwrite only when supplied, the first move to in_progress stamps started_at with now and later moves keep it, completion forces progress 100 and stamps completed_at, and one audit entry old→new is appended |
| TaskService.CompleteTask | app/services/task_service.py:80-95 | The task becomes completed with progress 100, completion time and result data; the audit entry records completed→completed, because the old status is read after it was overwritten |
| TaskService.FailTask | app/services/task_service.py:97-120 | Any known task becomes failed with the message, its completion time untouched, and the message is the audit reason |
| TaskService.RetryTask | app/services/task_service.py:122-160 | Checks not found, then not failed, then retries exhausted; on success retry_count grows by one and stays within max_retries, status pending, error cleared, progress 0, step "Task queued for retry", audit reason "Retry attempt n of m" |
| TaskService.RetryBound | app/services/task_service.py:122-160 | Over any sequence of update, complete, fail, retry and cancel calls, on any tasks and with any write outcomes, the retries of one task that go through number exactly the growth of its retry count; so at most max_retries − retry_count of them ever succeed, and none for a task that is not stored |
| TaskService.CallKeepsCounters | app/services/task_service.py:32-188 | No lifecycle call adds or removes a task or changes max_retries; only a retry that goes through moves a retry count, by one and to at most max_retries |
| TaskService.CancelTask | app/services/task_service.py:162-188 | Only a pending or in-progress task is cancelled, with step "Task cancelled by user"; other statuses raise and change nothing |
| TaskService.DependenciesSatisfied | app/services/task_service.py:203-213 | True exactly when every dependency is a stored, completed task; true for an empty list |
| TaskService.GetReadyTasks | app/services/task_service.py:190-193 | Exactly the session's pending tasks whose dependencies are satisfied |
| TaskService.CheckDependentTasks | app/services/task_service.py:215-222 | Exactly the pending dependents of the completed task that are now ready |
| TaskService.CheckedAreDependents | app/services/task_service.py:215-222 | The tasks reported ready are dependents of the completed task, and a pending dependent is reported exactly when it is ready |
| TaskService.CreatedTaskIsDependent | app/services/task_service.py:14-30 | A saved new task is found by `find_dependent_tasks` for every task in its dependency list |
| TaskService.GetStaleTasks | app/services/task_service.py:241-243 | Exactly the pending or in-progress tasks not updated within the given hours |
| TaskService.CompletionKeepsReadiness | app/services/task_service.py:80-95 | Completing a task never makes a ready task unready |
| Progress.CompletionPercentage | app/services/status_service.py:27-30 | The floor of 100·completed/total, 0 without tasks; always in [0,100], and 100 exactly when every task is completed |
| StatusService.Categorize | app/services/status_service.py:18-25 | Each bucket holds only tasks of its status, and every task of that status is in it; the completed bucket's size is the completed count |
| StatusService.CategorizeCounts | app/services/status_service.py:18-25 | Each bucket holds every task of its status exactly as many times as the task list does, and no other task |
| StatusService.CategorizeAppend | app/services/status_service.py:18-25 | The buckets of a joined task list are those of its first part followed by those of its second, so each comprehension keeps the tasks' order |
| StatusService.CategoriesPartition | app/services/status_service.py:18-25 | The five buckets together with the cancelled, stale and waiting_system tasks count every task exactly once |
| StatusService.OverallOfTasks | app/services/status_service.py:75-86 | A failed task makes has_failures; else a waiting_user task makes waiting_user; else an in-progress task makes in_progress; the session reads completed exactly when every task is completed, waiting_system, cancelled or stale, so a session of cancelled tasks only reads completed |
| StatusService.StaleTasks | app/services/status_service.py:57-64 | Exactly the pending or in-progress tasks not updated within the last 24 hours, in order |
| StatusService.IdentifyStaleTasks | app/services/status_service.py:57-73 | One item per stale task, in order, each at least 24 hours stale, of status pending or in_progress, and with a status-specific recommendation, never the generic one |
| StatusService.StaleItemsOfTasks | app/services/status_service.py:57-73 | Every item is the entry of a stale task of the list, and every stale task has its item |
| StatusService.NextActions | app/services/status_service.py:121-141 | Actions come in the order stale, user actions, failures, fallback; only these kinds occur, with the session's counts; the list is empty exactly when nothing is stale, waiting or failed and some task completed |
| StatusService.NextActionsPresence | app/services/status_service.py:121-141 | The stale, user and failure actions each appear exactly when their count is non-zero; the processing message appears only when none of them did and a task is running, the idle message only when in addition no task is running or completed |
| StatusService.ActionsAgreeWithOverall | app/services/status_service.py:75-141 | Failures and waiting users always produce their action; an empty action list means the session reads completed or pending; a running session without stale items gets only the processing message |
| StatusService.Duration | app/services/status_service.py:104-109 | A duration exists exactly when the task was started |
| StatusService.DurationClock | app/services/status_service.py:104-109 | A completed task's duration is completion minus start, whatever the clock; an unfinished one grows with the clock |
| StatusService.Summarize | app/services/status_service.py:88-102 | The error is shown only for a failed task, and then it is the task's message |
| StatusService.GetTaskDetails | app/services/status_service.py:143-155 | An unknown task raises "Task not found"; result data is shown only for a completed task |
| StatusService.SummaryFollowsLifecycle | app/services/status_service.py:88-102 | After `fail_task` the summary shows the failure message; after a retry or a cancel that goes through it shows no error |
| StatusService.DetailsFollowCompletion | app/services/status_service.py:143-155 | After `complete_task` the details carry the result data the task was completed with; a later `fail_task` hides it |
| StatusService.BuildDashboard | app/services/status_service.py:17-55 | The dashboard's total and completed counts match the session's tasks; its percentage is the floor share of `CompletionPercentage` (100 exactly when all are completed), its overall status the precedence of `OverallStatus` over the buckets (has_failures exactly when a task failed), its stale items those of `IdentifyStaleTasks` and its next actions those of `NextActions` for the buckets and the stale count; a failed summary shows its error only as a failed task |
| StatusService.GetSessionDashboard | app/services/status_service.py:10-15 | With the database manager passed to the lookup, an unknown or empty session id raises "Session not found" and a known one gets the dashboard of its tasks |
| StatusService.DashboardAsWritten | app/services/status_service.py:10-15 | As written, `find_by_id(session_id)` lacks the database manager and raises TypeError for every id, known or unknown; with the manager passed the call gives `GetSessionDashboard` |
| ResearchService.TaskPlan | app/services/research_service.py:31-42 | Always the three base tasks first; a fourth task, contact discovery or job analysis, exactly for sales_lead or job_application |
| ResearchService.PlanTypesDistinct | app/services/research_service.py:33-42 | No task type is planned twice |
| ResearchService.StartResearch | app/services/research_service.py:14-29 | The session has status "started"; one pending task per planned entry, bound to the session, with the planned type and title |
| ResearchService.StartedRecordsFailValidation | app/services/research_service.py:14-51 | The started session lacks a target company id and uses a status outside the session vocabulary, and no planned type is a declared task type, so these records fail their own validators |
| ResearchService.StartedSessionFoundByCompany | app/services/research_service.py:14-29 | A started session is found by its company name and is not among the active sessions |
| ResearchService.CalculateProgress | app/services/research_service.py:99-105 | 0 without tasks, otherwise the floor of 100·completed/n, within [0,100] |
| ResearchService.GetSessionStatus | app/services/research_service.py:54-70 | An unknown or empty id fails with "Session not found"; otherwise the session's status and tasks, with progress 100 exactly when every task is completed |
| ResearchService.GetSessionResults | app/services/research_service.py:72-98 | An unknown id fails with "Session not found"; a session not completed gives only id, status and the in-progress message; a completed one gives its tasks and findings |
| ResearchService.CompletedSessionHasResults | app/services/research_service.py:72-98 | After a session is completed its results are available, with its completion time |
| ResearchService.CallsWithManager | app/services/research_service.py:14-97 | Passing the database manager to `save`, `find_by_id` and `find_by_session` turns the as-written calls into the service this model uses |
| ResearchService.ResearchRoutesAsWritten | app/api/research.py:11-56 | As written, every start, status and results request that reaches the service raises TypeError, which `handle_errors` answers with 500 "Internal server error": starting stores nothing, and no id, known or unknown, gets its status, its results or "Session not found" |
| ResearchService.ResearchRoutesCorrected | app/api/research.py:40-56 | With the manager passed, an unknown or empty id is a 404 "Session not found" on both routes, and a known id's status is a 200 |
| ApiUtils.MissingFields | app/api/utils.py:20-21 | A required field is reported missing exactly when the body lacks it; a body of the wrong kind raises |
| ApiUtils.MissingFromObject | app/api/utils.py:20-21 | For an object body the missing fields are the required names that are not keys, in declared order |
| ApiUtils.EmptyObjectMissesAll | app/api/utils.py:20-21 | An empty body misses both company_name and research_type |
| ApiUtils.ValidateRequest | app/api/utils.py:11-32 | A non-JSON request is refused with 400 before the fields are looked at; the view runs exactly when no field is missing; otherwise a 400 lists the missing fields |
| ApiUtils.HandleErrors | app/api/utils.py:34-48 | A ValueError whose lower-cased message contains "not found" is a 404, any other ValueError a 400 with its message, any other exception a 500 with a fixed message |
| ApiUtils.NotFoundSuffixIs404 | app/api/utils.py:40-43 | Every message ending in " not found" maps to 404, whatever precedes it |
| TasksApi.BreakdownOf | app/api/tasks.py:41-52 | Each of the five lists holds exactly the tasks of its status, in order; the pending list also takes every status without a list of its own |
| TasksApi.BreakdownPartition | app/api/tasks.py:41-58 | Every task is in exactly one list, so the list sizes sum to the task count |
| TasksApi.SessionTasksEndpoint | app/api/tasks.py:35-62 | Total equals the number of tasks and completed equals the completed list's size |
| TasksApi.TaskDetailsEndpoint | app/api/tasks.py:64-76 | An unknown or empty id gives 404 "Task not found"; otherwise the stored task |
| TasksApi.ApiStatus | app/api/tasks.py:92-99 | A status is accepted exactly when it is one of the seven whitelisted names; waiting_system is not one of them |
| TasksApi.UpdateEndpoint | app/api/tasks.py:78-122 | After the request guard, an unknown id is a 404 before the status is checked; a status outside the whitelist is a 400; a progress that `float()` refuses is a 400 with its message when it is a string and a 500 when it is a list or object; none of these changes anything; success applies the service update with the converted progress |
| TasksApi.ProgressOf | app/services/task_service.py:44-45 | A missing or null progress is not supplied; an integer, a boolean (as 0 or 1) or a whole-number string is a number; a list or an object raises TypeError; any other string raises ValueError, which here includes the fractional and exponent strings `float()` accepts |
| TasksApi.NumberStringStored | app/api/tasks.py:100-112 | A progress sent as the string form of a number is stored as that number |
| TasksApi.WordProgressRefused | app/api/tasks.py:117-119 | A progress sent as a word is answered 400 with `float()`'s conversion error, and nothing changes |
| Text.WholeRoundTrip | app/services/task_service.py:45 | `float(str(i))` reads `i` back |
| TasksApi.RetryEndpoint | app/api/tasks.py:124-155 | An unknown task is a 404; a task that is not failed is a 400 "Only failed tasks can be retried"; a failed task with its retries used up is a 400 "Maximum retry attempts exceeded"; none of these changes anything |
| TasksApi.CancelEndpoint | app/api/tasks.py:157-185 | An unknown task is a 404; a task that is not pending or in progress is a 400 "Only pending or in-progress tasks can be cancelled"; neither changes anything |
| TasksApi.RetryEndpointAgrees | app/api/tasks.py:124-155 | The endpoint checks "not failed" before "retries exhausted" and succeeds exactly when the service's retry does, with the same effect |
| TasksApi.CancelEndpointAgrees | app/api/tasks.py:157-185 | The endpoint refuses all but pending or in-progress tasks and succeeds exactly when the service's cancel does |
| TasksApi.FailEndpoint | app/api/tasks.py:187-213 | Any known task may be failed, whatever its status. On success the database is the one `fail_task` leaves with the supplied message, and the reply carries the stored task marked failed with that message as its error |
| TasksApi.StaleEndpoint | app/api/tasks.py:215-229 | The threshold defaults to 24 hours; the listing is the service's stale tasks for that threshold |
| TasksApi.NotFoundMessagesRoute | app/api/utils.py:40-45 | `handle_errors` classifies "Task <id> not found" and "Session not found" as 404. The task views never hand it the service's ValueError: they answer their own pre-check 404 and turn a service ValueError into a 400. "Session not found" reaches it through the research routes |
| TasksApi.NotRetryableRoute | app/api/utils.py:40-45 | `handle_errors` classifies "Only failed tasks can be retried" as 400, the code the retry view answers itself |
| TasksApi.RetriesExhaustedRoute | app/api/utils.py:40-45 | `handle_errors` classifies "Maximum retry attempts exceeded" as 400, the code the retry view answers itself |
| TasksApi.NotCancellableRoute | app/api/utils.py:40-45 | `handle_errors` classifies "Only pending or in-progress tasks can be cancelled" as 400, the code the cancel view answers itself |
| RateLimiter.Prune | app/scrapers/utils/rate_limiter.py:37-40 | Keeps exactly the timestamps at most `window` seconds before now, each as many times as it was recorded |
| RateLimiter.PruneAppend | app/scrapers/utils/rate_limiter.py:37-40 | Pruning keeps the recorded order: the survivors of an earlier part of the history come before those of a later one |
| RateLimiter.PruneIdempotent | app/scrapers/utils/rate_limiter.py:37-40 | Pruning twice at the same moment equals pruning once |
| RateLimiter.PruneLater | app/scrapers/utils/rate_limiter.py:37-40 | A later clock keeps no more timestamps, and strictly fewer once one has left the window |
| RateLimiter.CanMakeRequest | app/scrapers/utils/rate_limiter.py:23-43 | The domain's history is pruned in place; the request is allowed exactly when fewer than the limit remain; other domains are untouched |
| RateLimiter.RecordRequest | app/scrapers/utils/rate_limiter.py:45-54 | Appends now to that domain's history only |
| RateLimiter.GetRemainingDelay | app/scrapers/utils/rate_limiter.py:56-83 | 0 with no history or under the limit, never negative, and the history is pruned unless it was empty; `min()` of an empty list raises, exactly when nothing is left in the window and the limit is not positive |
| RateLimiter.DelayAtMostWindow | app/scrapers/utils/rate_limiter.py:80-83 | With timestamps not in the future, the delay is at most the window |
| RateLimiter.DelayIsEnough | app/scrapers/utils/rate_limiter.py:56-83 | Once the clock passes now plus the delay, a domain held at its limit may make a request again |
| RateLimiter.DelayIsNeeded | app/scrapers/utils/rate_limiter.py:81-83 | Until now plus the delay has passed, a domain at or over its limit stays refused. With `DelayIsEnough`, the over-limit delay is exactly the time until the oldest timestamp in the window leaves it |
| RateLimiter.Clear | app/scrapers/utils/rate_limiter.py:85-95 | A named domain is emptied and the others kept; no name empties every domain |
| RateLimiter.ClearedDomainIsFree | app/scrapers/utils/rate_limiter.py:85-95 | A cleared domain has no delay and may make a request whenever the limit is positive |
| RobotsChecker.QueryEndsHost | app/scrapers/utils/robots_checker.py:72 | A query or fragment straight after the host is not part of the domain the caches are keyed by |
| RobotsChecker.RobotsUrlRoundTrip | app/scrapers/utils/robots_checker.py:26-37 | The robots URL is scheme + "://" + host + "/robots.txt", and parsing it gives back that scheme and host |
| RobotsChecker.GetParser | app/scrapers/utils/robots_checker.py:62-85 | A fetch is made exactly when either cache lacks the domain or its age exceeds the TTL; a successful fetch updates both caches for that domain only; a failed one changes nothing and returns the stale parser if any |
| RobotsChecker.FreshFetchIsCached | app/scrapers/utils/robots_checker.py:62-85 | After a successful fetch the parser is served from the cache without a request until the TTL has passed |
| RobotsChecker.CanFetch | app/scrapers/utils/robots_checker.py:87-103 | Without a parser every URL may be fetched; otherwise the parser's rules decide |
| RobotsChecker.GetCrawlDelay | app/scrapers/utils/robots_checker.py:105-123 | No delay without a parser; otherwise the parser's delay for the agent |
| RobotsChecker.FailOpen | app/scrapers/utils/robots_checker.py:98-118 | A domain whose robots.txt could never be obtained may be fetched and has no crawl delay |
| RobotsChecker.ClearCache | app/scrapers/utils/robots_checker.py:125-137 | A named domain is dropped from both caches and others kept; no name empties both |
| RobotsChecker.ClearForcesRefresh | app/scrapers/utils/robots_checker.py:125-137 | A cleared domain is fetched again on its next lookup |
| HtmlParser.CleanText | app/scrapers/utils/html_parser.py:54-76 | Empty or missing text gives ""; otherwise the result has the same words as the normalised input and is exactly those words joined by single spaces (`" ".join(t.split())`), so every inner whitespace run becomes one space and none is dropped |
| HtmlParser.WordsTidy | app/scrapers/utils/html_parser.py:71-74 | Collapsing runs and stripping both ends keep the words of the text |
| HtmlParser.CleanIsJoinedWords | app/scrapers/utils/html_parser.py:71-74 | A text in clean form is its words joined by single spaces, so the form and the words determine the text |
| HtmlParser.CollapseRun | app/scrapers/utils/html_parser.py:71 | A whole run of whitespace becomes one space |
| HtmlParser.TidyFixed | app/scrapers/utils/html_parser.py:68-74 | The whitespace rules leave a text unchanged exactly when it is already in clean form |
| HtmlParser.CleanTextIdempotent | app/scrapers/utils/html_parser.py:54-76 | Cleaning a cleaned text again changes nothing |
| HtmlParser.CleanPhone | app/scrapers/utils/html_parser.py:50 | The cleaned number holds only digits and '+', and keeps every digit and '+' of the match |
| HtmlParser.CleanPhoneChar | app/scrapers/utils/html_parser.py:50 | One character is kept exactly when it is a digit or '+' |
| HtmlParser.CleanPhoneAppend | app/scrapers/utils/html_parser.py:50 | The cleanup of a concatenation is the concatenation of the cleanups, so the kept characters stay in order and with their count |
| HtmlParser.CleanPhoneFixed | app/scrapers/utils/html_parser.py:50 | A number is unchanged by the cleanup exactly when it holds only digits and '+'; cleaning twice is cleaning once |
| HtmlParser.Dedup | app/scrapers/utils/html_parser.py:35 | `list(set(xs))` holds every element of the input once and nothing else |
| HtmlParser.ExtractEmails | app/scrapers/utils/html_parser.py:24-35 | Exactly the matches of the e-mail pattern, without duplicates |
| HtmlParser.ExtractPhoneNumbers | app/scrapers/utils/html_parser.py:37-51 | Exactly the cleaned matches of the phone pattern, without duplicates, each only digits and '+' |
| HtmlParser.PlatformOf | app/scrapers/utils/html_parser.py:15-21 | A link has a platform exactly when it contains one of the five social domains, and then it contains that platform's domain |
| HtmlParser.FindSocialLinks | app/scrapers/utils/html_parser.py:78-100 | Every value is a lower-cased link containing its platform's domain; a platform is present exactly when some link belongs to it |
| HtmlParser.SocialLastWins | app/scrapers/utils/html_parser.py:91-98 | The link kept for a platform is the last link of that platform |

## Left out

- HTTP plumbing: the Flask app, blueprints, `jsonify`, the session and company routes and the dashboard route. The dashboard route passes a hard-coded empty session list.
- MongoDB: connection handling, ObjectId conversion and ISO datetime parsing. Ids are plain strings, "" meaning unset, and times are integer seconds. The database order of query results is not modelled: queries return maps, or take the task sequence as a parameter.
- Persistence as written: `save` and the query predicates are modelled as intended, and a write's only outcome is `io.saved`. As written they differ in three ways:
  - `BaseDocument.save` (app/database/base.py:57-63) runs `validate()` first and then refuses a class without `collection_name`. The `Task` of app/database/models.py sets none, so every task save raises ValueError. With the package's `validate` (app/database/models/task.py:33-45), a task of a planned research type, or one whose status is cancelled, waiting_user, waiting_system or stale, raises too. `ResearchService.StartedRecordsFailValidation` shows this for the planned tasks.
  - `to_dict` writes `session_id`, `depends_on` and the status log's `task_id` as strings (app/database/models.py:51, 69; app/database/models/task_status_log.py:23). `find_by_session`, `find_by_session_and_status`, `find_dependent_tasks` and `find_by_task_id` query `ObjectId(...)` values (app/database/models.py:87, 95, 104; app/database/models/task_status_log.py:36), so as written they match nothing.
  - `updated_at` and `timestamp` are stored as ISO strings (app/database/base.py:31-35; app/database/models/task_status_log.py:28) but compared with a datetime (app/database/models.py:113; app/database/models/task_status_log.py:44). So the stale-task and recent-change queries match nothing either.

  `TaskStore` and `StatusLog` state the intended predicates.
- The new task's id is an input to `TaskService.CreateTask`, because the database assigns it. The caller must supply a fresh, non-empty id.
- The clock: `datetime.utcnow()` and `time.time()` become one `now` per call, even where the source reads the clock twice in one call.
- Floating point: progress is an integer. `CompletionPercentage` is the exact floor. The source's `int((c / t) * 100)` can come out one lower through rounding (for example 29 of 100 gives 28).
- The rate limiter's float timestamps and delays become integer seconds. Its `threading.Lock` only serialises calls and is left out.
- Library behaviour becomes parameters: the regular-expression searches behind `EMAIL_PATTERN` and `PHONE_PATTERN`, NFKC normalisation, and the robots.txt fetch and `RobotFileParser` rule matching. `HtmlParser.CleanTextIdempotent` assumes normalisation leaves cleaned text unchanged.
- `HtmlParser.Dedup`: the order of a Python set is not modelled. The model keeps first occurrences in order. The contract only states membership and distinctness, which hold for any order.
- `Text.Lower` lowers ASCII letters only, and `Text.IsDigit` accepts ASCII digits only. Python's `lower()` and `\d` are Unicode-wide.
- `HtmlParser.FindSocialLinks` takes the `href` values of the page's `<a>` elements in document order. The BeautifulSoup traversal that produces them is left out, and so are `extract_structured_data`, `extract_main_content` and `extract_metadata`, which are all BeautifulSoup traversal.
- `RobotsChecker.ParseUrl` handles URLs of the form `scheme://netloc...` only. As in `urlparse`, the host ends at the first '/', '?' or '#'. A URL without `://` right after its first colon gets an empty scheme and host. `urlparse` still reads a scheme such as `mailto:` and the host of a scheme-relative `//host/path`. It also lower-cases the scheme and checks its characters, which the model does not.
- The `_check_dependent_tasks` logging, and the service logger in general, are left out. `TaskService.CheckDependentTasks` returns the ids that would be logged as ready.
- `TasksApi.ProgressOf` (and so `TasksApi.UpdateEndpoint`): a progress string counts as a number only when it is a whole number (surrounding whitespace, an optional sign, ASCII digits). `float()` also accepts strings such as "50.5", "1e2", "inf" or "1_0", which the model answers with the 400 of a non-numeric string, because progress is an integer here. JSON floats are not modelled at all. The ValueError's message quotes the string as `repr` does for strings without quotes or backslashes.
- `TasksApi.UpdateEndpoint`: a `current_step` or `error_message` that is not a string is treated as empty. The source stores any truthy value as it is.
- `TasksApi.FailEndpoint`: an `error_message` that is not a string is treated as empty.
- `ContactRecord.Validate`: an unset company id is the empty string. The source's `ObjectId("")` would raise already in the constructor.
- Imports as written: the package `app/database/models/` shadows the module `app/database/models.py`. So `from app.database.models import Task, TaskStatusLog` (app/services/task_service.py:8) fails, because the package exports no `TaskStatusLog`. The module's own imports of `.task`, `.research_session` and `.task_status_log` (app/database/models.py:6-8) name files that do not sit beside it. The services would also get the package's `Task` and `ResearchSession`, which lack the query helpers, the retry and dependency fields and `target_company`. The model assumes the intended import: the services use the `Task` and `ResearchSession` of app/database/models.py, and the package's records supply `validate` and `complete`. Without that assumption the task service does not import, and the research and status services fail with AttributeError.
- Celery workers, scrapers, configuration, logging set-up and scripts are left out. They are transport and I/O.

## Findings

| source | as written | input that shows it | evidently intended | confidence | as-written member | corrected member |
|---|---|---|---|---|---|---|
| app/database/models/task.py:39-40 | `task_type not in vars(TaskType).values()` also accepts the class's `__module__` string, the only other string in the class dictionary | a task with session id, title "t", status pending and task type "app.database.models.task" passes validation | only the four declared task types pass | medium, not executed | TaskRecord.ModuleNameAccepted | TaskRecord.Validate |
| app/services/status_service.py:12 | `ResearchSession.find_by_id(session_id)` omits the required `db_manager` argument, so the call raises TypeError | any session id, known or not: the dashboard raises instead of returning a dashboard or "Session not found" | the lookup gets the database manager, as the task service's lookups do | high, not executed | StatusService.DashboardAsWritten | StatusService.GetSessionDashboard |
| app/services/research_service.py:24 | `session.save()` omits `db_manager`, so `start_research` raises TypeError before the session is stored or any task is created; the route answers 500 | any start request that passes the field check | the session and its planned tasks are saved | high, not executed | ResearchService.ResearchRoutesAsWritten | ResearchService.StartResearch |
| app/services/research_service.py:56-60 | `find_by_id(session_id)` and `find_by_session(session_id)` omit `db_manager`; the status route answers 500 for every id | a status request for any id | 404 "Session not found" for an unknown id, the status for a known one | high, not executed | ResearchService.ResearchRoutesAsWritten | ResearchService.GetSessionStatus |
| app/services/research_service.py:74-85 | the same one-argument calls in `get_session_results`; the results route answers 500 for every id | a results request for any id | 404 "Session not found" for an unknown id, the results for a known one | high, not executed | ResearchService.ResearchRoutesAsWritten | ResearchService.GetSessionResults |
| app/database/models/research_session.py:43-46 | `vars(ResearchType).values()` and `vars(SessionStatus).values()` likewise accept each class's `__module__` string | a session with a company id and both research type and status "app.database.models.research_session" passes validation | only the declared research types and statuses pass | medium, not executed | SessionRecord.ModuleNameAccepted | SessionRecord.Validate |

=== FILE: api_tasks.dfy ===
/** The `/tasks` blueprint: the session breakdown, task details, the four
    status-changing endpoints with their pre-checks, and the stale-task listing.
    Each endpoint is its view wrapped in `handle_errors` (and `validate_request`
    where the source declares it). */
module TasksApi {
  import opened Wrappers
  import opened Text
  import opened Json
  import opened TaskRecord
  import opened TaskStore
  import opened TaskService
  import opened ApiUtils
  import Seqs
  import Progress

  // ---- session breakdown ---------------------------------------------------

  /** A status's key in the endpoint's `task_breakdown`. */
  predicate ToPending(t: Task) {
    t.status !in {InProgress, Completed, Failed, Cancelled}
  }
  predicate ToInProgress(t: Task) { t.status == InProgress }
  predicate ToFailed(t: Task) { t.status == Failed }
  predicate ToCancelled(t: Task) { t.status == Cancelled }

  datatype Breakdown = Breakdown(
    pending: seq<Task>,
    inProgress: seq<Task>,
    completed: seq<Task>,
    failed: seq<Task>,
    cancelled: seq<Task>)

  function Size(b: Breakdown): nat {
    |b.pending| + |b.inProgress| + |b.completed| + |b.failed| + |b.cancelled|
  }

  /** One turn of the loop: the task goes to its status's list, or to pending
      when its status has no list. */
  function Place(b: Breakdown, t: Task): Breakdown {
    if t.status == InProgress then b.(inProgress := b.inProgress + [t])
    else if t.status == Completed then b.(completed := b.completed + [t])
    else if t.status == Failed then b.(failed := b.failed + [t])
    else if t.status == Cancelled then b.(cancelled := b.cancelled + [t])
    else b.(pending := b.pending + [t])
  }

  /** The loop of `get_session_tasks`, task by task in order. Each list is the
      comprehension over its key, so no task is lost, none is counted twice, and
      the order of `tasks` is kept within each list. */
  function BreakdownOf(tasks: seq<Task>): (b: Breakdown)
    ensures b.pending == Seqs.Filter(ToPending, tasks)
    ensures b.inProgress == Seqs.Filter(ToInProgress, tasks)
    ensures b.completed == Seqs.Filter(Progress.IsCompleted, tasks)
    ensures b.failed == Seqs.Filter(ToFailed, tasks)
    ensures b.cancelled == Seqs.Filter(ToCancelled, tasks)
    decreases |tasks|
  {
    if tasks == [] then Breakdown([], [], [], [], [])
    else
      var init := tasks[..|tasks| - 1];
      var last := tasks[|tasks| - 1];
      assert tasks == init + [last];
      FilterSnoc(ToPending, init, last);
      FilterSnoc(ToInProgress, init, last);
      FilterSnoc(Progress.IsCompleted, init, last);
      FilterSnoc(ToFailed, init, last);
      FilterSnoc(ToCancelled, init, last);
      Place(BreakdownOf(init), last)
  }

  /** Filtering one more element appends it when it qualifies. */
  lemma FilterSnoc(p: Task -> bool, init: seq<Task>, last: Task)
    ensures Seqs.Filter(p, init + [last]) == Seqs.Filter(p, init) + (if p(last) then [last] else [])
  {
    Seqs.FilterAppend(p, init, [last]);
    assert [last][1..] == [];
  }

  /** The five lists together hold every task exactly once. */
  lemma {:induction false} BreakdownPartition(tasks: seq<Task>)
    ensures Size(BreakdownOf(tasks)) == |tasks|
    decreases |tasks|
  {
    if tasks != [] {
      var init := tasks[..|tasks| - 1];
      BreakdownPartition(init);
      assert BreakdownOf(tasks) == Place(BreakdownOf(init), tasks[|tasks| - 1]);
      PlaceGrows(BreakdownOf(init), tasks[|tasks| - 1]);
    }
  }

  /** Placing a task adds it to exactly one list. */
  lemma PlaceGrows(b: Breakdown, t: Task)
    ensures Size(Place(b, t)) == Size(b) + 1
  {
  }

  datatype SessionTasks = SessionTasks(
    sessionId: string,
    breakdown: Breakdown,
    totalTasks: nat,
    completedTasks: nat)

  /** `GET /tasks/<session_id>/status`: the breakdown with its totals. */
  function SessionTasksEndpoint(sessionId: string, tasks: seq<Task>): (r: HttpReply<SessionTasks>)
    ensures r.Ok200?
    ensures r.body.totalTasks == |tasks| == Size(r.body.breakdown)
    ensures r.body.completedTasks == Progress.CompletedCount(tasks)
    ensures r.body.completedTasks == |r.body.breakdown.completed|
  {
    var b := BreakdownOf(tasks);
    BreakdownPartition(tasks);
    Ok200(SessionTasks(sessionId, b, |tasks|, |b.completed|))
  }

  // ---- task details --------------------------------------------------------

  const TaskNotFound := "Task not found"

  /** `GET /tasks/<task_id>`: 404 "Task not found" for an unknown or empty id. */
  function TaskDetailsEndpoint(store: Store, id: TaskId): (r: HttpReply<Task>)
    ensures r.Ok200? <==> id != "" && id in store
    ensures r.Ok200? ==> r.body == store[id]
    ensures !r.Ok200? ==> r == ErrorReply(404, TaskNotFound)
  {
    match FindById(store, id)
    case None => ErrorReply(404, TaskNotFound)
    case Some(t) => Ok200(t)
  }

  // ---- status-changing endpoints -------------------------------------------

  /** The success body: a message and the task as saved. */
  datatype TaskBody = TaskBody(message: string, task: Task)

  /** An endpoint's effect: the database afterwards and the HTTP reply. */
  datatype Served = Served(db: Db, reply: HttpReply<TaskBody>)

  /** The statuses the update endpoint accepts; `waiting_system` is not among them. */
  const ApiStatusNames: seq<string> :=
    ["pending", "in_progress", "completed", "failed", "waiting_user", "cancelled", "stale"]

  const InvalidStatus :=
    "Invalid status. Must be one of: pending, in_progress, completed, failed, waiting_user, cancelled, stale"

  /** The whitelist check on `data['status']` followed by the service's reading
      of the name. */
  function ApiStatus(v: Value): (r: Option<Status>)
    ensures r.Some? <==> v.Str? && v.s in ApiStatusNames
    ensures r.Some? ==> StatusName(r.value) == v.s && r.value != WaitingSystem
  {
    if v.Str? && v.s in ApiStatusNames then
      var s := ParseStatus(v.s);
      assert s.Some?;
      s
    else None
  }

  /** What `float(progress)` in `update_task_status` makes of the request's
      `progress`: nothing when it is missing or `null`; a number for an integer, a
      boolean or a whole-number string; the `ValueError` of any other string; the
      `TypeError` of a list or an object. */
  datatype ProgressArg = NotGiven | Number(value: int) | NotANumber(message: string) | NotConvertible

  function ProgressOf(d: Dict): (r: ProgressArg)
    ensures r.NotGiven? <==> "progress" !in d || d["progress"].Null?
    ensures r.NotConvertible? <==> "progress" in d && (d["progress"].List? || d["progress"].Object?)
    ensures "progress" in d && d["progress"].Int? ==> r == Number(d["progress"].i)
    ensures "progress" in d && d["progress"].Bool? ==> r == Number(if d["progress"].b then 1 else 0)
    ensures "progress" in d && d["progress"].Str? ==>
      (r.Number? <==> ParseWhole(d["progress"].s).Some?)
      && (r.Number? ==> r.value == ParseWhole(d["progress"].s).value)
  {
    if "progress" !in d then NotGiven
    else match d["progress"]
      case Null => NotGiven
      case Int(i) => Number(i)
      case Bool(b) => Number(if b then 1 else 0)
      case Str(text) =>
        (match ParseWhole(text)
         case Some(i) => Number(i)
         case None => NotANumber("could not convert string to float: '" + text + "'"))
      case _ => NotConvertible
  }

  /** The progress handed to the service once the conversion succeeded. */
  function GivenProgress(p: ProgressArg): Option<int> {
    if p.Number? then Some(p.value) else None
  }

  function OptionalText(d: Dict, key: string): string {
    if key in d && d[key].Str? then d[key].s else ""
  }

  /** The view of `PUT /tasks/<task_id>/update`, once the fields were validated. */
  function UpdateView(db: Db, id: TaskId, body: Value, io: Io): (Db, Outcome<TaskBody>) {
    if FindById(db.tasks, id).None? then (db, Done(ErrorReply(404, NotFound(id))))
    else if !body.Object? || "status" !in body.fields then (db, Done(ErrorReply(500, InternalError)))
    else
      var d := body.fields;
      match ApiStatus(d["status"])
      case None => (db, Done(ErrorReply(400, InvalidStatus)))
      case Some(s) =>
        match ProgressOf(d)
        case NotANumber(m) => (db, Done(ErrorReply(400, m)))
        case NotConvertible => (db, Done(ErrorReply(500, InternalError)))
        case p =>
          var step := UpdateTaskStatus(db, id, s, GivenProgress(p),
                                       OptionalText(d, "current_step"),
                                       OptionalText(d, "error_message"), io);
          match step.reply
          case Raised(m) => (step.db, Done(ErrorReply(400, m)))
          case ReturnedNone => (step.db, Done(ErrorReply(500, "Failed to update task status")))
          case Returned(t) =>
            (step.db, Done(Ok200(TaskBody("Task status updated successfully", t))))
  }

  /** `PUT /tasks/<task_id>/update`. The request is validated before the task is
      looked up, so a bad request about an unknown task is a 400, not a 404. Any
      whitelisted status is applied whatever the current one. */
  function UpdateEndpoint(db: Db, id: TaskId, req: Request, io: Io): (r: Served)
    ensures !req.isJson ==> r == Served(db, ErrorReply(400, ContentTypeError))
    ensures Code(r.reply) == 200 <==>
      && req.isJson && req.body.Some? && req.body.value.Object?
      && "status" in req.body.value.fields
      && ApiStatus(req.body.value.fields["status"]).Some?
      && FindById(db.tasks, id).Some? && io.saved
      && (ProgressOf(req.body.value.fields).NotGiven? || ProgressOf(req.body.value.fields).Number?)
    ensures r.reply.Ok200? ==>
      && r.reply.body.task.status == ApiStatus(req.body.value.fields["status"]).value
      && r.db == UpdateTaskStatus(db, id, r.reply.body.task.status,
                                  GivenProgress(ProgressOf(req.body.value.fields)),
                                  OptionalText(req.body.value.fields, "current_step"),
                                  OptionalText(req.body.value.fields, "error_message"), io).db
    ensures !r.reply.Ok200? ==> r.db == db
    ensures (req.isJson && req.body.Some? && MissingFields(req.body.value, ["status"]) == Some([])
             && FindById(db.tasks, id).None?) ==>
      r.reply == ErrorReply(404, NotFound(id))
    ensures (req.isJson && req.body.Some? && req.body.value.Object?
             && "status" in req.body.value.fields && FindById(db.tasks, id).Some?
             && ApiStatus(req.body.value.fields["status"]).None?) ==>
      r.reply == ErrorReply(400, InvalidStatus)
    ensures (req.isJson && req.body.Some? && req.body.value.Object?
             && "status" in req.body.value.fields && FindById(db.tasks, id).Some?
             && ApiStatus(req.body.value.fields["status"]).Some?) ==>
      && (ProgressOf(req.body.value.fields).NotANumber? ==>
            r.reply == ErrorReply(400, ProgressOf(req.body.value.fields).message))
      && (ProgressOf(req.body.value.fields).NotConvertible? ==>
            r.reply == ErrorReply(500, InternalError))
  {
    match ValidateRequest<TaskBody>(req, ["status"])
    case Some(early) => Served(db, HandleErrors(early))
    case None =>
      var (db', outcome) := UpdateView(db, id, req.body.value, io);
      Served(db', HandleErrors(outcome))
  }

  /** The update view applies the service update whenever the task is known, the
      status is whitelisted and the progress converts. */
  lemma ViewApplies(db: Db, id: TaskId, d: Dict, io: Io)
    requires FindById(db.tasks, id).Some? && io.saved
    requires "status" in d && ApiStatus(d["status"]).Some?
    requires ProgressOf(d).Number? || ProgressOf(d).NotGiven?
    ensures var step := UpdateTaskStatus(db, id, ApiStatus(d["status"]).value, GivenProgress(ProgressOf(d)),
                                         OptionalText(d, "current_step"),
                                         OptionalText(d, "error_message"), io);
      && step.reply.Returned?
      && UpdateView(db, id, Object(d), io)
         == (step.db, Done(Ok200(TaskBody("Task status updated successfully", step.reply.task))))
  {
  }

  /** `float(progress)` at work: the string form of a number is stored as that
      number. */
  lemma NumberStringStored(db: Db, id: TaskId, fields: Dict, io: Io, n: int)
    requires FindById(db.tasks, id).Some? && io.saved
    requires "status" in fields && ApiStatus(fields["status"]).Some?
    requires ApiStatus(fields["status"]).value != Completed
    ensures var r := UpdateEndpoint(db, id, Request(true, Some(Object(fields["progress" := Str(IntToString(n))]))), io);
      r.reply.Ok200? && r.db.tasks[id].progress == n
  {
    var d := fields["progress" := Str(IntToString(n))];
    WholeRoundTrip(n);
    assert ProgressOf(d) == Number(n);
    assert d["status"] == fields["status"];
    MissingFromObject(d, ["status"]);
    assert ValidateRequest<TaskBody>(Request(true, Some(Object(d))), ["status"]).None?;
    ViewApplies(db, id, d, io);
  }

  /** A word given as the progress is refused with Python's conversion error, as
      a 400. */
  lemma WordProgressRefused(db: Db, id: TaskId, fields: Dict, io: Io, word: string)
    requires FindById(db.tasks, id).Some?
    requires "status" in fields && ApiStatus(fields["status"]).Some?
    requires word != [] && forall i :: 0 <= i < |word| ==> 'a' <= word[i] <= 'z'
    ensures UpdateEndpoint(db, id, Request(true, Some(Object(fields["progress" := Str(word)]))), io)
      == Served(db, ErrorReply(400, "could not convert string to float: '" + word + "'"))
  {
    var d := fields["progress" := Str(word)];
    WordIsNoNumber(word);
    assert ProgressOf(d) == NotANumber("could not convert string to float: '" + word + "'");
    assert d["status"] == fields["status"];
  }

  /** `f'Task queued for retry (attempt {n} of {m})'`. */
  function RetryMessage(t: Task): string {
    "Task queued for retry (attempt " + IntToString(t.retryCount) + " of "
      + IntToString(t.maxRetries) + ")"
  }

  /** `POST /tasks/<task_id>/retry`: the endpoint repeats the service's guards
      (unknown task, not failed, retries used up) before calling it. */
  function RetryEndpoint(db: Db, id: TaskId, io: Io): (r: Served)
    ensures FindById(db.tasks, id).None? ==> r == Served(db, ErrorReply(404, NotFound(id)))
    ensures FindById(db.tasks, id).Some? && db.tasks[id].status != Failed ==>
      r == Served(db, ErrorReply(400, NotRetryable))
    ensures FindById(db.tasks, id).Some? && db.tasks[id].status == Failed
            && db.tasks[id].retryCount >= db.tasks[id].maxRetries ==>
      r == Served(db, ErrorReply(400, RetriesExhausted))
  {
    var outcome :=
      match FindById(db.tasks, id)
      case None => (db, Done(ErrorReply(404, NotFound(id))))
      case Some(task) =>
        if task.status != Failed then (db, Done(ErrorReply(400, NotRetryable)))
        else if task.retryCount >= task.maxRetries then (db, Done(ErrorReply(400, RetriesExhausted)))
        else
          var step := RetryTask(db, id, io);
          match step.reply
          case Raised(m) => (step.db, Done(ErrorReply(400, m)))
          case ReturnedNone => (step.db, Done(ErrorReply(500, "Failed to retry task")))
          case Returned(t) => (step.db, Done(Ok200(TaskBody(RetryMessage(t), t))));
    Served(outcome.0, HandleErrors(outcome.1))
  }

  /** The retry endpoint and the service agree: the endpoint succeeds exactly when
      the service returns the task, changes the database exactly as the service
      does, and refuses with the service's own message otherwise. */
  lemma RetryEndpointAgrees(db: Db, id: TaskId, io: Io)
    ensures RetryEndpoint(db, id, io).db == RetryTask(db, id, io).db
    ensures RetryEndpoint(db, id, io).reply.Ok200? <==> RetryTask(db, id, io).reply.Returned?
    ensures RetryTask(db, id, io).reply.Raised? ==>
      RetryEndpoint(db, id, io).reply.ErrorReply?
      && RetryEndpoint(db, id, io).reply.error == RetryTask(db, id, io).reply.message
  {
  }

  /** `POST /tasks/<task_id>/cancel`: the same guard as the service, then the call. */
  function CancelEndpoint(db: Db, id: TaskId, io: Io): (r: Served)
    ensures FindById(db.tasks, id).None? ==> r == Served(db, ErrorReply(404, NotFound(id)))
    ensures FindById(db.tasks, id).Some? && !Cancellable(db.tasks[id].status) ==>
      r == Served(db, ErrorReply(400, NotCancellable))
  {
    var outcome :=
      match FindById(db.tasks, id)
      case None => (db, Done(ErrorReply(404, NotFound(id))))
      case Some(task) =>
        if !Cancellable(task.status) then (db, Done(ErrorReply(400, NotCancellable)))
        else
          var step := CancelTask(db, id, io);
          match step.reply
          case Raised(m) => (step.db, Done(ErrorReply(400, m)))
          case ReturnedNone => (step.db, Done(ErrorReply(500, "Failed to cancel task")))
          case Returned(t) => (step.db, Done(Ok200(TaskBody("Task cancelled successfully", t))));
    Served(outcome.0, HandleErrors(outcome.1))
  }

  /** The cancel endpoint and the service agree in the same way. */
  lemma CancelEndpointAgrees(db: Db, id: TaskId, io: Io)
    ensures CancelEndpoint(db, id, io).db == CancelTask(db, id, io).db
    ensures CancelEndpoint(db, id, io).reply.Ok200? <==> CancelTask(db, id, io).reply.Returned?
    ensures CancelTask(db, id, io).reply.Raised? ==>
      CancelEndpoint(db, id, io).reply.ErrorReply?
      && CancelEndpoint(db, id, io).reply.error == CancelTask(db, id, io).reply.message
  {
  }

  /** The view of `POST /tasks/<task_id>/fail`, once the fields were validated. */
  function FailView(db: Db, id: TaskId, body: Value, io: Io): (Db, Outcome<TaskBody>) {
    if FindById(db.tasks, id).None? then (db, Done(ErrorReply(404, NotFound(id))))
    else if !body.Object? || "error_message" !in body.fields then
      (db, Done(ErrorReply(500, InternalError)))
    else
      var step := FailTask(db, id, OptionalText(body.fields, "error_message"), io);
      match step.reply
      case Raised(m) => (step.db, Done(ErrorReply(400, m)))
      case ReturnedNone => (step.db, Done(ErrorReply(500, "Failed to mark task as failed")))
      case Returned(t) => (step.db, Done(Ok200(TaskBody("Task marked as failed", t))))
  }

  /** `POST /tasks/<task_id>/fail`: any known task may be failed, whatever its
      status, once the request names an error message. */
  function FailEndpoint(db: Db, id: TaskId, req: Request, io: Io): (r: Served)
    ensures !req.isJson ==> r == Served(db, ErrorReply(400, ContentTypeError))
    ensures req.isJson && req.body == Some(Object(map[])) ==>
      r == Served(db, MissingReply(["error_message"]))
    ensures r.reply.Ok200? <==>
      && req.isJson && req.body.Some? && req.body.value.Object?
      && "error_message" in req.body.value.fields
      && FindById(db.tasks, id).Some? && io.saved
    ensures r.reply.Ok200? ==>
      var message := OptionalText(req.body.value.fields, "error_message");
      && r.db == FailTask(db, id, message, io).db
      && r.reply.body.message == "Task marked as failed"
      && r.reply.body.task
         == db.tasks[id].(status := Failed, errorMessage := Some(message), updatedAt := io.now)
    ensures !r.reply.Ok200? ==> r.db == db
  {
    match ValidateRequest<TaskBody>(req, ["error_message"])
    case Some(early) => Served(db, HandleErrors(early))
    case None =>
      var (db', outcome) := FailView(db, id, req.body.value, io);
      Served(db', HandleErrors(outcome))
  }

  // ---- stale listing -------------------------------------------------------

  const DefaultStaleHours := 24

  datatype StaleListing = StaleListing(staleTasks: Store, count: nat, thresholdHours: int)

  /** `GET /tasks/stale`: the `hours` query argument, 24 when absent or not an
      integer, and the stale tasks that threshold selects. */
  function StaleEndpoint(store: Store, hours: Option<int>, now: Time): (r: HttpReply<StaleListing>)
    ensures r.Ok200?
    ensures r.body.thresholdHours == hours.GetOr(DefaultStaleHours)
    ensures r.body.count == |r.body.staleTasks|
    ensures forall id :: id in r.body.staleTasks <==>
      && id in store && MayGoStale(store[id].status)
      && store[id].updatedAt < now - r.body.thresholdHours * StatusLog.SecondsPerHour
  {
    var h := hours.GetOr(DefaultStaleHours);
    var stale := GetStaleTasks(store, h, now);
    Ok200(StaleListing(stale, |stale|, h))
  }

  // ---- refusal messages and status codes -------------------------------------

  /** How `handle_errors` classifies the services' refusals, should one reach it:
      "... not found" is a 404. (The task views answer their own pre-check 404 and
      turn a service `ValueError` into a 400 before `handle_errors` sees it.) */
  lemma NotFoundMessagesRoute(id: TaskId)
    ensures HandleErrors<TaskBody>(Threw(ValueError(NotFound(id)))).code == 404
    ensures HandleErrors<TaskBody>(Threw(ValueError("Session not found"))).code == 404
  {
    assert NotFound(id) == ("Task " + id) + " " + NotFoundPhrase;
    NotFoundSuffixIs404<TaskBody>("Task " + id);
    assert "Session not found" == "Session" + " " + NotFoundPhrase;
    NotFoundSuffixIs404<TaskBody>("Session");
  }

  /** The guard refusals classify as 400: none of them says "not found". */
  lemma NotRetryableRoute()
    ensures HandleErrors<TaskBody>(Threw(ValueError(NotRetryable))).code == 400
  {
    assert !SaysNotFound(NotRetryable) by {
      NotRetryableLacksU();
      LacksChar(NotRetryable, 'u');
    }
  }

  lemma RetriesExhaustedRoute()
    ensures HandleErrors<TaskBody>(Threw(ValueError(RetriesExhausted))).code == 400
  {
    assert !SaysNotFound(RetriesExhausted) by {
      RetriesExhaustedLacksF();
      LacksChar(RetriesExhausted, 'f');
    }
  }

  /** So does the cancel refusal, the code the cancel view answers itself. */
  lemma NotCancellableRoute()
    ensures HandleErrors<TaskBody>(Threw(ValueError(NotCancellable))).code == 400
  {
    assert !SaysNotFound(NotCancellable) by {
      NotCancellableLacksU();
      LacksChar(NotCancellable, 'u');
    }
  }

  /** The refusal messages lack a letter of "not found" in either case. */
  lemma NotCancellableLacksU()
    ensures 'u' !in NotCancellable && 'U' !in NotCancellable
  {
    NotCancellableHalves();
    var a, b := "Only pending or in-progress ", "tasks can be cancelled";
    assert 'u' !in a && 'U' !in a;
    assert 'u' !in b && 'U' !in b;
  }

  lemma NotCancellableHalves()
    ensures NotCancellable == "Only pending or in-progress " + "tasks can be cancelled"
  {
  }

  lemma NotRetryableLacksU()
    ensures 'u' !in NotRetryable && 'U' !in NotRetryable
  {
  }

  lemma RetriesExhaustedLacksF()
    ensures 'f' !in RetriesExhausted && 'F' !in RetriesExhausted
  {
  }

  /** A message whose lower-cased form lacks a letter of "not found" does not
      say "not found". */
  lemma LacksChar(m: string, c: char)
    requires c in NotFoundPhrase && 'a' <= c <= 'z'
    requires c !in m && (c as int - 32) as char !in m
    ensures !SaysNotFound(m)
  {
    assert c !in Lower(m) by {
      forall i | 0 <= i < |m|
        ensures Lower(m)[i] != c
      {
        assert m[i] != c && m[i] != (c as int - 32) as char;
      }
    }
    if SaysNotFound(m) {
      var i :| 0 <= i < |NotFoundPhrase| && NotFoundPhrase[i] == c;
      ContainsHasChar(Lower(m), NotFoundPhrase, i);
    }
  }
}

=== FILE: api_utils.dfy ===
/** The two request decorators of the API layer: `validate_request` (JSON content
    type and required fields) and `handle_errors` (exception to status code). */
module ApiUtils {
  import opened Wrappers
  import opened Text
  import opened Json
  import Seqs

  /** An HTTP answer: a success body, an `{'error': ...}` with its status code, or
      the 400 listing the missing fields. */
  datatype HttpReply<T> =
    | Ok200(body: T)
    | ErrorReply(code: int, error: string)
    | MissingReply(missing: seq<string>)

  function Code<T>(r: HttpReply<T>): int {
    match r
    case Ok200(_) => 200
    case ErrorReply(c, _) => c
    case MissingReply(_) => 400
  }

  /** What a view raised, if it raised. */
  datatype Exception = ValueError(message: string) | OtherError(message: string)

  /** How a view ends: with a reply, or by raising. */
  datatype Outcome<T> = Done(reply: HttpReply<T>) | Threw(e: Exception)

  /** An incoming request: whether its content type is JSON, and its body, `None`
      when the body does not parse (Flask then raises). */
  datatype Request = Request(isJson: bool, body: Option<Value>)

  const ContentTypeError := "Content-Type must be application/json"
  const MissingFieldsError := "Missing required fields"
  const InternalError := "Internal server error"
  const NotFoundPhrase := "not found"

  /** Python's `field in data` on a decoded JSON body: a key of an object, an
      element of a list, a substring of a string; anything else raises. */
  function HasField(body: Value, field: string): Option<bool> {
    match body
    case Object(fields) => Some(field in fields)
    case List(items) => Some(Str(field) in items)
    case Str(s) => Some(Contains(s, field))
    case _ => None
  }

  /** `[field for field in required_fields if field not in data]`, or `None` when
      the membership test raises. */
  function MissingFields(body: Value, required: seq<string>): (r: Option<seq<string>>)
    ensures r.None? <==> required != [] && HasField(body, required[0]).None?
    ensures r.Some? ==> |r.value| <= |required|
    ensures r.Some? ==> forall i :: 0 <= i < |r.value| ==> r.value[i] in required
    ensures r.Some? ==> forall i :: 0 <= i < |required| ==>
      (required[i] in r.value <==> HasField(body, required[i]) == Some(false))
    decreases |required|
  {
    if required == [] then Some([])
    else match HasField(body, required[0])
      case None => None
      case Some(present) =>
        var rest := MissingFields(body, required[1..]);
        assert forall i :: 1 <= i < |required| ==> required[i] == required[1..][i - 1];
        if rest.None? then None
        else Some((if present then [] else [required[0]]) + rest.value)
  }

  /** For an object body the missing fields are exactly the required names that
      are not keys, in the order they were required. */
  lemma {:induction false} MissingFromObject(fields: map<string, Value>, required: seq<string>)
    ensures MissingFields(Object(fields), required)
         == Some(Seqs.Filter((f: string) => f !in fields, required))
    decreases |required|
  {
    if required != [] {
      MissingFromObject(fields, required[1..]);
    }
  }

  /** An empty object lacks every required field. */
  lemma EmptyObjectMissesAll()
    ensures MissingFields(Object(map[]), ["company_name", "research_type"])
         == Some(["company_name", "research_type"])
  {
    var required := ["company_name", "research_type"];
    var empty: map<string, Value> := map[];
    assert required[1..] == ["research_type"] && required[1..][1..] == [];
    assert MissingFields(Object(empty), required[1..][1..]) == Some([]);
    var last := required[1..];
    assert MissingFields(Object(empty), last[1..]) == Some([]);
    assert MissingFields(Object(empty), last) == Some([last[0]] + []);
    assert MissingFields(Object(empty), required) == Some([required[0]] + ([last[0]] + []));
    assert [required[0]] + ([last[0]] + []) == required;
  }

  /** `validate_request(required_fields)`: `None` lets the view run; otherwise the
      outcome that replaces it. The content type is checked before the fields. */
  function ValidateRequest<T>(req: Request, required: seq<string>): (r: Option<Outcome<T>>)
    ensures !req.isJson ==> r == Some(Done(ErrorReply(400, ContentTypeError)))
    ensures r.None? <==>
      req.isJson && req.body.Some? && MissingFields(req.body.value, required) == Some([])
    ensures req.isJson && req.body.Some? && MissingFields(req.body.value, required).Some?
            && MissingFields(req.body.value, required) != Some([]) ==>
      r == Some(Done(MissingReply(MissingFields(req.body.value, required).value)))
  {
    if !req.isJson then Some(Done(ErrorReply(400, ContentTypeError)))
    else match req.body
      case None => Some(Threw(OtherError("Failed to decode JSON object")))
      case Some(body) =>
        match MissingFields(body, required)
        case None => Some(Threw(OtherError("argument is not iterable")))
        case Some(missing) =>
          if missing == [] then None else Some(Done(MissingReply(missing)))
  }

  /** Whether a `ValueError` message reads as "not found", case-insensitively. */
  predicate SaysNotFound(message: string) {
    Contains(Lower(message), NotFoundPhrase)
  }

  /** `handle_errors`: a reply passes through; a `ValueError` becomes 404 when its
      message says "not found" and 400 otherwise, keeping its message; any other
      exception becomes 500 with a fixed message. */
  function HandleErrors<T>(o: Outcome<T>): (r: HttpReply<T>)
    ensures o.Done? ==> r == o.reply
    ensures o.Threw? ==> r.ErrorReply?
    ensures o.Threw? && o.e.ValueError? ==>
      r.error == o.e.message && (r.code == 404 <==> SaysNotFound(o.e.message))
      && (r.code == 400 <==> !SaysNotFound(o.e.message))
    ensures o.Threw? && o.e.OtherError? ==> r == ErrorReply(500, InternalError)
  {
    match o
    case Done(reply) => reply
    case Threw(ValueError(m)) => if SaysNotFound(m) then ErrorReply(404, m) else ErrorReply(400, m)
    case Threw(OtherError(_)) => ErrorReply(500, InternalError)
  }

  /** Lower-casing leaves the phrase "not found" as it is. */
  lemma LowerNotFound()
    ensures Lower(" " + NotFoundPhrase) == " " + NotFoundPhrase
  {
  }

  /** Every message of the form `<anything> not found` maps to 404, whatever the
      case of the leading part. */
  lemma NotFoundSuffixIs404<T>(prefix: string)
    ensures SaysNotFound(prefix + " " + NotFoundPhrase)
    ensures HandleErrors<T>(Threw(ValueError(prefix + " " + NotFoundPhrase))).code == 404
  {
    LowerAppend(prefix, " " + NotFoundPhrase);
    assert prefix + " " + NotFoundPhrase == prefix + (" " + NotFoundPhrase);
    LowerNotFound();
    ContainsSuffix(Lower(prefix), " " + NotFoundPhrase);
    ContainsInner(Lower(prefix), " ", NotFoundPhrase);
  }

  /** A string containing `a + p` contains `p`. */
  lemma ContainsInner(s: string, a: string, p: string)
    ensures Contains(s + (a + p), p)
  {
    assert s + (a + p) == (s + a) + p;
    ContainsSuffix(s + a, p);
  }
}

=== FILE: calls.dfy ===
/** Python's binding of a call's positional arguments: a call that passes fewer
    arguments than the function has parameters without defaults raises `TypeError`
    before the function body runs. */
module Calls {
  import opened Wrappers
  import opened ApiUtils

  /** How a Python expression ends: with its value, or by raising. */
  datatype Evaluation<T> = Normal(value: T) | Thrown(e: Exception)

  /** The message CPython gives when the parameter `missing` was not passed. */
  function MissingArgument(name: string, missing: string): string {
    name + "() missing 1 required positional argument: '" + missing + "'"
  }

  /** The parameters without defaults of the database helpers the services call,
      after `cls` or `self`: `find_by_id(session_id, db_manager)`,
      `find_by_session(session_id, db_manager)` and `save(db_manager)`. */
  const FindByIdParams := ["session_id", "db_manager"]
  const FindBySessionParams := ["session_id", "db_manager"]
  const SaveParams := ["db_manager"]

  /** Calls `name`, whose parameters without defaults (after `self` or `cls`) are
      `required`, with `passed` positional arguments; `body` is what the call
      evaluates to once its arguments are bound. */
  function Bind<T>(name: string, required: seq<string>, passed: nat, body: T): (r: Evaluation<T>)
    ensures r.Thrown? <==> passed < |required|
    ensures r.Thrown? ==> r.e.OtherError?
    ensures r.Normal? ==> r.value == body
  {
    if passed < |required| then Thrown(OtherError(MissingArgument(name, required[passed])))
    else Normal(body)
  }

  /** `handle_errors` around a service call whose `ValueError(m)` is `Fail(m)`: a
      result is a 200, a `ValueError` keeps its message, anything else is a 500. */
  function HandledCall<T>(e: Evaluation<Result<T>>): (r: HttpReply<T>)
    ensures e.Thrown? && e.e.OtherError? ==> r == ErrorReply(500, InternalError)
    ensures e.Normal? && e.value.Ok? ==> r == Ok200(e.value.value)
    ensures e.Normal? && e.value.Fail? ==> r.ErrorReply? && r.error == e.value.message
  {
    HandleErrors(match e
                 case Normal(Ok(v)) => Done(Ok200(v))
                 case Normal(Fail(m)) => Threw(ValueError(m))
                 case Thrown(x) => Threw(x))
  }

  /** A service call that raises a non-`ValueError` is a 500 whatever it would
      otherwise have computed. */
  lemma ArityErrorIs500<T>(name: string, required: seq<string>, passed: nat, body: Result<T>)
    requires passed < |required|
    ensures HandledCall(Bind(name, required, passed, body)) == ErrorReply(500, InternalError)
  {
  }
}

=== FILE: company.dfy ===
/** The company record: its fields with their keyword defaults, `validate()`, and
    the `to_dict()` / `from_dict()` pair. Timestamps are integer seconds and ids
    plain strings ("" when unset). */
module CompanyRecord {
  import opened Wrappers
  import opened Text
  import opened Json

  datatype Company = Company(
    id: string,
    name: string,
    domain: string,
    size: string,
    headquarters: string,
    locations: seq<string>,
    industry: string,
    description: string,
    linkedinUrl: string,
    websiteData: Dict,
    opencorporatesData: Dict,
    companyNumber: string,
    jurisdiction: string,
    createdAt: int,
    updatedAt: int)

  const NameRequired := "Company name is required"
  const DomainRequired := "Company domain is required"

  /** `Company.validate()`: the name is checked before the domain; both must have
      a non-whitespace character. */
  function Validate(c: Company): (r: Check)
    ensures r == Valid <==> !IsBlank(c.name) && !IsBlank(c.domain)
    ensures r == Invalid(NameRequired) <==> IsBlank(c.name)
    ensures r == Invalid(DomainRequired) <==> !IsBlank(c.name) && IsBlank(c.domain)
  {
    if IsBlank(c.name) then Invalid(NameRequired)
    else if IsBlank(c.domain) then Invalid(DomainRequired)
    else Valid
  }

  function IdValue(id: string): Value {
    if id == "" then Null else Str(id)
  }

  /** The dictionary `Company.to_dict()` builds: the document's id and times, then
      every field as is. */
  function Layout(c: Company): Dict {
    map[
      "_id" := IdValue(c.id),
      "created_at" := Int(c.createdAt),
      "updated_at" := Int(c.updatedAt),
      "name" := Str(c.name),
      "domain" := Str(c.domain),
      "size" := Str(c.size),
      "headquarters" := Str(c.headquarters),
      "locations" := StrList(c.locations),
      "industry" := Str(c.industry),
      "description" := Str(c.description),
      "linkedin_url" := Str(c.linkedinUrl),
      "website_data" := Object(c.websiteData),
      "opencorporates_data" := Object(c.opencorporatesData),
      "company_number" := Str(c.companyNumber),
      "jurisdiction" := Str(c.jurisdiction)]
  }

  /** `Company.to_dict()`, which `from_dict()` reads back field for field. */
  function ToDict(c: Company): (d: Dict)
    ensures FromDict(d, 0) == c
  {
    IdentityFieldsRead(c);
    ProfileFieldsRead(c);
    DataFieldsRead(c);
    Layout(c)
  }

  /** The id, times, name and domain read back. */
  lemma IdentityFieldsRead(c: Company)
    ensures var r := FromDict(Layout(c), 0);
      r.id == c.id && r.createdAt == c.createdAt && r.updatedAt == c.updatedAt
      && r.name == c.name && r.domain == c.domain
  {
    var d := Layout(c);
    assert d["_id"] == IdValue(c.id);
    assert d["created_at"] == Int(c.createdAt) && d["updated_at"] == Int(c.updatedAt);
    assert d["name"] == Str(c.name) && d["domain"] == Str(c.domain);
  }

  /** The descriptive fields read back. */
  lemma ProfileFieldsRead(c: Company)
    ensures var r := FromDict(Layout(c), 0);
      r.size == c.size && r.headquarters == c.headquarters && r.locations == c.locations
      && r.industry == c.industry && r.description == c.description
  {
    var d := Layout(c);
    assert d["size"] == Str(c.size) && d["headquarters"] == Str(c.headquarters);
    assert d["locations"] == StrList(c.locations) && d["industry"] == Str(c.industry);
    assert d["description"] == Str(c.description);
    StrListRoundTrip(c.locations);
  }

  /** The link, registry and scraped-data fields read back. */
  lemma DataFieldsRead(c: Company)
    ensures var r := FromDict(Layout(c), 0);
      r.linkedinUrl == c.linkedinUrl && r.websiteData == c.websiteData
      && r.opencorporatesData == c.opencorporatesData
      && r.companyNumber == c.companyNumber && r.jurisdiction == c.jurisdiction
  {
    var d := Layout(c);
    assert d["linkedin_url"] == Str(c.linkedinUrl);
    assert d["website_data"] == Object(c.websiteData);
    assert d["opencorporates_data"] == Object(c.opencorporatesData);
    assert d["company_number"] == Str(c.companyNumber);
    assert d["jurisdiction"] == Str(c.jurisdiction);
  }

  /** `Company.from_dict()`: each field from its key, with the constructor's
      default (`now` for the times) when the key is absent. */
  function FromDict(d: Dict, now: int): Company {
    Company(
      GetStr(d, "_id", ""),
      GetStr(d, "name", ""),
      GetStr(d, "domain", ""),
      GetStr(d, "size", ""),
      GetStr(d, "headquarters", ""),
      GetStrList(d, "locations"),
      GetStr(d, "industry", ""),
      GetStr(d, "description", ""),
      GetStr(d, "linkedin_url", ""),
      GetObject(d, "website_data"),
      GetObject(d, "opencorporates_data"),
      GetStr(d, "company_number", ""),
      GetStr(d, "jurisdiction", ""),
      GetInt(d, "created_at", now),
      GetInt(d, "updated_at", now))
  }

  /** A company with no fields given has the empty name, so it fails validation
      on the name. */
  lemma EmptyCompanyRejected(now: int)
    ensures Validate(FromDict(map[], now)) == Invalid(NameRequired)
  {
  }

  /** Serialising keeps validity: a company read back from its dictionary
      validates exactly as the original does, name and domain included. */
  lemma RoundTripKeepsValidity(c: Company, now: int)
    ensures FromDict(ToDict(c), now).name == c.name
    ensures FromDict(ToDict(c), now).domain == c.domain
    ensures Validate(FromDict(ToDict(c), now)) == Validate(c)
  {
    var d := ToDict(c);
    assert FromDict(d, now).name == FromDict(d, 0).name;
    assert FromDict(d, now).domain == FromDict(d, 0).domain;
  }
}

=== FILE: contact.dfy ===
/** The contact record: its fields with their keyword defaults, `validate()`, and
    the `to_dict()` / `from_dict()` pair. The company id is a plain string, ""
    when unset. */
module ContactRecord {
  import opened Wrappers
  import opened Text
  import opened Json

  datatype Contact = Contact(
    id: string,
    name: string,
    title: string,
    companyId: string,
    email: string,
    linkedinProfile: string,
    phone: string,
    notes: string,
    source: string,
    createdAt: int,
    updatedAt: int)

  const NameRequired := "Contact name is required"
  const CompanyRequired := "Company ID is required"

  /** `Contact.validate()`: a name with a non-whitespace character, then a
      company id. */
  function Validate(c: Contact): (r: Check)
    ensures r == Valid <==> !IsBlank(c.name) && c.companyId != ""
    ensures r == Invalid(NameRequired) <==> IsBlank(c.name)
    ensures r == Invalid(CompanyRequired) <==> !IsBlank(c.name) && c.companyId == ""
  {
    if IsBlank(c.name) then Invalid(NameRequired)
    else if c.companyId == "" then Invalid(CompanyRequired)
    else Valid
  }

  function IdValue(id: string): Value {
    if id == "" then Null else Str(id)
  }

  /** `Contact.to_dict()`: the document's id and times, then every field as is. */
  function ToDict(c: Contact): (d: Dict)
    ensures FromDict(d, 0) == c
  {
    map[
      "_id" := IdValue(c.id),
      "created_at" := Int(c.createdAt),
      "updated_at" := Int(c.updatedAt),
      "name" := Str(c.name),
      "title" := Str(c.title),
      "company_id" := IdValue(c.companyId),
      "email" := Str(c.email),
      "linkedin_profile" := Str(c.linkedinProfile),
      "phone" := Str(c.phone),
      "notes" := Str(c.notes),
      "source" := Str(c.source)]
  }

  /** `Contact.from_dict()`: each field from its key, with the constructor's
      default (`now` for the times) when the key is absent. */
  function FromDict(d: Dict, now: int): Contact {
    Contact(
      GetStr(d, "_id", ""),
      GetStr(d, "name", ""),
      GetStr(d, "title", ""),
      GetStr(d, "company_id", ""),
      GetStr(d, "email", ""),
      GetStr(d, "linkedin_profile", ""),
      GetStr(d, "phone", ""),
      GetStr(d, "notes", ""),
      GetStr(d, "source", ""),
      GetInt(d, "created_at", now),
      GetInt(d, "updated_at", now))
  }

  /** A contact given a name but no company is rejected for the missing company. */
  lemma NamedContactNeedsCompany(name: string, now: int)
    requires !IsBlank(name)
    ensures Validate(FromDict(map["name" := Str(name)], now)) == Invalid(CompanyRequired)
  {
  }

  /** Serialising keeps validity: a contact read back from its dictionary carries
      the same name, email and source and validates as the original does. */
  lemma RoundTripKeepsValidity(c: Contact, now: int)
    ensures var c' := FromDict(ToDict(c), now);
      c'.name == c.name && c'.email == c.email && c'.source == c.source
      && Validate(c') == Validate(c)
  {
  }
}

=== FILE: html_parser.dfy ===
/** `HtmlParser`: the string logic of the scraper's HTML helpers — whitespace
    cleaning, phone-number cleanup, de-duplication of extracted matches, and the
    classification of links into social platforms. The regular-expression
    searches and NFKC normalisation are library behaviour and enter as
    parameters. */
module HtmlParser {
  import opened Wrappers
  import opened Text
  import Seqs

  predicate NotSpace(c: char) {
    !IsSpace(c)
  }

  /** The visible characters of a text: everything but whitespace, in order. */
  function Visible(s: string): string {
    Seqs.Filter(NotSpace, s)
  }

  /** A text made of whitespace only has no visible characters. */
  lemma {:induction false} VisibleOfBlank(s: string)
    requires IsBlank(s)
    ensures Visible(s) == []
    decreases |s|
  {
    if s != [] {
      assert IsSpace(s[0]);
      assert IsBlank(s[1..]) by {
        assert forall i :: 0 <= i < |s| - 1 ==> s[1..][i] == s[i + 1];
      }
      VisibleOfBlank(s[1..]);
    }
  }

  /** Whitespace before or after visible text adds no visible characters. */
  lemma VisibleBlankBefore(a: string, b: string)
    requires IsBlank(a)
    ensures Visible(a + b) == Visible(b)
  {
    Seqs.FilterAppend(NotSpace, a, b);
    VisibleOfBlank(a);
  }

  lemma VisibleBlankAfter(a: string, b: string)
    requires IsBlank(a)
    ensures Visible(b + a) == Visible(b)
  {
    Seqs.FilterAppend(NotSpace, b, a);
    VisibleOfBlank(a);
  }

  /** Stripping removes whitespace only: the visible characters stay. */
  lemma VisibleStripLeft(s: string)
    ensures Visible(StripLeft(s)) == Visible(s)
  {
    var l := StripLeft(s);
    var k := |s| - |l|;
    assert s == s[..k] + l;
    VisibleBlankBefore(s[..k], l);
  }

  lemma VisibleStripRight(s: string)
    ensures Visible(StripRight(s)) == Visible(s)
  {
    var r := StripRight(s);
    assert s == r + s[|r|..];
    VisibleBlankAfter(s[|r|..], r);
  }


  /** A text in which every whitespace character is a plain space and no two
      whitespace characters are adjacent. */
  predicate Collapsed(s: string) {
    && (forall i :: 0 <= i < |s| && IsSpace(s[i]) ==> s[i] == ' ')
    && (forall i :: 0 <= i < |s| - 1 ==> !IsSpace(s[i]) || !IsSpace(s[i + 1]))
  }

  /** The form `clean_text` produces: collapsed, and without whitespace at either
      end. */
  predicate IsClean(s: string) {
    Collapsed(s) && (s != [] ==> NotSpace(s[0]) && NotSpace(s[|s| - 1]))
  }

  /** `re.sub(r'\s+', ' ', s)`: every maximal run of whitespace becomes a single
      space. */
  function Collapse(s: string): (r: string)
    ensures Collapsed(r)
    ensures (r == []) == (s == [])
    ensures r != [] ==> (IsSpace(r[0]) <==> IsSpace(s[0]))
    decreases |s|
  {
    if s == [] then []
    else if IsSpace(s[0]) then [' '] + Collapse(StripLeft(s[1..]))
    else [s[0]] + Collapse(s[1..])
  }

  /** Collapsing changes whitespace only: the visible characters stay, in order. */
  lemma {:induction false} VisibleCollapse(s: string)
    ensures Visible(Collapse(s)) == Visible(s)
    decreases |s|
  {
    if s != [] {
      var c := Collapse(s);
      if IsSpace(s[0]) {
        var rest := StripLeft(s[1..]);
        VisibleCollapse(rest);
        VisibleStripLeft(s[1..]);
        assert c[1..] == Collapse(rest);
      } else {
        VisibleCollapse(s[1..]);
        assert c[1..] == Collapse(s[1..]);
      }
    }
  }

  /** A slice of a collapsed text is collapsed. */
  lemma CollapsedSlice(s: string, a: int, b: int)
    requires Collapsed(s) && 0 <= a <= b <= |s|
    ensures Collapsed(s[a..b])
  {
    var t := s[a..b];
    assert forall i :: 0 <= i < |t| ==> t[i] == s[a + i];
  }

  /** A run of whitespace followed by text that does not start with whitespace
      collapses to one space in front of the collapsed text. */
  lemma {:induction false} CollapseRun(run: string, rest: string)
    requires run != [] && IsBlank(run)
    requires rest == [] || NotSpace(rest[0])
    ensures Collapse(run + rest) == [' '] + Collapse(rest)
  {
    var s := run + rest;
    assert s[0] == run[0];
    assert s[1..] == run[1..] + rest;
    DropRun(run[1..], rest);
  }

  /** Stripping the left of whitespace followed by non-whitespace leaves the latter. */
  lemma {:induction false} DropRun(run: string, rest: string)
    requires IsBlank(run)
    requires rest == [] || NotSpace(rest[0])
    ensures StripLeft(run + rest) == rest
    decreases |run|
  {
    if run == [] {
      assert run + rest == rest;
    } else {
      assert (run + rest)[0] == run[0];
      assert (run + rest)[1..] == run[1..] + rest;
      DropRun(run[1..], rest);
    }
  }

  /** A visible character and what follows collapse independently. */
  lemma CollapseWord(c: char, rest: string)
    requires NotSpace(c)
    ensures Collapse([c] + rest) == [c] + Collapse(rest)
  {
    assert ([c] + rest)[1..] == rest;
  }

  /** Collapsing a collapsed text changes nothing. */
  lemma {:induction false} CollapseFixed(s: string)
    requires Collapsed(s)
    ensures Collapse(s) == s
    decreases |s|
  {
    if s != [] {
      CollapsedSlice(s, 1, |s|);
      CollapseFixed(s[1..]);
      if IsSpace(s[0]) {
        assert s[1..] == [] || NotSpace(s[1..][0]);
        assert StripLeft(s[1..]) == s[1..];
      }
      assert s == [s[0]] + s[1..];
    }
  }

  /** Stripping the front of a collapsed text keeps it collapsed. */
  lemma StripLeftCollapsed(c: string)
    requires Collapsed(c)
    ensures Collapsed(StripLeft(c))
  {
    var l := StripLeft(c);
    CollapsedSlice(c, |c| - |l|, |c|);
  }

  /** Stripping the end of a collapsed text that starts visibly leaves it clean. */
  lemma StripRightClean(l: string)
    requires Collapsed(l) && (l != [] ==> NotSpace(l[0]))
    ensures IsClean(StripRight(l))
  {
    var r := StripRight(l);
    CollapsedSlice(l, 0, |r|);
    assert r != [] ==> r[0] == l[0];
  }

  /** The whitespace rules of `clean_text` after normalisation: collapse, then strip. */
  function Tidy(s: string): (r: string)
    ensures IsClean(r)
  {
    var l := StripLeft(Collapse(s));
    StripLeftCollapsed(Collapse(s));
    StripRightClean(l);
    StripRight(l)
  }

  /** Tidying keeps the visible characters. */
  lemma VisibleTidy(s: string)
    ensures Visible(Tidy(s)) == Visible(s)
  {
    var c := Collapse(s);
    VisibleCollapse(s);
    VisibleStripLeft(c);
    VisibleStripRight(StripLeft(c));
  }

  /** A text is left unchanged by the whitespace rules exactly when it is already
      in clean form. */
  lemma TidyFixed(s: string)
    ensures Tidy(s) == s <==> IsClean(s)
  {
    if IsClean(s) {
      CollapseFixed(s);
    }
  }

  // ---- words: the reference definition of the whitespace rules -------------

  /** The word in progress, if any, as a list of at most one word. */
  function Flush(cur: string): seq<string> {
    if cur == [] then [] else [cur]
  }

  /** The maximal runs of non-whitespace of `s`, in order, after the partial word
      `cur` that precedes it; what `str.split()` returns for `cur + s`. */
  function WordsFrom(cur: string, s: string): seq<string>
    decreases |s|
  {
    if s == [] then Flush(cur)
    else if IsSpace(s[0]) then Flush(cur) + WordsFrom([], s[1..])
    else WordsFrom(cur + [s[0]], s[1..])
  }

  /** `s.split()`: the words of a text. */
  function Words(s: string): seq<string> {
    WordsFrom([], s)
  }

  /** `" ".join(words)`. */
  function JoinSpaces(words: seq<string>): string {
    if words == [] then []
    else if |words| == 1 then words[0]
    else words[0] + [' '] + JoinSpaces(words[1..])
  }

  /** Whitespace before a text, with no word in progress, adds no words. */
  lemma {:induction false} WordsStripLeft(s: string)
    ensures Words(StripLeft(s)) == Words(s)
    decreases |s|
  {
    if s != [] && IsSpace(s[0]) {
      WordsStripLeft(s[1..]);
    }
  }

  /** Whitespace alone only ends the word in progress. */
  lemma {:induction false} WordsOfBlank(cur: string, b: string)
    requires IsBlank(b)
    ensures WordsFrom(cur, b) == Flush(cur)
    decreases |b|
  {
    if b != [] {
      assert IsBlank(b[1..]) by {
        assert forall i :: 0 <= i < |b| - 1 ==> b[1..][i] == b[i + 1];
      }
      WordsOfBlank([], b[1..]);
    }
  }

  /** Whitespace after a text adds no words. */
  lemma {:induction false} WordsBlankAfter(cur: string, s: string, b: string)
    requires IsBlank(b)
    ensures WordsFrom(cur, s + b) == WordsFrom(cur, s)
    decreases |s|
  {
    if s == [] {
      assert s + b == b;
      WordsOfBlank(cur, b);
    } else {
      assert (s + b)[0] == s[0];
      assert (s + b)[1..] == s[1..] + b;
      if IsSpace(s[0]) {
        WordsBlankAfter([], s[1..], b);
      } else {
        WordsBlankAfter(cur + [s[0]], s[1..], b);
      }
    }
  }

  lemma WordsStripRight(s: string)
    ensures Words(StripRight(s)) == Words(s)
  {
    var r := StripRight(s);
    assert s == r + s[|r|..];
    WordsBlankAfter([], r, s[|r|..]);
  }

  /** Collapsing whitespace runs keeps the words. */
  lemma {:induction false} WordsCollapse(cur: string, s: string)
    ensures WordsFrom(cur, Collapse(s)) == WordsFrom(cur, s)
    decreases |s|
  {
    if s != [] {
      var c := Collapse(s);
      if IsSpace(s[0]) {
        var rest := StripLeft(s[1..]);
        WordsCollapse([], rest);
        WordsStripLeft(s[1..]);
        assert c[0] == ' ' && c[1..] == Collapse(rest);
      } else {
        WordsCollapse(cur + [s[0]], s[1..]);
        assert c[0] == s[0] && c[1..] == Collapse(s[1..]);
      }
    }
  }

  /** The whitespace rules keep the words of the text. */
  lemma WordsTidy(s: string)
    ensures Words(Tidy(s)) == Words(s)
  {
    var c := Collapse(s);
    WordsCollapse([], s);
    WordsStripLeft(c);
    WordsStripRight(StripLeft(c));
  }

  /** What follows the first character of a collapsed text that ends visibly:
      again collapsed and ending visibly, and after a space it starts visibly. */
  lemma CollapsedTail(s: string)
    requires Collapsed(s) && s != [] && NotSpace(s[|s| - 1])
    ensures Collapsed(s[1..]) && (s[1..] != [] ==> NotSpace(s[1..][|s[1..]| - 1]))
    ensures IsSpace(s[0]) ==> s[0] == ' ' && s[1..] != [] && NotSpace(s[1..][0])
  {
    CollapsedSlice(s, 1, |s|);
    if IsSpace(s[0]) {
      assert s[1..][0] == s[1];
    }
  }

  /** A clean text, after the partial word `cur`, is its words joined by single
      spaces. */
  lemma {:induction false} JoinWordsFrom(cur: string, s: string)
    requires Collapsed(s) && (s != [] ==> NotSpace(s[|s| - 1]))
    requires forall i :: 0 <= i < |cur| ==> NotSpace(cur[i])
    requires cur == [] ==> s != [] && NotSpace(s[0])
    ensures WordsFrom(cur, s) != []
    ensures JoinSpaces(WordsFrom(cur, s)) == cur + s
    decreases |s|
  {
    if s == [] {
      assert cur + s == cur;
    } else {
      var tail := s[1..];
      assert s == [s[0]] + tail;
      CollapsedTail(s);
      if IsSpace(s[0]) {
        var w := WordsFrom([], tail);
        assert WordsFrom(cur, s) == [cur] + w;
        JoinWordsFrom([], tail);
        assert ([cur] + w)[1..] == w;
      } else {
        JoinWordsFrom(cur + [s[0]], tail);
        assert cur + s == (cur + [s[0]]) + tail;
      }
    }
  }

  /** A clean text is determined by its words: it is them joined by single
      spaces. */
  lemma CleanIsJoinedWords(s: string)
    requires IsClean(s)
    ensures s == JoinSpaces(Words(s))
  {
    if s != [] {
      JoinWordsFrom([], s);
    }
  }

  /** `clean_text`: an empty or missing text gives ""; otherwise the NFKC form
      (`nfkc`) with its whitespace runs collapsed to single spaces and stripped at
      both ends. */
  function CleanText(text: Option<string>, nfkc: string -> string): (r: string)
    ensures text.None? || text.value == "" ==> r == ""
    ensures IsClean(r)
    ensures text.Some? && text.value != "" ==> Visible(r) == Visible(nfkc(text.value))
    ensures text.Some? && text.value != "" ==> Words(r) == Words(nfkc(text.value))
    ensures text.Some? && text.value != "" ==> r == JoinSpaces(Words(nfkc(text.value)))
  {
    match text
    case None => ""
    case Some(t) =>
      if t == "" then ""
      else
        var r := Tidy(nfkc(t));
        VisibleTidy(nfkc(t));
        WordsTidy(nfkc(t));
        CleanIsJoinedWords(r);
        r
  }

  /** Cleaning a cleaned text again changes nothing, provided normalisation leaves
      the cleaned text as it is (NFKC is idempotent, and cleaned text is in NFKC
      form apart from the spaces it introduces). */
  lemma CleanTextIdempotent(text: Option<string>, nfkc: string -> string)
    requires nfkc(CleanText(text, nfkc)) == CleanText(text, nfkc)
    ensures CleanText(Some(CleanText(text, nfkc)), nfkc) == CleanText(text, nfkc)
  {
    TidyFixed(CleanText(text, nfkc));
  }

  /** The characters `re.sub(r'[^\d+]', '', phone)` keeps. */
  predicate IsPhoneChar(c: char) {
    IsDigit(c) || c == '+'
  }

  /** The phone-number cleanup: drop everything but digits and '+'. */
  function CleanPhone(phone: string): (r: string)
    ensures forall i :: 0 <= i < |r| ==> IsPhoneChar(r[i])
    ensures forall i :: 0 <= i < |phone| && IsPhoneChar(phone[i]) ==> phone[i] in r
    ensures |r| <= |phone|
  {
    Seqs.Filter(IsPhoneChar, phone)
  }

  /** The cleanup works character by character: a digit or '+' is kept, anything
      else dropped. */
  lemma CleanPhoneChar(c: char)
    ensures CleanPhone([c]) == if IsPhoneChar(c) then [c] else []
  {
    Seqs.FilterCons(IsPhoneChar, [c]);
    assert [c][1..] == [];
  }

  /** The cleanup of a number is the cleanup of its parts, in order; with
      `CleanPhoneChar` this fixes the kept characters, their order and their
      count. */
  lemma CleanPhoneAppend(a: string, b: string)
    ensures CleanPhone(a + b) == CleanPhone(a) + CleanPhone(b)
  {
    Seqs.FilterAppend(IsPhoneChar, a, b);
  }

  /** A phone number is unchanged by the cleanup exactly when it holds only digits
      and '+'; in particular cleaning twice is cleaning once. */
  lemma CleanPhoneFixed(phone: string)
    ensures CleanPhone(phone) == phone <==> forall i :: 0 <= i < |phone| ==> IsPhoneChar(phone[i])
    ensures CleanPhone(CleanPhone(phone)) == CleanPhone(phone)
  {
    Seqs.FilterKeepsAll(IsPhoneChar, phone);
    Seqs.FilterKeepsAll(IsPhoneChar, CleanPhone(phone));
  }

  predicate Distinct<T(==)>(xs: seq<T>) {
    forall i, j :: 0 <= i < j < |xs| ==> xs[i] != xs[j]
  }

  /** `list(set(xs))`: every distinct element once. The iteration order of a
      Python set is not modelled; this keeps first occurrences in order. */
  function Dedup(xs: seq<string>): (r: seq<string>)
    ensures forall x :: x in r <==> x in xs
    ensures Distinct(r)
    ensures |r| <= |xs|
    decreases |xs|
  {
    if xs == [] then []
    else
      var init := xs[..|xs| - 1];
      var last := xs[|xs| - 1];
      assert xs == init + [last];
      var r := Dedup(init);
      if last in r then r else r + [last]
  }

  /** A duplicate-free list is its own de-duplication. */
  lemma {:induction false} DedupOfDistinct(xs: seq<string>)
    requires Distinct(xs)
    ensures Dedup(xs) == xs
    decreases |xs|
  {
    if xs != [] {
      var init := xs[..|xs| - 1];
      DedupOfDistinct(init);
      assert xs[|xs| - 1] !in init;
      assert xs == init + [xs[|xs| - 1]];
    }
  }

  /** `extract_emails`: the distinct matches of the e-mail pattern (`findEmails`). */
  function ExtractEmails(text: string, findEmails: string -> seq<string>): (r: seq<string>)
    ensures forall e :: e in r <==> e in findEmails(text)
    ensures Distinct(r)
  {
    Dedup(findEmails(text))
  }

  /** The cleaned form of every match, in match order. */
  function CleanAll(phones: seq<string>): (r: seq<string>)
    ensures |r| == |phones|
    ensures forall i :: 0 <= i < |r| ==> r[i] == CleanPhone(phones[i])
  {
    seq(|phones|, i requires 0 <= i < |phones| => CleanPhone(phones[i]))
  }

  /** `extract_phone_numbers`: the distinct cleaned matches of the phone pattern
      (`findPhones`). */
  function ExtractPhoneNumbers(text: string, findPhones: string -> seq<string>): (r: seq<string>)
    ensures Distinct(r)
    ensures forall p :: p in r ==> forall i :: 0 <= i < |p| ==> IsPhoneChar(p[i])
    ensures forall p :: p in r <==> exists m :: m in findPhones(text) && CleanPhone(m) == p
  {
    var matches := findPhones(text);
    var cleaned := CleanAll(matches);
    assert forall m :: m in matches ==> CleanPhone(m) in cleaned by {
      forall m | m in matches
        ensures CleanPhone(m) in cleaned
      {
        var i :| 0 <= i < |matches| && matches[i] == m;
        assert cleaned[i] == CleanPhone(m);
      }
    }
    Dedup(cleaned)
  }

  /** One entry of `SOCIAL_DOMAINS`. */
  datatype Social = Social(domain: string, platform: string)

  /** `SOCIAL_DOMAINS`, in the dictionary's order, which is the order of the tests. */
  const SocialDomains: seq<Social> := [
    Social("linkedin.com", "linkedin"),
    Social("twitter.com", "twitter"),
    Social("facebook.com", "facebook"),
    Social("instagram.com", "instagram"),
    Social("github.com", "github")]

  /** The first entry from index `k` on whose domain occurs in `href`. */
  function MatchFrom(href: string, k: nat): (r: Option<nat>)
    requires k <= |SocialDomains|
    ensures r.Some? ==>
      (k <= r.value < |SocialDomains| && Contains(href, SocialDomains[r.value].domain))
    ensures forall j :: k <= j < |SocialDomains| && (r.None? || j < r.value) ==>
      !Contains(href, SocialDomains[j].domain)
    decreases |SocialDomains| - k
  {
    if k == |SocialDomains| then None
    else if Contains(href, SocialDomains[k].domain) then Some(k)
    else MatchFrom(href, k + 1)
  }

  /** The platform of a (lower-cased) link: that of the first domain it contains. */
  function PlatformOf(href: string): (r: Option<string>)
    ensures r.None? <==> forall j :: 0 <= j < |SocialDomains| ==>
      !Contains(href, SocialDomains[j].domain)
    ensures r.Some? ==> exists j :: (0 <= j < |SocialDomains|
      && SocialDomains[j].platform == r.value && Contains(href, SocialDomains[j].domain))
  {
    match MatchFrom(href, 0)
    case None => None
    case Some(j) => Some(SocialDomains[j].platform)
  }

  /** The platform a link is filed under once lower-cased. */
  function LinkPlatform(href: string): Option<string> {
    PlatformOf(Lower(href))
  }

  /** Some link of `hrefs` belongs to platform `p`. */
  predicate HasPlatform(hrefs: seq<string>, p: string) {
    exists i :: 0 <= i < |hrefs| && LinkPlatform(hrefs[i]) == Some(p)
  }

  /** `f` gives `v` for some element of `xs`. */
  predicate SomeGives(f: string -> Option<string>, xs: seq<string>, v: string) {
    exists i :: 0 <= i < |xs| && f(xs[i]) == Some(v)
  }

  /** One more element adds its own value and keeps the earlier ones. */
  lemma SomeGivesSnoc(f: string -> Option<string>, xs: seq<string>, v: string)
    requires xs != []
    ensures SomeGives(f, xs, v) <==>
      SomeGives(f, xs[..|xs| - 1], v) || f(xs[|xs| - 1]) == Some(v)
  {
    var init := xs[..|xs| - 1];
    if SomeGives(f, xs, v) {
      var i :| 0 <= i < |xs| && f(xs[i]) == Some(v);
      if i < |init| {
        assert init[i] == xs[i];
      }
    }
    if SomeGives(f, init, v) {
      var i :| 0 <= i < |init| && f(init[i]) == Some(v);
      assert xs[i] == init[i];
    }
  }

  lemma HasPlatformSnoc(hrefs: seq<string>, p: string)
    requires hrefs != []
    ensures HasPlatform(hrefs, p) <==>
      HasPlatform(hrefs[..|hrefs| - 1], p) || LinkPlatform(hrefs[|hrefs| - 1]) == Some(p)
  {
    SomeGivesSnoc(LinkPlatform, hrefs, p);
    assert HasPlatform(hrefs, p) == SomeGives(LinkPlatform, hrefs, p);
    assert HasPlatform(hrefs[..|hrefs| - 1], p) == SomeGives(LinkPlatform, hrefs[..|hrefs| - 1], p);
  }

  /** `find_social_links` over the `href`s of the page's links, in document order:
      each link is lower-cased and filed under its platform, a later link
      replacing an earlier one. */
  function FindSocialLinks(hrefs: seq<string>): (r: map<string, string>)
    ensures forall p :: p in r ==> PlatformOf(r[p]) == Some(p) && Lower(r[p]) == r[p]
    ensures forall p :: p in r <==> HasPlatform(hrefs, p)
    decreases |hrefs|
  {
    if hrefs == [] then map[]
    else
      var init := hrefs[..|hrefs| - 1];
      var href := Lower(hrefs[|hrefs| - 1]);
      var links := FindSocialLinks(init);
      assert forall p :: HasPlatform(hrefs, p) <==> HasPlatform(init, p) || LinkPlatform(hrefs[|hrefs| - 1]) == Some(p)
      by {
        forall p
          ensures HasPlatform(hrefs, p) <==> HasPlatform(init, p) || LinkPlatform(hrefs[|hrefs| - 1]) == Some(p)
        {
          HasPlatformSnoc(hrefs, p);
        }
      }
      match PlatformOf(href)
      case None => links
      case Some(p) =>
        assert Lower(href) == href by {
          LowerIdempotent(hrefs[|hrefs| - 1]);
        }
        links[p := href]
  }

  /** The link filed under a platform is the last link of that platform. */
  lemma {:induction false} SocialLastWins(hrefs: seq<string>, i: int, p: string)
    requires 0 <= i < |hrefs| && PlatformOf(Lower(hrefs[i])) == Some(p)
    requires forall j :: i < j < |hrefs| ==> PlatformOf(Lower(hrefs[j])) != Some(p)
    ensures p in FindSocialLinks(hrefs) && FindSocialLinks(hrefs)[p] == Lower(hrefs[i])
    decreases |hrefs|
  {
    var init := hrefs[..|hrefs| - 1];
    if i < |hrefs| - 1 {
      assert forall j :: 0 <= j < |init| ==> init[j] == hrefs[j];
      SocialLastWins(init, i, p);
    }
  }
}

=== FILE: json.dfy ===
/** The JSON-shaped values that records' `to_dict()` produce and `from_dict()` read.
    Timestamps are kept as integer seconds rather than ISO strings. */
module Json {
  import opened Wrappers

  datatype Value =
    | Null
    | Bool(b: bool)
    | Int(i: int)
    | Str(s: string)
    | List(items: seq<Value>)
    | Object(fields: map<string, Value>)

  type Dict = map<string, Value>

  /** A string list as a JSON list. */
  function StrList(xs: seq<string>): (v: Value)
    ensures v.List? && |v.items| == |xs|
  {
    List(seq(|xs|, i requires 0 <= i < |xs| => Str(xs[i])))
  }

  /** Reads a JSON list of strings back; `None` for any other shape. */
  function AsStrList(v: Value): Option<seq<string>> {
    if v.List? && forall i :: 0 <= i < |v.items| ==> v.items[i].Str? then
      Some(seq(|v.items|, i requires 0 <= i < |v.items| => v.items[i].s))
    else None
  }

  lemma StrListRoundTrip(xs: seq<string>)
    ensures AsStrList(StrList(xs)) == Some(xs)
  {
    var v := StrList(xs);
    assert forall i :: 0 <= i < |v.items| ==> v.items[i] == Str(xs[i]);
    assert seq(|v.items|, i requires 0 <= i < |v.items| => v.items[i].s) == xs;
  }

  /** `d.get(key, default)` for a string-valued field. */
  function GetStr(d: Dict, key: string, default: string): string {
    if key in d && d[key].Str? then d[key].s else default
  }

  /** `d.get(key, default)` for an integer-valued field. */
  function GetInt(d: Dict, key: string, default: int): int {
    if key in d && d[key].Int? then d[key].i else default
  }

  /** `d.get(key)` for a field that may be absent or null. */
  function GetOptStr(d: Dict, key: string): Option<string> {
    if key in d && d[key].Str? then Some(d[key].s) else None
  }

  function GetStrList(d: Dict, key: string): seq<string> {
    if key in d then AsStrList(d[key]).GetOr([]) else []
  }

  function GetObject(d: Dict, key: string): Dict {
    if key in d && d[key].Object? then d[key].fields else map[]
  }

  function OptStr(o: Option<string>): Value {
    match o
    case Some(s) => Str(s)
    case None => Null
  }
}

=== FILE: progress.dfy ===
/** The completion percentage both the dashboard and the research service report:
    `int((completed / total) * 100)`, and 0 for a session without tasks. */
module Progress {
  import opened TaskRecord
  import Seqs

  predicate IsCompleted(t: Task) {
    t.status == Completed
  }

  function CompletedCount(tasks: seq<Task>): nat {
    Seqs.Count(IsCompleted, tasks)
  }

  /** The floor of the completed share in percent. */
  function CompletionPercentage(tasks: seq<Task>): (p: int)
    ensures 0 <= p <= 100
    ensures tasks == [] ==> p == 0
    ensures tasks != [] ==>
      p * |tasks| <= 100 * CompletedCount(tasks) < (p + 1) * |tasks|
    ensures tasks != [] ==>
      (p == 100 <==> forall i :: 0 <= i < |tasks| ==> tasks[i].status == Completed)
  {
    var n := |tasks|;
    var c := CompletedCount(tasks);
    Seqs.CountAll(IsCompleted, tasks);
    if n == 0 then 0
    else
      var p := (100 * c) / n;
      FloorShare(c, n, p);
      p
  }

  /** `p = (100 * c) / n` lies in [0, 100], brackets `100 * c`, and reaches 100
      only when `c == n`. */
  lemma FloorShare(c: nat, n: nat, p: int)
    requires 0 < n && c <= n && p == (100 * c) / n
    ensures 0 <= p <= 100
    ensures p * n <= 100 * c < (p + 1) * n
    ensures p == 100 <==> c == n
  {
    var r := (100 * c) % n;
    assert 100 * c == p * n + r && 0 <= r < n;
    assert (p + 1) * n == p * n + n;
    assert -1 * n < p * n;
    CancelBelow(-1, p, n);
    assert 100 * c <= 100 * n < 101 * n;
    CancelBelow(p, 101, n);
    if c < n {
      assert p * n < 100 * n;
      CancelBelow(p, 100, n);
    } else {
      assert 100 * n < (p + 1) * n;
      CancelBelow(100, p + 1, n);
    }
  }

  /** A strict order between two multiples of a positive number is an order
      between the factors. */
  lemma CancelBelow(a: int, b: int, n: int)
    requires 0 < n && a * n < b * n
    ensures a < b
  {
    assert (b - a) * n == b * n - a * n;
  }
}

=== FILE: rate_limiter.dfy ===
/** `RateLimiter`: per-domain request timestamps inside a sliding window. Time is
    whole seconds (`now` is the `time.time()` reading of the call); the lock only
    serialises calls and is not modelled. */
module RateLimiter {
  import opened Wrappers

  const DefaultWindow := 60
  const DefaultRequestsPerMinute := 30

  /** `requests` is a `defaultdict(list)`: a domain never seen reads as `[]`. */
  datatype Limiter = Limiter(window: int, requests: map<string, seq<int>>)

  function NewLimiter(window: int): (l: Limiter)
    ensures l.window == window && l.requests == map[]
  {
    Limiter(window, map[])
  }

  function History(l: Limiter, domain: string): seq<int> {
    if domain in l.requests then l.requests[domain] else []
  }

  /** The window comprehension: the timestamps at most `window` seconds before
      `now`, in their order. */
  function Prune(xs: seq<int>, now: int, window: int): (r: seq<int>)
    ensures |r| <= |xs|
    ensures forall i :: 0 <= i < |r| ==> r[i] in xs && now - r[i] <= window
    ensures forall i :: 0 <= i < |xs| && now - xs[i] <= window ==> xs[i] in r
    ensures forall v :: multiset(r)[v] == (if now - v <= window then multiset(xs)[v] else 0)
    decreases |xs|
  {
    if xs == [] then []
    else
      var tail := xs[1..];
      var rest := Prune(tail, now, window);
      assert xs == [xs[0]] + tail;
      assert forall i :: 0 <= i < |rest| ==> rest[i] in tail;
      (if now - xs[0] <= window then [xs[0]] else []) + rest
  }

  /** Pruning keeps the order of the history: the survivors of an earlier part
      come before those of a later one. */
  lemma {:induction false} PruneAppend(a: seq<int>, b: seq<int>, now: int, window: int)
    ensures Prune(a + b, now, window) == Prune(a, now, window) + Prune(b, now, window)
    decreases |a|
  {
    if a == [] {
      assert a + b == b;
    } else {
      assert (a + b)[0] == a[0] && (a + b)[1..] == a[1..] + b;
      PruneAppend(a[1..], b, now, window);
      var h: seq<int> := if now - a[0] <= window then [a[0]] else [];
      assert h + (Prune(a[1..], now, window) + Prune(b, now, window))
          == (h + Prune(a[1..], now, window)) + Prune(b, now, window);
    }
  }

  /** Pruning twice at the same moment prunes nothing more. */
  lemma {:induction false} PruneIdempotent(xs: seq<int>, now: int, window: int)
    ensures Prune(Prune(xs, now, window), now, window) == Prune(xs, now, window)
    decreases |xs|
  {
    if xs != [] {
      var rest := Prune(xs[1..], now, window);
      PruneIdempotent(xs[1..], now, window);
      if now - xs[0] <= window {
        var p := [xs[0]] + rest;
        assert Prune(xs, now, window) == p;
        assert p[1..] == rest;
        assert Prune(p, now, window) == [xs[0]] + Prune(rest, now, window);
      } else {
        assert Prune(xs, now, window) == rest;
      }
    }
  }

  /** A later clock keeps no more timestamps, and drops every one that has left
      the window. */
  lemma {:induction false} PruneLater(xs: seq<int>, now: int, later: int, window: int)
    requires now <= later
    ensures |Prune(xs, later, window)| <= |Prune(xs, now, window)|
    ensures (exists i :: 0 <= i < |xs| && now - xs[i] <= window < later - xs[i]) ==>
      |Prune(xs, later, window)| < |Prune(xs, now, window)|
    decreases |xs|
  {
    if xs != [] {
      PruneLater(xs[1..], now, later, window);
      if exists i :: 0 <= i < |xs| && now - xs[i] <= window < later - xs[i] {
        var i :| 0 <= i < |xs| && now - xs[i] <= window < later - xs[i];
        if i > 0 {
          assert xs[1..][i - 1] == xs[i];
        }
      }
    }
  }

  /** The result of `can_make_request`, with the pruned history stored back. */
  datatype Decision = Decision(limiter: Limiter, allowed: bool)

  /** `can_make_request`: prunes the domain's history to the window and allows a
      request while fewer than `requestsPerMinute` remain. */
  function CanMakeRequest(l: Limiter, domain: string, requestsPerMinute: int, now: int)
    : (r: Decision)
    ensures r.limiter.window == l.window
    ensures History(r.limiter, domain) == Prune(History(l, domain), now, l.window)
    ensures r.allowed <==> |Prune(History(l, domain), now, l.window)| < requestsPerMinute
    ensures forall d :: d != domain ==> History(r.limiter, d) == History(l, d)
  {
    var kept := Prune(History(l, domain), now, l.window);
    Decision(l.(requests := l.requests[domain := kept]), |kept| < requestsPerMinute)
  }

  /** `record_request`: appends now to the domain's history. */
  function RecordRequest(l: Limiter, domain: string, now: int): (r: Limiter)
    ensures r.window == l.window
    ensures History(r, domain) == History(l, domain) + [now]
    ensures forall d :: d != domain ==> History(r, d) == History(l, d)
  {
    l.(requests := l.requests[domain := History(l, domain) + [now]])
  }

  /** `min()` of a non-empty list. */
  function Min(xs: seq<int>): (m: int)
    requires xs != []
    ensures m in xs
    ensures forall i :: 0 <= i < |xs| ==> m <= xs[i]
  {
    if |xs| == 1 then xs[0]
    else
      var rest := Min(xs[1..]);
      assert forall i :: 1 <= i < |xs| ==> xs[i] == xs[1..][i - 1];
      if xs[0] <= rest then xs[0] else rest
  }

  /** The result of `get_remaining_delay`: the limiter afterwards, and the delay in
      seconds, or the `ValueError` `min()` raises on an empty list. */
  datatype Delay = Delay(limiter: Limiter, wait: Result<int>)

  const EmptyMin := "min() arg is an empty sequence"

  /** `get_remaining_delay`: no wait for a domain without history (which is not
      pruned) or one under the limit; otherwise until the oldest timestamp in the
      window leaves it. With a limit of zero or less and nothing left in the
      window, `min()` raises. */
  function GetRemainingDelay(l: Limiter, domain: string, requestsPerMinute: int, now: int)
    : (r: Delay)
    ensures r.limiter.window == l.window
    ensures forall d :: d != domain ==> History(r.limiter, d) == History(l, d)
    ensures History(l, domain) == [] ==> r.wait == Ok(0) && History(r.limiter, domain) == []
    ensures History(l, domain) != [] ==>
      History(r.limiter, domain) == Prune(History(l, domain), now, l.window)
    ensures r.wait.Fail? <==>
      History(l, domain) != [] && Prune(History(l, domain), now, l.window) == []
      && requestsPerMinute <= 0
    ensures r.wait.Fail? ==> r.wait.message == EmptyMin
    ensures r.wait.Ok? ==> r.wait.value >= 0
    ensures (History(l, domain) != [] &&
             |Prune(History(l, domain), now, l.window)| < requestsPerMinute) ==> r.wait == Ok(0)
  {
    var h := History(l, domain);
    if h == [] then Delay(l.(requests := l.requests[domain := []]), Ok(0))
    else
      var kept := Prune(h, now, l.window);
      var l' := l.(requests := l.requests[domain := kept]);
      if |kept| < requestsPerMinute then Delay(l', Ok(0))
      else if kept == [] then Delay(l', Fail(EmptyMin))
      else
        var oldest := Min(kept);
        var w := l.window - (now - oldest);
        Delay(l', Ok(if w > 0 then w else 0))
  }

  /** With timestamps never later than the clock, the delay is at most the window. */
  lemma DelayAtMostWindow(l: Limiter, domain: string, requestsPerMinute: int, now: int)
    requires forall i :: 0 <= i < |History(l, domain)| ==> History(l, domain)[i] <= now
    requires l.window >= 0
    ensures GetRemainingDelay(l, domain, requestsPerMinute, now).wait.Ok? ==>
      GetRemainingDelay(l, domain, requestsPerMinute, now).wait.value <= l.window
  {
    var h := History(l, domain);
    if h != [] {
      var kept := Prune(h, now, l.window);
      if kept != [] {
        assert Min(kept) in h;
      }
    }
  }

  /** Waiting longer than the reported delay is enough: once the clock passes it,
      the oldest timestamp has left the window, so a domain held exactly at its
      limit may make a request again (with no request recorded in between). */
  lemma DelayIsEnough(l: Limiter, domain: string, requestsPerMinute: int, now: int, later: int)
    requires History(l, domain) != []
    requires |Prune(History(l, domain), now, l.window)| == requestsPerMinute > 0
    requires GetRemainingDelay(l, domain, requestsPerMinute, now).wait.Ok?
    requires later > now + GetRemainingDelay(l, domain, requestsPerMinute, now).wait.value
    ensures CanMakeRequest(l, domain, requestsPerMinute, later).allowed
  {
    var h := History(l, domain);
    var kept := Prune(h, now, l.window);
    var oldest := Min(kept);
    assert oldest in h;
    var i :| 0 <= i < |h| && h[i] == oldest;
    PruneLater(h, now, later, l.window);
  }

  /** Moving the clock from `now` to `later` changes nothing while every
      timestamp in the window at `now` is at least `oldest` and `oldest` is still
      in the window at `later`. */
  lemma {:induction false} PruneSame(xs: seq<int>, now: int, later: int, window: int, oldest: int)
    requires now <= later && later - oldest <= window
    requires forall i :: 0 <= i < |xs| && now - xs[i] <= window ==> oldest <= xs[i]
    ensures Prune(xs, later, window) == Prune(xs, now, window)
    decreases |xs|
  {
    if xs != [] {
      assert forall i :: 1 <= i < |xs| ==> xs[1..][i - 1] == xs[i];
      PruneSame(xs[1..], now, later, window, oldest);
    }
  }

  /** The reported delay is also needed: until it has passed, a domain at or over
      its limit stays refused (with no request recorded in between). Together
      with `DelayIsEnough`, the delay is exactly the time until the oldest
      timestamp in the window leaves it. */
  lemma DelayIsNeeded(l: Limiter, domain: string, requestsPerMinute: int, now: int, later: int)
    requires History(l, domain) != []
    requires |Prune(History(l, domain), now, l.window)| >= requestsPerMinute
    requires GetRemainingDelay(l, domain, requestsPerMinute, now).wait.Ok?
    requires now <= later <= now + GetRemainingDelay(l, domain, requestsPerMinute, now).wait.value
    ensures !CanMakeRequest(l, domain, requestsPerMinute, later).allowed
  {
    var h := History(l, domain);
    var kept := Prune(h, now, l.window);
    var oldest := Min(kept);
    forall i | 0 <= i < |h| && now - h[i] <= l.window
      ensures oldest <= h[i]
    {
      assert h[i] in kept;
      var k :| 0 <= k < |kept| && kept[k] == h[i];
    }
    PruneSame(h, now, later, l.window, oldest);
  }

  /** `clear`: a non-empty domain name empties that domain's history; no name, or
      the empty name, forgets every domain. */
  function Clear(l: Limiter, domain: Option<string>): (r: Limiter)
    ensures r.window == l.window
    ensures domain.Some? && domain.value != "" ==>
      History(r, domain.value) == [] &&
      forall d :: d != domain.value ==> History(r, d) == History(l, d)
    ensures domain.None? || domain.value == "" ==> r.requests == map[]
  {
    match domain
    case Some(d) => if d != "" then l.(requests := l.requests[d := []]) else l.(requests := map[])
    case None => l.(requests := map[])
  }

  /** After clearing a domain, it has no delay and may make a request whenever
      the limit is positive. */
  lemma ClearedDomainIsFree(l: Limiter, domain: string, requestsPerMinute: int, now: int)
    requires domain != ""
    ensures GetRemainingDelay(Clear(l, Some(domain)), domain, requestsPerMinute, now).wait == Ok(0)
    ensures CanMakeRequest(Clear(l, Some(domain)), domain, requestsPerMinute, now).allowed
            <==> requestsPerMinute > 0
  {
  }
}

=== FILE: research_service.dfy ===
/** `ResearchService`: starting a research session with its planned tasks, and the
    status and results views of a session. Persistence is abstracted: the ids the
    database assigns to the new tasks are a parameter. */
module ResearchService {
  import opened Wrappers
  import opened TaskRecord
  import opened SessionRecord
  import Progress
  import opened ApiUtils
  import opened Calls

  /** One entry of the task plan: a task type and its title. */
  datatype PlannedTask = PlannedTask(taskType: string, title: string)

  /** The three tasks every research session starts with. */
  const BaseTasks: seq<PlannedTask> := [
    PlannedTask("website_scraping", "Scrape company website"),
    PlannedTask("opencorporates_lookup", "Get official company data"),
    PlannedTask("company_info", "Extract company metadata")]

  const SalesLeadExtra := PlannedTask("contact_discovery", "Find key contacts")
  const JobApplicationExtra := PlannedTask("job_analysis", "Analyze job opportunities")

  /** `_create_research_tasks`' list: the base tasks, plus contact discovery for a
      sales lead or job analysis for a job application. */
  function TaskPlan(researchType: string): (r: seq<PlannedTask>)
    ensures |BaseTasks| <= |r| <= |BaseTasks| + 1
    ensures r[..|BaseTasks|] == BaseTasks
    ensures |r| == |BaseTasks| + 1 <==> researchType in {"sales_lead", "job_application"}
    ensures researchType == "sales_lead" ==> r[|BaseTasks|] == SalesLeadExtra
    ensures researchType == "job_application" ==> r[|BaseTasks|] == JobApplicationExtra
  {
    if researchType == "sales_lead" then BaseTasks + [SalesLeadExtra]
    else if researchType == "job_application" then BaseTasks + [JobApplicationExtra]
    else BaseTasks
  }

  /** The planned task types are pairwise distinct, so the plan has no repeats. */
  lemma PlanTypesDistinct(researchType: string)
    ensures forall i, j :: 0 <= i < j < |TaskPlan(researchType)| ==>
      TaskPlan(researchType)[i].taskType != TaskPlan(researchType)[j].taskType
  {
  }

  /** The new session and its tasks. */
  datatype Started = Started(session: Session, tasks: seq<Task>)

  /** `start_research`: a session with status "started", the given research type and
      company name, and one pending task per planned entry, bound to the session
      through its id. The session's own task list is left empty: the tasks are
      not added to it. */
  function StartResearch(sessionId: string, companyName: string, researchType: string,
                         taskIds: seq<TaskId>, now: Time): (r: Started)
    requires |taskIds| == |TaskPlan(researchType)|
    ensures r.session.id == sessionId && r.session.status == "started"
    ensures r.session.researchType == researchType && r.session.targetCompany == companyName
    ensures r.session.taskIds == []
    ensures |r.tasks| == |TaskPlan(researchType)|
    ensures forall i :: 0 <= i < |r.tasks| ==>
      && r.tasks[i].id == taskIds[i]
      && r.tasks[i].sessionId == sessionId
      && r.tasks[i].taskType == TaskPlan(researchType)[i].taskType
      && r.tasks[i].title == TaskPlan(researchType)[i].title
      && r.tasks[i].status == Pending
      && Consistent(r.tasks[i])
  {
    var plan := TaskPlan(researchType);
    var session := Session(sessionId, researchType, "", companyName, "started", 0, [],
                           map[], None, now);
    Started(session, seq(|plan|, i requires 0 <= i < |plan| =>
                         NewTask(taskIds[i], sessionId, plan[i].taskType, plan[i].title, "", [], now)))
  }

  /** Neither the started session nor its planned tasks pass their record's
      `validate()`: the session has no target company id and a status outside the
      session vocabulary, and no planned task type is a declared task type. */
  lemma StartedRecordsFailValidation(sessionId: string, companyName: string, researchType: string,
                                     taskIds: seq<TaskId>, now: Time)
    requires |taskIds| == |TaskPlan(researchType)|
    ensures SessionRecord.Validate(StartResearch(sessionId, companyName, researchType, taskIds, now).session)
            == Invalid("Target company ID is required")
    ensures "started" !in SessionStatuses
    ensures forall i :: 0 <= i < |TaskPlan(researchType)| ==> TaskPlan(researchType)[i].taskType !in TaskTypes
  {
  }

  /** `_calculate_progress`: the same floor percentage as the dashboard. */
  function CalculateProgress(tasks: seq<Task>): (p: int)
    ensures 0 <= p <= 100
    ensures tasks == [] ==> p == 0
    ensures tasks != [] ==> p * |tasks| <= 100 * Progress.CompletedCount(tasks) < (p + 1) * |tasks|
  {
    Progress.CompletionPercentage(tasks)
  }

  datatype SessionStatusView = SessionStatusView(
    sessionId: string,
    status: string,
    researchType: string,
    targetCompany: string,
    createdAt: Time,
    tasks: seq<Task>,
    progress: int)

  /** `get_session_status`: "Session not found" for an unknown or empty id; the
      tasks are reported as the database returns them, with their progress. */
  function GetSessionStatus(sessions: map<string, Session>, sessionId: string, tasks: seq<Task>)
    : (r: Result<SessionStatusView>)
    ensures r.Fail? <==> sessionId == "" || sessionId !in sessions
    ensures r.Fail? ==> r.message == "Session not found"
    ensures r.Ok? ==> r.value.sessionId == sessionId && r.value.tasks == tasks
    ensures r.Ok? ==> r.value.status == sessions[sessionId].status
    ensures r.Ok? ==> 0 <= r.value.progress <= 100
    ensures r.Ok? ==> (r.value.progress == 100 <==>
      tasks != [] && forall i :: 0 <= i < |tasks| ==> tasks[i].status == Completed)
  {
    if sessionId == "" || sessionId !in sessions then Fail("Session not found")
    else
      var s := sessions[sessionId];
      Ok(SessionStatusView(sessionId, s.status, s.researchType, s.targetCompany, s.createdAt,
                           tasks, CalculateProgress(tasks)))
  }

  datatype SessionResults =
    | StillRunning(sessionId: string, status: string, message: string)
    | Finished(sessionId: string, status: string, researchType: string, targetCompany: string,
               createdAt: Time, completedAt: Option<Time>, tasks: seq<Task>, findings: Payload)

  const StillRunningMessage := "Research is still in progress"

  /** `get_session_results`: "Session not found" for an unknown or empty id; a
      short "still in progress" answer unless the session's status is completed;
      otherwise the session's tasks and findings. */
  function GetSessionResults(sessions: map<string, Session>, sessionId: string, tasks: seq<Task>)
    : (r: Result<SessionResults>)
    ensures r.Fail? <==> sessionId == "" || sessionId !in sessions
    ensures r.Fail? ==> r.message == "Session not found"
    ensures r.Ok? ==> (r.value.Finished? <==> sessions[sessionId].status == "completed")
    ensures r.Ok? && r.value.StillRunning? ==>
      r.value.message == StillRunningMessage && r.value.status == sessions[sessionId].status
    ensures r.Ok? && r.value.Finished? ==>
      r.value.findings == sessions[sessionId].findings && r.value.tasks == tasks
    ensures r.Ok? ==> r.value.sessionId == sessionId
  {
    if sessionId == "" || sessionId !in sessions then Fail("Session not found")
    else
      var s := sessions[sessionId];
      if s.status != "completed" then Ok(StillRunning(sessionId, s.status, StillRunningMessage))
      else Ok(Finished(sessionId, s.status, s.researchType, s.targetCompany, s.createdAt,
                       s.completedAt, tasks, s.findings))
  }

  /** Completing a session is what makes its results available. */
  lemma CompletedSessionHasResults(sessions: map<string, Session>, sessionId: string,
                                   tasks: seq<Task>, now: Time)
    requires sessionId != "" && sessionId in sessions
    ensures GetSessionResults(sessions[sessionId := SessionRecord.Complete(sessions[sessionId], now)],
                              sessionId, tasks).value.Finished?
    ensures GetSessionResults(sessions[sessionId := SessionRecord.Complete(sessions[sessionId], now)],
                              sessionId, tasks).value.completedAt == Some(now)
  {
  }

  /** A started session is listed under its company, and is not yet active: its
      status "started" is neither pending nor in progress. */
  lemma StartedSessionFoundByCompany(sessions: map<string, Session>, sessionId: string,
                                     companyName: string, researchType: string,
                                     taskIds: seq<TaskId>, now: Time)
    requires |taskIds| == |TaskPlan(researchType)|
    ensures var s := StartResearch(sessionId, companyName, researchType, taskIds, now).session;
      && sessionId in FindByCompany(sessions[sessionId := s], companyName)
      && sessionId !in FindActiveSessions(sessions[sessionId := s])
  {
  }

  // ---- the service as written --------------------------------------------

  /** `start_research` with `passed` positional arguments given to `save`, for
      the session and then for each task. */
  function StartResearchCall(sessionId: string, companyName: string, researchType: string,
                             taskIds: seq<TaskId>, now: Time, passed: nat): (r: Evaluation<Started>)
    requires |taskIds| == |TaskPlan(researchType)|
  {
    Bind("save", SaveParams, passed, StartResearch(sessionId, companyName, researchType, taskIds, now))
  }

  /** `start_research` as written: `session.save()` passes no database manager,
      so it raises before anything is stored and before any task is created. */
  function StartResearchAsWritten(sessionId: string, companyName: string, researchType: string,
                                  taskIds: seq<TaskId>, now: Time): (r: Evaluation<Started>)
    requires |taskIds| == |TaskPlan(researchType)|
  {
    StartResearchCall(sessionId, companyName, researchType, taskIds, now, 0)
  }

  /** `get_session_status` with `passed` positional arguments given to
      `find_by_id` and to `find_by_session` (the latter is called only for a
      known session). */
  function GetSessionStatusCall(sessions: map<string, Session>, sessionId: string,
                                tasks: seq<Task>, passed: nat): (r: Evaluation<Result<SessionStatusView>>)
  {
    match Bind("find_by_id", FindByIdParams, passed, sessionId != "" && sessionId in sessions)
    case Thrown(e) => Thrown(e)
    case Normal(found) =>
      if !found then Normal(Fail("Session not found"))
      else Bind("find_by_session", FindBySessionParams, passed, GetSessionStatus(sessions, sessionId, tasks))
  }

  /** `get_session_results` with `passed` positional arguments given to the same
      helpers (`find_by_session` only for a completed session). */
  function GetSessionResultsCall(sessions: map<string, Session>, sessionId: string,
                                 tasks: seq<Task>, passed: nat): (r: Evaluation<Result<SessionResults>>)
  {
    match Bind("find_by_id", FindByIdParams, passed, sessionId != "" && sessionId in sessions)
    case Thrown(e) => Thrown(e)
    case Normal(found) =>
      if !found then Normal(Fail("Session not found"))
      else if sessions[sessionId].status != "completed" then
        Normal(GetSessionResults(sessions, sessionId, tasks))
      else Bind("find_by_session", FindBySessionParams, passed, GetSessionResults(sessions, sessionId, tasks))
  }

  /** `get_session_status` as written: `ResearchSession.find_by_id(session_id)`
      passes one argument of two. */
  function GetSessionStatusAsWritten(sessions: map<string, Session>, sessionId: string,
                                     tasks: seq<Task>): (r: Evaluation<Result<SessionStatusView>>)
  {
    GetSessionStatusCall(sessions, sessionId, tasks, 1)
  }

  /** `get_session_results` as written, with the same one-argument calls. */
  function GetSessionResultsAsWritten(sessions: map<string, Session>, sessionId: string,
                                      tasks: seq<Task>): (r: Evaluation<Result<SessionResults>>)
  {
    GetSessionResultsCall(sessions, sessionId, tasks, 1)
  }

  /** Passing the database manager as well turns the as-written calls into the
      service this model uses. */
  lemma CallsWithManager(sessions: map<string, Session>, sessionId: string, tasks: seq<Task>,
                         companyName: string, researchType: string, taskIds: seq<TaskId>, now: Time)
    requires |taskIds| == |TaskPlan(researchType)|
    ensures StartResearchCall(sessionId, companyName, researchType, taskIds, now, 1)
            == Normal(StartResearch(sessionId, companyName, researchType, taskIds, now))
    ensures GetSessionStatusCall(sessions, sessionId, tasks, 2)
            == Normal(GetSessionStatus(sessions, sessionId, tasks))
    ensures GetSessionResultsCall(sessions, sessionId, tasks, 2)
            == Normal(GetSessionResults(sessions, sessionId, tasks))
  {
  }

  /** As written, every research request that reaches the service fails with a
      500: starting stores nothing, and no session id, known or not, gets its
      status, its results or "Session not found". */
  lemma ResearchRoutesAsWritten(sessions: map<string, Session>, sessionId: string, tasks: seq<Task>,
                                companyName: string, researchType: string,
                                taskIds: seq<TaskId>, now: Time)
    requires |taskIds| == |TaskPlan(researchType)|
    ensures StartResearchAsWritten(sessionId, companyName, researchType, taskIds, now).Thrown?
    ensures HandleErrors<Started>(Threw(StartResearchAsWritten(sessionId, companyName, researchType,
                                                               taskIds, now).e))
            == ErrorReply(500, InternalError)
    ensures HandledCall(GetSessionStatusAsWritten(sessions, sessionId, tasks))
            == ErrorReply(500, InternalError)
    ensures HandledCall(GetSessionResultsAsWritten(sessions, sessionId, tasks))
            == ErrorReply(500, InternalError)
  {
  }

  /** With the database manager passed, the research routes answer as intended:
      an unknown or empty session id is a 404 "Session not found", a known one a
      200 with its status. */
  lemma ResearchRoutesCorrected(sessions: map<string, Session>, sessionId: string, tasks: seq<Task>)
    ensures sessionId == "" || sessionId !in sessions ==>
      && HandledCall(Normal(GetSessionStatus(sessions, sessionId, tasks)))
         == ErrorReply(404, "Session not found")
      && HandledCall(Normal(GetSessionResults(sessions, sessionId, tasks)))
         == ErrorReply(404, "Session not found")
    ensures sessionId != "" && sessionId in sessions ==>
      HandledCall(Normal(GetSessionStatus(sessions, sessionId, tasks))).Ok200?
  {
    assert "Session not found" == "Session" + " " + NotFoundPhrase;
    NotFoundSuffixIs404<SessionStatusView>("Session");
    NotFoundSuffixIs404<SessionResults>("Session");
  }
}

=== FILE: robots_checker.dfy ===
/** `RobotsChecker`: a per-domain cache of parsed robots.txt files with a time to
    live. The HTTP fetch is a parameter (`fetched`: the parser built from a 200
    response, or `None` for any other status or a request error), as are the
    rule matching and crawl-delay lookups of the standard library's parser. */
module RobotsChecker {
  import opened Wrappers

  const DefaultTtl := 3600
  const DefaultUserAgent := "*"
  const RobotsPath := "/robots.txt"

  /** The parts of `urlparse` the checker reads. */
  datatype Url = Url(scheme: string, netloc: string, path: string)

  /** A parsed robots.txt, identified by its lines. */
  datatype Parser = Parser(lines: seq<string>)

  /** The first index of `c` in `s`. */
  function IndexOf(s: string, c: char): (r: Option<nat>)
    ensures r.Some? ==> r.value < |s| && s[r.value] == c
    ensures r.Some? ==> forall j :: 0 <= j < r.value ==> s[j] != c
    ensures r.None? <==> c !in s
  {
    if s == [] then None
    else if s[0] == c then Some(0)
    else
      match IndexOf(s[1..], c)
      case None => assert forall j :: 1 <= j < |s| ==> s[j] == s[1..][j - 1]; None
      case Some(k) => Some(k + 1)
  }

  /** The length of the longest prefix of `s` with no character that `stop` holds for. */
  function SpanUntil(s: string, stop: char -> bool): (n: nat)
    ensures n <= |s|
    ensures forall j :: 0 <= j < n ==> !stop(s[j])
    ensures n < |s| ==> stop(s[n])
    decreases |s|
  {
    if s == [] || stop(s[0]) then 0
    else
      var k := SpanUntil(s[1..], stop);
      assert forall j :: 1 <= j < |s| ==> s[j] == s[1..][j - 1];
      k + 1
  }

  /** The characters that end the network location of a URL. */
  predicate EndsNetloc(c: char) {
    c == '/' || c == '?' || c == '#'
  }

  /** The characters that end the path of a URL. */
  predicate EndsPath(c: char) {
    c == '?' || c == '#'
  }

  /** `urlparse` for URLs of the form `scheme://netloc...`: the scheme runs to
      the first colon, which must open `://`; the network location runs to the
      next '/', '?' or '#', and the path from there to the next '?' or '#'.
      Anything else has an empty scheme and network location. */
  function ParseUrl(s: string): Url {
    match IndexOf(s, ':')
    case None => Url("", "", s)
    case Some(i) =>
      if i + 3 <= |s| && s[i..i + 3] == "://" then
        var rest := s[i + 3..];
        var n := SpanUntil(rest, EndsNetloc);
        var after := rest[n..];
        Url(s[..i], rest[..n], after[..SpanUntil(after, EndsPath)])
      else Url("", "", s)
  }

  /** `_get_robots_url`: the robots.txt at the root of the URL's host. */
  function RobotsUrl(u: Url): string {
    u.scheme + "://" + u.netloc + RobotsPath
  }

  /** Parsing a robots.txt URL gives back the scheme and host it was built from. */
  lemma RobotsUrlRoundTrip(u: Url)
    requires ':' !in u.scheme
    requires forall j :: 0 <= j < |u.netloc| ==> !EndsNetloc(u.netloc[j])
    ensures ParseUrl(RobotsUrl(u)) == Url(u.scheme, u.netloc, RobotsPath)
  {
    var rest := u.netloc + RobotsPath;
    assert RobotsUrl(u) == u.scheme + ("://" + rest);
    ParseSchemeUrl(u.scheme, rest);
    SpanStops(u.netloc, RobotsPath, EndsNetloc);
    assert rest[..|u.netloc|] == u.netloc && rest[|u.netloc|..] == RobotsPath;
    RobotsPathIsPath();
    SpanStops(RobotsPath, [], EndsPath);
    assert RobotsPath + [] == RobotsPath;
  }

  /** "/robots.txt" has no query or fragment. */
  lemma RobotsPathIsPath()
    ensures forall j :: 0 <= j < |RobotsPath| ==> !EndsPath(RobotsPath[j])
  {
  }

  /** A URL `scheme://rest` splits into its scheme and the parts of `rest`. */
  lemma ParseSchemeUrl(scheme: string, rest: string)
    requires ':' !in scheme
    ensures var n := SpanUntil(rest, EndsNetloc);
      ParseUrl(scheme + ("://" + rest)) ==
      Url(scheme, rest[..n], rest[n..][..SpanUntil(rest[n..], EndsPath)])
  {
    IndexAfter(scheme, "://" + rest, ':');
    SchemeSplit(scheme, rest);
  }

  /** The span of `a + b` ends where `a` does, when `a` has no stop character
      and `b` is empty or starts with one. */
  lemma {:induction false} SpanStops(a: string, b: string, stop: char -> bool)
    requires forall j :: 0 <= j < |a| ==> !stop(a[j])
    requires b != [] ==> stop(b[0])
    ensures SpanUntil(a + b, stop) == |a|
    decreases |a|
  {
    if a == [] {
      assert a + b == b;
    } else {
      var tail := a[1..];
      assert (a + b)[0] == a[0];
      assert (a + b)[1..] == tail + b;
      assert forall j :: 0 <= j < |tail| ==> tail[j] == a[j + 1];
      SpanStops(tail, b, stop);
    }
  }

  /** The pieces of `scheme + "://" + rest` around the separator. */
  lemma SchemeSplit(scheme: string, rest: string)
    ensures var s := scheme + ("://" + rest);
      && |scheme| + 3 <= |s|
      && s[|scheme|..|scheme| + 3] == "://"
      && s[|scheme| + 3..] == rest
      && s[..|scheme|] == scheme
  {
  }

  /** The first `c` of `a + b`, when `a` has none and `b` starts with one. */
  lemma IndexAfter(a: string, b: string, c: char)
    requires c !in a && b != [] && b[0] == c
    ensures IndexOf(a + b, c) == Some(|a|)
  {
    assert (a + b)[|a|] == c;
    assert forall j :: 0 <= j < |a| ==> (a + b)[j] == a[j];
  }

  /** A query or fragment right after the host does not become part of it:
      `urlparse("https://example.com?q=1").netloc` is "example.com". */
  lemma QueryEndsHost(scheme: string, host: string, sep: char, query: string)
    requires ':' !in scheme
    requires forall j :: 0 <= j < |host| ==> !EndsNetloc(host[j])
    requires sep == '?' || sep == '#'
    ensures ParseUrl(scheme + ("://" + (host + ([sep] + query)))).netloc == host
  {
    UrlHost(scheme, host, [sep] + query);
  }

  lemma UrlHost(scheme: string, host: string, tail: string)
    requires ':' !in scheme
    requires forall j :: 0 <= j < |host| ==> !EndsNetloc(host[j])
    requires tail != [] ==> EndsNetloc(tail[0])
    ensures ParseUrl(scheme + ("://" + (host + tail))).netloc == host
  {
    var rest := host + tail;
    ParseSchemeUrl(scheme, rest);
    SpanStops(host, tail, EndsNetloc);
    assert rest[..|host|] == host;
  }

  /** The two caches: parsers and fetch times by domain. */
  datatype Checker = Checker(parsers: map<string, Parser>, lastFetch: map<string, int>, ttl: int)

  function NewChecker(ttl: int): (c: Checker)
    ensures c.parsers == map[] && c.lastFetch == map[] && c.ttl == ttl
  {
    Checker(map[], map[], ttl)
  }

  /** The cache must be refreshed when either map lacks the domain or the last
      fetch is more than `ttl` seconds old. */
  predicate NeedsRefresh(c: Checker, domain: string, now: int) {
    domain !in c.parsers || domain !in c.lastFetch || now - c.lastFetch[domain] > c.ttl
  }

  /** A lookup's result: the caches afterwards, the parser returned, and the
      robots.txt URL requested, if one was. */
  datatype Lookup = Lookup(checker: Checker, parser: Option<Parser>, requested: Option<string>)

  /** `_get_parser`: refetch when the cache needs it, keep a successful fetch with
      its time, and return whatever parser the cache then holds — a failed refetch
      leaves the previous parser (however old) in place and returns it. */
  function GetParser(c: Checker, url: string, fetched: Option<Parser>, now: int): (r: Lookup)
    ensures var domain := ParseUrl(url).netloc;
      && r.checker.ttl == c.ttl
      && (r.requested.Some? <==> NeedsRefresh(c, domain, now))
      && (r.requested.Some? ==> r.requested.value == RobotsUrl(Url("https", domain, "")))
      && (!NeedsRefresh(c, domain, now) ==> r.checker == c && r.parser == Some(c.parsers[domain]))
      && (NeedsRefresh(c, domain, now) && fetched.Some? ==>
            && r.checker.parsers == c.parsers[domain := fetched.value]
            && r.checker.lastFetch == c.lastFetch[domain := now]
            && r.parser == fetched)
      && (NeedsRefresh(c, domain, now) && fetched.None? ==>
            && r.checker == c
            && r.parser == (if domain in c.parsers then Some(c.parsers[domain]) else None))
  {
    var domain := ParseUrl(url).netloc;
    if NeedsRefresh(c, domain, now) then
      var c' := match fetched
        case Some(p) => c.(parsers := c.parsers[domain := p], lastFetch := c.lastFetch[domain := now])
        case None => c;
      Lookup(c', if domain in c'.parsers then Some(c'.parsers[domain]) else None,
             Some(RobotsUrl(Url("https", domain, ""))))
    else Lookup(c, Some(c.parsers[domain]), None)
  }

  /** After a successful fetch the domain is served from the cache, without a new
      request, until `ttl` seconds have passed. */
  lemma FreshFetchIsCached(c: Checker, url: string, p: Parser, now: int, later: int,
                           next: Option<Parser>)
    requires NeedsRefresh(c, ParseUrl(url).netloc, now)
    requires c.ttl >= 0 && now <= later <= now + c.ttl
    ensures var c' := GetParser(c, url, Some(p), now).checker;
      && !NeedsRefresh(c', ParseUrl(url).netloc, later)
      && GetParser(c', url, next, later).requested.None?
      && GetParser(c', url, next, later).parser == Some(p)
  {
  }

  /** `can_fetch`: without a parser every URL may be fetched; otherwise the parser's
      rules decide. */
  function CanFetch(c: Checker, url: string, userAgent: string, fetched: Option<Parser>, now: int,
                    allows: (Parser, string, string) -> bool): (r: (Checker, bool))
    ensures r.0 == GetParser(c, url, fetched, now).checker
    ensures GetParser(c, url, fetched, now).parser.None? ==> r.1
    ensures GetParser(c, url, fetched, now).parser.Some? ==>
      r.1 == allows(GetParser(c, url, fetched, now).parser.value, userAgent, url)
  {
    var lookup := GetParser(c, url, fetched, now);
    match lookup.parser
    case None => (lookup.checker, true)
    case Some(p) => (lookup.checker, allows(p, userAgent, url))
  }

  /** `get_crawl_delay`: `None` without a parser, else the parser's delay for the
      agent. */
  function GetCrawlDelay(c: Checker, url: string, userAgent: string, fetched: Option<Parser>,
                         now: int, delayOf: (Parser, string) -> Option<int>)
    : (r: (Checker, Option<int>))
    ensures r.0 == GetParser(c, url, fetched, now).checker
    ensures GetParser(c, url, fetched, now).parser.None? ==> r.1.None?
    ensures GetParser(c, url, fetched, now).parser.Some? ==>
      r.1 == delayOf(GetParser(c, url, fetched, now).parser.value, userAgent)
  {
    var lookup := GetParser(c, url, fetched, now);
    match lookup.parser
    case None => (lookup.checker, None)
    case Some(p) => (lookup.checker, delayOf(p, userAgent))
  }

  /** A domain whose robots.txt was never obtained may be fetched freely. */
  lemma FailOpen(c: Checker, url: string, userAgent: string, now: int,
                 allows: (Parser, string, string) -> bool)
    requires ParseUrl(url).netloc !in c.parsers
    ensures CanFetch(c, url, userAgent, None, now, allows).1
    ensures GetCrawlDelay(c, url, userAgent, None, now, (p: Parser, a: string) => Some(1)).1.None?
  {
  }

  /** `clear_cache`: a non-empty domain is forgotten in both caches; no domain, or
      the empty one, empties both. */
  function ClearCache(c: Checker, domain: Option<string>): (r: Checker)
    ensures r.ttl == c.ttl
    ensures domain.Some? && domain.value != "" ==>
      && r.parsers == c.parsers - {domain.value}
      && r.lastFetch == c.lastFetch - {domain.value}
    ensures domain.None? || domain.value == "" ==> r.parsers == map[] && r.lastFetch == map[]
  {
    match domain
    case Some(d) =>
      if d != "" then c.(parsers := c.parsers - {d}, lastFetch := c.lastFetch - {d})
      else c.(parsers := map[], lastFetch := map[])
    case None => c.(parsers := map[], lastFetch := map[])
  }

  /** A cleared domain is fetched again on its next lookup. */
  lemma ClearForcesRefresh(c: Checker, domain: Option<string>, d: string, now: int)
    requires domain.None? || domain.value == "" || domain.value == d
    ensures NeedsRefresh(ClearCache(c, domain), d, now)
  {
  }
}

=== FILE: seqs.dfy ===
/** List comprehensions over sequences: `[x for x in xs if p(x)]` and its length. */
module Seqs {

  /** `[x for x in xs if p(x)]`: the elements satisfying `p`, in their order. */
  function Filter<T>(p: T -> bool, xs: seq<T>): (r: seq<T>)
    ensures |r| <= |xs|
    ensures forall i :: 0 <= i < |r| ==> r[i] in xs && p(r[i])
    ensures forall i :: 0 <= i < |xs| && p(xs[i]) ==> xs[i] in r
    ensures multiset(r) <= multiset(xs)
    decreases |xs|
  {
    if xs == [] then []
    else
      assert xs == [xs[0]] + xs[1..];
      (if p(xs[0]) then [xs[0]] else []) + Filter(p, xs[1..])
  }

  /** Filtering keeps every element that passes as many times as it occurs, and
      drops every other. */
  lemma FilterMultiset<T>(p: T -> bool, xs: seq<T>)
    ensures forall x | x in xs ::
      multiset(Filter(p, xs))[x] == (if p(x) then multiset(xs)[x] else 0)
  {
    forall x | x in xs
      ensures multiset(Filter(p, xs))[x] == (if p(x) then multiset(xs)[x] else 0)
    {
      FilterCount(p, xs, x);
    }
  }

  lemma {:induction false} FilterCount<T>(p: T -> bool, xs: seq<T>, x: T)
    ensures multiset(Filter(p, xs))[x] == (if p(x) then multiset(xs)[x] else 0)
    decreases |xs|
  {
    if xs != [] {
      var tail := xs[1..];
      FilterCount(p, tail, x);
      FilterCons(p, xs);
      assert xs == [xs[0]] + tail;
    }
  }

  /** Filtering a concatenation filters each part. */
  lemma {:induction false} FilterAppend<T>(p: T -> bool, a: seq<T>, b: seq<T>)
    ensures Filter(p, a + b) == Filter(p, a) + Filter(p, b)
    decreases |a|
  {
    if a != [] {
      var ab := a + b;
      assert ab[0] == a[0] && ab[1..] == a[1..] + b;
      FilterAppend(p, a[1..], b);
      FilterCons(p, ab);
      FilterCons(p, a);
      var h: seq<T> := if p(a[0]) then [a[0]] else [];
      ConcatAssoc(h, Filter(p, a[1..]), Filter(p, b));
    } else {
      assert a + b == b;
    }
  }

  lemma ConcatAssoc<T>(a: seq<T>, b: seq<T>, c: seq<T>)
    ensures a + (b + c) == (a + b) + c
  {
  }

  /** Filtering a non-empty sequence decides its head, then filters the tail. */
  lemma FilterCons<T>(p: T -> bool, xs: seq<T>)
    requires xs != []
    ensures Filter(p, xs) == (if p(xs[0]) then [xs[0]] else []) + Filter(p, xs[1..])
    ensures |Filter(p, xs)| == |Filter(p, xs[1..])| + (if p(xs[0]) then 1 else 0)
  {
  }

  /** When every element passes, filtering keeps the whole sequence. */
  lemma {:induction false} FilterAllPass<T>(p: T -> bool, xs: seq<T>)
    requires forall i :: 0 <= i < |xs| ==> p(xs[i])
    ensures Filter(p, xs) == xs
    decreases |xs|
  {
    if xs != [] {
      var tail := xs[1..];
      assert forall i :: 0 <= i < |tail| ==> tail[i] == xs[i + 1];
      FilterAllPass(p, tail);
      FilterCons(p, xs);
      assert [xs[0]] + tail == xs;
    }
  }

  /** Filtering keeps a sequence whole exactly when every element passes. */
  lemma FilterKeepsAll<T>(p: T -> bool, xs: seq<T>)
    ensures Filter(p, xs) == xs <==> forall i :: 0 <= i < |xs| ==> p(xs[i])
  {
    if forall i :: 0 <= i < |xs| ==> p(xs[i]) {
      FilterAllPass(p, xs);
    }
  }

  /** `sum(1 for x in xs if p(x))`. */
  function Count<T>(p: T -> bool, xs: seq<T>): nat {
    |Filter(p, xs)|
  }

  /** A count is zero exactly when no element satisfies the predicate. */
  lemma CountZero<T>(p: T -> bool, xs: seq<T>)
    ensures Count(p, xs) == 0 <==> forall i :: 0 <= i < |xs| ==> !p(xs[i])
  {
    if Count(p, xs) != 0 {
      var r := Filter(p, xs);
      assert r[0] in r;
    } else {
      forall i | 0 <= i < |xs|
        ensures !p(xs[i])
      {
        assert xs[i] in xs;
      }
    }
  }

  /** A count equals the length exactly when every element satisfies the predicate. */
  lemma {:induction false} CountAll<T>(p: T -> bool, xs: seq<T>)
    ensures Count(p, xs) == |xs| <==> forall i :: 0 <= i < |xs| ==> p(xs[i])
    decreases |xs|
  {
    if forall i :: 0 <= i < |xs| ==> p(xs[i]) {
      FilterAllPass(p, xs);
    } else if xs != [] {
      var tail := xs[1..];
      FilterCons(p, xs);
      if p(xs[0]) {
        CountAll(p, tail);
        assert forall i :: 0 <= i < |tail| ==> tail[i] == xs[i + 1];
      } else {
        assert |Filter(p, tail)| <= |tail|;
      }
    }
  }
}

=== FILE: session_record.dfy ===
/** The research-session record: the union of the two `ResearchSession` classes
    (app/database/models/research_session.py and app/database/models.py), its
    vocabularies, `validate()`, `add_task()`, `complete()` and the active-session query. */
module SessionRecord {
  import opened Wrappers
  import opened TaskRecord

  datatype Session = Session(
    id: string,
    researchType: string,
    targetCompanyId: string,      // "" when missing
    targetCompany: string,
    status: string,
    progress: int,
    taskIds: seq<TaskId>,
    findings: Payload,
    completedAt: Option<Time>,
    createdAt: Time)

  /** The four `ResearchType` values. */
  const ResearchTypes: seq<string> :=
    ["company_profile", "market_analysis", "competitor_analysis", "custom"]

  /** The four `SessionStatus` values. */
  const SessionStatuses: seq<string> := ["planned", "in_progress", "completed", "archived"]

  /** A session built from the constructor's keyword defaults; `taskIds` are kept in
      the given order and number (string ids and ObjectIds are one type here). */
  function NewSession(id: string, targetCompanyId: string, taskIds: seq<TaskId>, now: Time)
    : (s: Session)
    ensures s.status == "planned" && s.researchType == "company_profile"
    ensures s.progress == 0 && s.completedAt.None?
    ensures s.taskIds == taskIds
    ensures targetCompanyId != "" ==> Validate(s) == Valid
  {
    Session(id, "company_profile", targetCompanyId, "", "planned", 0, taskIds, map[], None, now)
  }

  /** The checks of `ResearchSession.validate()` in source order, with the
      collections the type and status are looked up in as parameters. */
  function ValidateAgainst(s: Session, typeValues: seq<string>, statusValues: seq<string>)
    : Check
  {
    if s.targetCompanyId == "" then Invalid("Target company ID is required")
    else if s.researchType !in typeValues then Invalid("Invalid research type")
    else if s.status !in statusValues then Invalid("Invalid session status")
    else if !(0 <= s.progress <= 100) then Invalid("Progress must be between 0 and 100")
    else Valid
  }

  /** `ResearchSession.validate()` against the four declared values of each
      vocabulary (the evidently intended reading; see `ValidateAsWritten`). */
  function Validate(s: Session): (r: Check)
    ensures r == Valid <==>
      && s.targetCompanyId != ""
      && s.researchType in ResearchTypes
      && s.status in SessionStatuses
      && 0 <= s.progress <= 100
    ensures s.targetCompanyId == "" ==> r == Invalid("Target company ID is required")
    ensures r == Invalid("Invalid research type") <==>
      s.targetCompanyId != "" && s.researchType !in ResearchTypes
    ensures r == Invalid("Invalid session status") <==>
      s.targetCompanyId != "" && s.researchType in ResearchTypes && s.status !in SessionStatuses
  {
    ValidateAgainst(s, ResearchTypes, SessionStatuses)
  }

  /** The module the session classes are defined in, as `__module__` reports it. */
  const SessionModule := "app.database.models.research_session"

  /** What `vars(ResearchType).values()` and `vars(SessionStatus).values()` hold as
      strings: the declared values plus each class's `__module__`. Class creation
      drops `__qualname__` from the class dictionary, and neither class has a
      docstring, so `__doc__` is `None`. */
  const ResearchTypeClassValues: seq<string> := ResearchTypes + [SessionModule]
  const SessionStatusClassValues: seq<string> := SessionStatuses + [SessionModule]

  /** `ResearchSession.validate()` exactly as written. */
  function ValidateAsWritten(s: Session): (r: Check)
    ensures r == Valid <==>
      && s.targetCompanyId != ""
      && s.researchType in ResearchTypeClassValues
      && s.status in SessionStatusClassValues
      && 0 <= s.progress <= 100
  {
    ValidateAgainst(s, ResearchTypeClassValues, SessionStatusClassValues)
  }

  /** The as-written check accepts the module name as the research type and as
      the status; the corrected `Validate` rejects it. The class names themselves
      are rejected by both. */
  lemma ModuleNameAccepted(s: Session)
    requires s.targetCompanyId != "" && 0 <= s.progress <= 100
    ensures s.researchType == SessionModule && s.status == SessionModule ==>
      ValidateAsWritten(s) == Valid && Validate(s) == Invalid("Invalid research type")
    ensures s.researchType == "ResearchType" ==>
      ValidateAsWritten(s) == Invalid("Invalid research type")
    ensures s.researchType in ResearchTypes && s.status == "SessionStatus" ==>
      ValidateAsWritten(s) == Invalid("Invalid session status")
  {
    assert SessionModule == ResearchTypeClassValues[4] == SessionStatusClassValues[4];
  }

  predicate NoDuplicates(xs: seq<TaskId>) {
    forall i, j :: 0 <= i < j < |xs| ==> xs[i] != xs[j]
  }

  /** `add_task`: an id already listed is not added again; a new id goes to the end,
      behind the existing ids in their order. */
  function AddTask(s: Session, taskId: TaskId): (r: Session)
    ensures taskId in r.taskIds
    ensures s.taskIds <= r.taskIds
    ensures |r.taskIds| <= |s.taskIds| + 1
    ensures taskId in s.taskIds ==> r == s
    ensures NoDuplicates(s.taskIds) ==> NoDuplicates(r.taskIds)
    ensures r.(taskIds := s.taskIds) == s
  {
    if taskId in s.taskIds then s else s.(taskIds := s.taskIds + [taskId])
  }

  /** Adding the same id twice is the same as adding it once. */
  lemma AddTaskIdempotent(s: Session, taskId: TaskId)
    ensures AddTask(AddTask(s, taskId), taskId) == AddTask(s, taskId)
  {
  }

  /** `ResearchSession.complete()`: status completed, progress 100, completion time
      now; every other field is kept. */
  function Complete(s: Session, now: Time): (r: Session)
    ensures r.status == "completed" && r.progress == 100 && r.completedAt == Some(now)
    ensures r.(status := s.status, progress := s.progress, completedAt := s.completedAt) == s
    ensures s.targetCompanyId != "" && s.researchType in ResearchTypes ==> Validate(r) == Valid
  {
    s.(status := "completed", progress := 100, completedAt := Some(now))
  }

  /** `ResearchSession.find_active_sessions`: sessions whose status is pending or
      in progress. */
  function FindActiveSessions(sessions: map<string, Session>): (r: map<string, Session>)
    ensures forall id :: id in r <==>
      id in sessions && sessions[id].status in {"pending", "in_progress"}
    ensures forall id :: id in r ==> r[id] == sessions[id]
  {
    map id | id in sessions && sessions[id].status in {"pending", "in_progress"} :: sessions[id]
  }

  /** `ResearchSession.find_by_company`: the sessions whose target company is the
      given one. */
  function FindByCompany(sessions: map<string, Session>, company: string)
    : (r: map<string, Session>)
    ensures forall id :: id in r <==> id in sessions && sessions[id].targetCompany == company
    ensures forall id :: id in r ==> r[id] == sessions[id]
  {
    map id | id in sessions && sessions[id].targetCompany == company :: sessions[id]
  }
}

=== FILE: status_log.dfy ===
/** The audit trail of task status changes (`TaskStatusLog`): one immutable entry per
    change, its defaults, its dictionary form, and the two newest-first queries. */
module StatusLog {
  import opened Wrappers
  import opened TaskRecord
  import opened Json
  import Seqs

  datatype AuditEntry = AuditEntry(
    taskId: TaskId,
    oldStatus: Option<Status>,   // `None` for the creation entry
    newStatus: Status,
    changedBy: string,
    reason: Option<string>,
    timestamp: Time)

  /** The log is only ever appended to. */
  type Log = seq<AuditEntry>

  const SecondsPerHour := 3600

  /** An entry built from the constructor's keyword defaults: changed by the
      system, with an empty reason. */
  function NewEntry(taskId: TaskId, oldStatus: Option<Status>, newStatus: Status, now: Time)
    : (e: AuditEntry)
    ensures e.changedBy == "system" && e.reason == Some("")
    ensures e.taskId == taskId && e.oldStatus == oldStatus && e.newStatus == newStatus
    ensures e.timestamp == now
  {
    AuditEntry(taskId, oldStatus, newStatus, "system", Some(""), now)
  }

  function StatusValue(s: Option<Status>): Value {
    match s
    case Some(st) => Str(StatusName(st))
    case None => Null
  }

  /** `TaskStatusLog.to_dict()` (the document's own id and bookkeeping times aside). */
  function ToDict(e: AuditEntry): (d: Dict)
    ensures FromDict(d, 0) == Some(e)
  {
    var d := map[
      "task_id" := Str(e.taskId),
      "old_status" := StatusValue(e.oldStatus),
      "new_status" := Str(StatusName(e.newStatus)),
      "changed_by" := Str(e.changedBy),
      "change_reason" := OptStr(e.reason),
      "timestamp" := Int(e.timestamp)];
    assert FromDict(d, 0) == Some(e) by {
      StatusNameRoundTrip(e.newStatus);
      if e.oldStatus.Some? {
        StatusNameRoundTrip(e.oldStatus.value);
      }
      assert d["old_status"] == StatusValue(e.oldStatus);
      assert d["new_status"] == Str(StatusName(e.newStatus));
      assert d["change_reason"] == OptStr(e.reason);
      assert GetStr(d, "task_id", "") == e.taskId;
      assert GetStr(d, "changed_by", "system") == e.changedBy;
      assert GetInt(d, "timestamp", 0) == e.timestamp;
    }
    d
  }

  /** `TaskStatusLog.from_dict()`: keyword defaults for absent keys (`now` for the
      timestamp); `None` when the new status names no status. */
  function FromDict(d: Dict, now: Time): Option<AuditEntry> {
    var prior := if "old_status" in d && d["old_status"].Str?
               then ParseStatus(d["old_status"].s) else None;
    var reason := if "change_reason" !in d then Some("")
                  else if d["change_reason"].Str? then Some(d["change_reason"].s) else None;
    var newStatus := if "new_status" in d && d["new_status"].Str?
                     then ParseStatus(d["new_status"].s) else None;
    if newStatus.None? then None
    else Some(AuditEntry(GetStr(d, "task_id", ""), prior, newStatus.value,
                         GetStr(d, "changed_by", "system"), reason,
                         GetInt(d, "timestamp", now)))
  }

  /** Each entry is at least as new as the one after it. */
  predicate NewestFirst(xs: seq<AuditEntry>) {
    forall i :: 0 < i < |xs| ==> xs[i - 1].timestamp >= xs[i].timestamp
  }

  /** An entry no older than the head of a newest-first list may go in front. */
  lemma ConsNewestFirst(x: AuditEntry, rest: seq<AuditEntry>)
    requires NewestFirst(rest)
    requires rest != [] ==> x.timestamp >= rest[0].timestamp
    ensures NewestFirst([x] + rest)
  {
    var r := [x] + rest;
    forall i | 0 < i < |r|
      ensures r[i - 1].timestamp >= r[i].timestamp
    {
      assert r[i] == rest[i - 1];
      if i > 1 {
        assert r[i - 1] == rest[i - 2];
      }
    }
  }

  /** Places one entry in front of the first entry it is no older than. */
  function Insert(e: AuditEntry, xs: seq<AuditEntry>): (r: seq<AuditEntry>)
    ensures |r| == |xs| + 1 && (r[0] == e || (xs != [] && r[0] == xs[0]))
    decreases |xs|
  {
    if xs == [] || e.timestamp >= xs[0].timestamp then [e] + xs
    else [xs[0]] + Insert(e, xs[1..])
  }

  /** Inserting into a newest-first list keeps it newest first. */
  lemma {:induction false} InsertSorted(e: AuditEntry, xs: seq<AuditEntry>)
    requires NewestFirst(xs)
    ensures NewestFirst(Insert(e, xs))
    decreases |xs|
  {
    if xs == [] || e.timestamp >= xs[0].timestamp {
      ConsNewestFirst(e, xs);
    } else {
      var tail := xs[1..];
      assert NewestFirst(tail);
      InsertSorted(e, tail);
      ConsNewestFirst(xs[0], Insert(e, tail));
    }
  }

  /** Inserting adds exactly the one entry. */
  lemma {:induction false} InsertAdds(e: AuditEntry, xs: seq<AuditEntry>)
    ensures multiset(Insert(e, xs)) == multiset(xs) + multiset{e}
    decreases |xs|
  {
    if xs != [] && e.timestamp < xs[0].timestamp {
      var tail := xs[1..];
      InsertAdds(e, tail);
      assert xs == [xs[0]] + tail;
    }
  }

  /** `.sort('timestamp', -1)`: the same entries, newest first. */
  function SortNewestFirst(xs: seq<AuditEntry>): (r: seq<AuditEntry>)
    ensures NewestFirst(r)
    ensures multiset(r) == multiset(xs)
    decreases |xs|
  {
    if xs == [] then []
    else
      var rest := SortNewestFirst(xs[1..]);
      InsertSorted(xs[0], rest);
      InsertAdds(xs[0], rest);
      assert xs == [xs[0]] + xs[1..];
      Insert(xs[0], rest)
  }

  /** Two orderings of the same entries have the same length and members. */
  lemma SameElements(a: seq<AuditEntry>, b: seq<AuditEntry>)
    requires multiset(a) == multiset(b)
    ensures |a| == |b|
    ensures forall i :: 0 <= i < |a| ==> a[i] in b
    ensures forall i :: 0 <= i < |b| ==> b[i] in a
  {
    assert |a| == |multiset(a)|;
    forall i | 0 <= i < |a|
      ensures a[i] in b
    {
      assert a[i] in multiset(a);
    }
    forall i | 0 <= i < |b|
      ensures b[i] in a
    {
      assert b[i] in multiset(b);
    }
  }

  /** Sorting the entries that pass `p` keeps exactly those entries. */
  lemma SortedSelection(p: AuditEntry -> bool, log: Log)
    ensures var r := SortNewestFirst(Seqs.Filter(p, log));
      && |r| <= |log|
      && (forall i :: 0 <= i < |r| ==> p(r[i]) && r[i] in log)
      && (forall i :: 0 <= i < |log| && p(log[i]) ==> log[i] in r)
  {
    var selected := Seqs.Filter(p, log);
    var r := SortNewestFirst(selected);
    SameElements(r, selected);
  }

  /** `TaskStatusLog.find_by_task_id`: that task's entries, newest first. */
  function FindByTaskId(log: Log, taskId: TaskId): (r: seq<AuditEntry>)
    ensures NewestFirst(r)
    ensures multiset(r) == multiset(Seqs.Filter((e: AuditEntry) => e.taskId == taskId, log))
    ensures forall i :: 0 <= i < |r| ==> r[i].taskId == taskId && r[i] in log
    ensures forall i :: 0 <= i < |log| && log[i].taskId == taskId ==> log[i] in r
  {
    SortedSelection((e: AuditEntry) => e.taskId == taskId, log);
    SortNewestFirst(Seqs.Filter((e: AuditEntry) => e.taskId == taskId, log))
  }

  /** `TaskStatusLog.find_recent_changes`: entries stamped strictly after
      `now - hours`, newest first. */
  function FindRecentChanges(log: Log, hours: int, now: Time): (r: seq<AuditEntry>)
    ensures NewestFirst(r)
    ensures forall i :: 0 <= i < |r| ==>
      r[i].timestamp > now - hours * SecondsPerHour && r[i] in log
    ensures forall i :: 0 <= i < |log| && log[i].timestamp > now - hours * SecondsPerHour ==>
      log[i] in r
    ensures |r| <= |log|
    ensures multiset(r)
            == multiset(Seqs.Filter((e: AuditEntry) => e.timestamp > now - hours * SecondsPerHour, log))
  {
    SortedSelection((e: AuditEntry) => e.timestamp > now - hours * SecondsPerHour, log);
    SortNewestFirst(Seqs.Filter((e: AuditEntry) => e.timestamp > now - hours * SecondsPerHour, log))
  }

  /** Appending to the log never hides an entry from a task's history: the old
      history is still there, plus the new entry when it is that task's. */
  lemma AppendKeepsHistory(log: Log, e: AuditEntry, taskId: TaskId)
    ensures multiset(FindByTaskId(log + [e], taskId)) ==
      multiset(FindByTaskId(log, taskId)) + (if e.taskId == taskId then multiset{e} else multiset{})
  {
    Seqs.FilterAppend((x: AuditEntry) => x.taskId == taskId, log, [e]);
  }
}

=== FILE: status_service.dfy ===
/** `StatusService`: the session dashboard — tasks bucketed by status, the overall
    status those buckets imply, stale tasks, recommended next actions — and the
    per-task summary and detail views. The clock is the parameter `now`. */
module StatusService {
  import opened Wrappers
  import opened Text
  import opened TaskRecord
  import opened SessionRecord
  import TaskStore
  import StatusLog
  import Seqs
  import Progress
  import Calls
  import TaskService

  // ---- buckets ------------------------------------------------------------

  /** The dashboard's five buckets. `in_progress` tasks are shown as waiting on
      the system; tasks in `waiting_system`, `cancelled` or `stale` land in none. */
  predicate InWaitingSystem(t: Task) { t.status == InProgress }
  predicate InWaitingUser(t: Task) { t.status == WaitingUser }
  predicate InFailed(t: Task) { t.status == Failed }
  predicate InPending(t: Task) { t.status == Pending }

  /** Statuses that fall into no bucket. */
  predicate Unbucketed(t: Task) {
    t.status == WaitingSystem || t.status == Cancelled || t.status == Stale
  }

  datatype Categories = Categories(
    waitingSystem: seq<Task>,
    waitingUser: seq<Task>,
    completed: seq<Task>,
    failed: seq<Task>,
    pending: seq<Task>)

  function Total(c: Categories): nat {
    |c.waitingSystem| + |c.waitingUser| + |c.completed| + |c.failed| + |c.pending|
  }

  /** The `task_categories` comprehensions: each bucket keeps the tasks of its
      status, in the order of `tasks`. */
  function Categorize(tasks: seq<Task>): (c: Categories)
    ensures forall i :: 0 <= i < |c.waitingSystem| ==>
      c.waitingSystem[i] in tasks && c.waitingSystem[i].status == InProgress
    ensures forall i :: 0 <= i < |c.waitingUser| ==>
      c.waitingUser[i] in tasks && c.waitingUser[i].status == WaitingUser
    ensures forall i :: 0 <= i < |c.completed| ==>
      c.completed[i] in tasks && c.completed[i].status == Completed
    ensures forall i :: 0 <= i < |c.failed| ==>
      c.failed[i] in tasks && c.failed[i].status == Failed
    ensures forall i :: 0 <= i < |c.pending| ==>
      c.pending[i] in tasks && c.pending[i].status == Pending
    ensures forall i :: 0 <= i < |tasks| ==>
      && (tasks[i].status == InProgress ==> tasks[i] in c.waitingSystem)
      && (tasks[i].status == WaitingUser ==> tasks[i] in c.waitingUser)
      && (tasks[i].status == Completed ==> tasks[i] in c.completed)
      && (tasks[i].status == Failed ==> tasks[i] in c.failed)
      && (tasks[i].status == Pending ==> tasks[i] in c.pending)
    ensures |c.completed| == Progress.CompletedCount(tasks)
  {
    Categories(
      Seqs.Filter(InWaitingSystem, tasks),
      Seqs.Filter(InWaitingUser, tasks),
      Seqs.Filter(Progress.IsCompleted, tasks),
      Seqs.Filter(InFailed, tasks),
      Seqs.Filter(InPending, tasks))
  }

  /** Each bucket holds every task of its status as often as the task list does,
      and no other task. */
  lemma CategorizeCounts(tasks: seq<Task>)
    ensures forall t | t in tasks ::
      multiset(Categorize(tasks).waitingSystem)[t] ==
        (if t.status == InProgress then multiset(tasks)[t] else 0)
    ensures forall t | t in tasks ::
      multiset(Categorize(tasks).waitingUser)[t] ==
        (if t.status == WaitingUser then multiset(tasks)[t] else 0)
    ensures forall t | t in tasks ::
      multiset(Categorize(tasks).completed)[t] ==
        (if t.status == Completed then multiset(tasks)[t] else 0)
    ensures forall t | t in tasks ::
      multiset(Categorize(tasks).failed)[t] ==
        (if t.status == Failed then multiset(tasks)[t] else 0)
    ensures forall t | t in tasks ::
      multiset(Categorize(tasks).pending)[t] ==
        (if t.status == Pending then multiset(tasks)[t] else 0)
  {
    Seqs.FilterMultiset(InWaitingSystem, tasks);
    Seqs.FilterMultiset(InWaitingUser, tasks);
    Seqs.FilterMultiset(Progress.IsCompleted, tasks);
    Seqs.FilterMultiset(InFailed, tasks);
    Seqs.FilterMultiset(InPending, tasks);
  }

  /** The buckets of two task lists, each list's tasks first. */
  function Join(a: Categories, b: Categories): Categories {
    Categories(a.waitingSystem + b.waitingSystem, a.waitingUser + b.waitingUser,
               a.completed + b.completed, a.failed + b.failed, a.pending + b.pending)
  }

  /** Categorizing keeps the order of the tasks: the buckets of `a + b` are those
      of `a` followed by those of `b`. */
  lemma CategorizeAppend(a: seq<Task>, b: seq<Task>)
    ensures Categorize(a + b) == Join(Categorize(a), Categorize(b))
  {
    Seqs.FilterAppend(InWaitingSystem, a, b);
    Seqs.FilterAppend(InWaitingUser, a, b);
    Seqs.FilterAppend(Progress.IsCompleted, a, b);
    Seqs.FilterAppend(InFailed, a, b);
    Seqs.FilterAppend(InPending, a, b);
  }

  /** Every task is counted in exactly one place: one of the five buckets, or
      among the unbucketed statuses. */
  lemma {:induction false} CategoriesPartition(tasks: seq<Task>)
    ensures Total(Categorize(tasks)) + Seqs.Count(Unbucketed, tasks) == |tasks|
    decreases |tasks|
  {
    if tasks != [] {
      var tail := tasks[1..];
      CategoriesPartition(tail);
      Seqs.FilterCons(InWaitingSystem, tasks);
      Seqs.FilterCons(InWaitingUser, tasks);
      Seqs.FilterCons(Progress.IsCompleted, tasks);
      Seqs.FilterCons(InFailed, tasks);
      Seqs.FilterCons(InPending, tasks);
      Seqs.FilterCons(Unbucketed, tasks);
      OneBucket(tasks[0]);
    }
  }

  /** A task is in exactly one bucket, or unbucketed. */
  lemma OneBucket(t: Task)
    ensures (if InWaitingSystem(t) then 1 else 0) + (if InWaitingUser(t) then 1 else 0)
            + (if Progress.IsCompleted(t) then 1 else 0) + (if InFailed(t) then 1 else 0)
            + (if InPending(t) then 1 else 0) + (if Unbucketed(t) then 1 else 0) == 1
  {
  }

  /** A bucket is empty exactly when no task has its status. */
  lemma EmptyBucket(tasks: seq<Task>, p: Task -> bool)
    ensures Seqs.Filter(p, tasks) == [] <==> forall i :: 0 <= i < |tasks| ==> !p(tasks[i])
  {
    Seqs.CountZero(p, tasks);
  }

  // ---- overall status -----------------------------------------------------

  datatype Overall = HasFailures | AwaitingUser | Running | NotStarted | AllDone

  function OverallName(o: Overall): string {
    match o
    case HasFailures => "has_failures"
    case AwaitingUser => "waiting_user"
    case Running => "in_progress"
    case NotStarted => "pending"
    case AllDone => "completed"
  }

  /** `_calculate_overall_status`: the first non-empty bucket in the order failed,
      waiting_user, waiting_system, pending names the status; otherwise completed. */
  function OverallStatus(c: Categories): (o: Overall)
    ensures o == HasFailures <==> c.failed != []
    ensures o == AwaitingUser <==> c.failed == [] && c.waitingUser != []
    ensures o == Running <==> c.failed == [] && c.waitingUser == [] && c.waitingSystem != []
    ensures o == NotStarted <==>
      c.failed == [] && c.waitingUser == [] && c.waitingSystem == [] && c.pending != []
    ensures o == AllDone <==>
      c.failed == [] && c.waitingUser == [] && c.waitingSystem == [] && c.pending == []
  {
    if c.failed != [] then HasFailures
    else if c.waitingUser != [] then AwaitingUser
    else if c.waitingSystem != [] then Running
    else if c.pending != [] then NotStarted
    else AllDone
  }

  predicate AnyWith(tasks: seq<Task>, s: Status) {
    exists i :: 0 <= i < |tasks| && tasks[i].status == s
  }

  /** Each bucket is empty exactly when no task has its status. */
  lemma BucketsOfTasks(tasks: seq<Task>)
    ensures Categorize(tasks).failed == [] <==> !AnyWith(tasks, Failed)
    ensures Categorize(tasks).waitingUser == [] <==> !AnyWith(tasks, WaitingUser)
    ensures Categorize(tasks).waitingSystem == [] <==> !AnyWith(tasks, InProgress)
    ensures Categorize(tasks).pending == [] <==> !AnyWith(tasks, Pending)
  {
    EmptyBucket(tasks, InWaitingSystem);
    EmptyBucket(tasks, InWaitingUser);
    EmptyBucket(tasks, InFailed);
    EmptyBucket(tasks, InPending);
  }

  /** The overall status in terms of the tasks themselves: a single failed task
      dominates, and a session reads as completed whenever no task is failed,
      waiting on the user, in progress or pending, so a session whose tasks are
      all cancelled (or none at all) reads as completed too. */
  lemma OverallOfTasks(tasks: seq<Task>)
    ensures OverallStatus(Categorize(tasks)) == HasFailures <==> AnyWith(tasks, Failed)
    ensures OverallStatus(Categorize(tasks)) == AwaitingUser <==>
      !AnyWith(tasks, Failed) && AnyWith(tasks, WaitingUser)
    ensures OverallStatus(Categorize(tasks)) == Running <==>
      !AnyWith(tasks, Failed) && !AnyWith(tasks, WaitingUser) && AnyWith(tasks, InProgress)
    ensures OverallStatus(Categorize(tasks)) == AllDone <==>
      forall i :: 0 <= i < |tasks| ==> Settled(tasks[i].status)
  {
    BucketsOfTasks(tasks);
    NoneActive(tasks);
  }

  /** The statuses a completed-looking session may hold. */
  predicate Settled(s: Status) {
    s == Completed || s == WaitingSystem || s == Cancelled || s == Stale
  }

  lemma NoneActive(tasks: seq<Task>)
    ensures (!AnyWith(tasks, Failed) && !AnyWith(tasks, WaitingUser)
             && !AnyWith(tasks, InProgress) && !AnyWith(tasks, Pending))
            <==> forall i :: 0 <= i < |tasks| ==> Settled(tasks[i].status)
  {
  }

  // ---- stale items --------------------------------------------------------

  /** The dashboard's fixed staleness window, in hours. */
  const StaleHours := 24

  predicate IsStale(t: Task, now: Time) {
    TaskStore.MayGoStale(t.status) && t.updatedAt < now - StaleHours * StatusLog.SecondsPerHour
  }

  /** `_get_stale_recommendation`. */
  function StaleRecommendation(s: Status): string {
    if s == Pending then "Review dependencies and initiate task if ready"
    else if s == InProgress then "Check for system issues or stuck processing"
    else if s == WaitingUser then "Follow up on required user action"
    else "Review task status and take appropriate action"
  }

  datatype StaleItem = StaleItem(
    taskId: TaskId,
    title: string,
    status: Status,
    staleSince: Time,
    hoursStale: int,
    recommendedAction: string)

  /** One entry of `stale_items`: whole hours since the last update, truncated. */
  function StaleEntry(t: Task, now: Time): StaleItem {
    StaleItem(t.id, t.title, t.status, t.updatedAt,
              (now - t.updatedAt) / StatusLog.SecondsPerHour, StaleRecommendation(t.status))
  }

  /** The pending or in-progress tasks not updated in the last 24 hours, in order. */
  function StaleTasks(tasks: seq<Task>, now: Time): (r: seq<Task>)
    ensures |r| <= |tasks|
    ensures forall i :: 0 <= i < |r| ==> r[i] in tasks && IsStale(r[i], now)
    ensures forall j :: 0 <= j < |tasks| && IsStale(tasks[j], now) ==> tasks[j] in r
    decreases |tasks|
  {
    if tasks == [] then []
    else
      var rest := StaleTasks(tasks[1..], now);
      assert forall j :: 1 <= j < |tasks| ==> tasks[j] == tasks[1..][j - 1];
      assert forall i :: 0 <= i < |rest| ==> rest[i] in tasks[1..];
      (if IsStale(tasks[0], now) then [tasks[0]] else []) + rest
  }

  /** What an entry built for a stale task shows. */
  predicate ShowsStale(e: StaleItem) {
    && e.hoursStale >= StaleHours
    && e.status in {Pending, InProgress}
    && e.recommendedAction != "Review task status and take appropriate action"
  }

  lemma StaleEntryShowsStale(t: Task, now: Time)
    requires IsStale(t, now)
    ensures ShowsStale(StaleEntry(t, now))
  {
  }

  /** `_identify_stale_tasks`: one entry for each stale task, in the order of
      `tasks`; every entry shows at least 24 hours and a status-specific
      recommendation. */
  function IdentifyStaleTasks(tasks: seq<Task>, now: Time): (r: seq<StaleItem>)
    ensures |r| == |StaleTasks(tasks, now)| <= |tasks|
    ensures forall i :: 0 <= i < |r| ==> r[i] == StaleEntry(StaleTasks(tasks, now)[i], now)
    ensures forall i :: 0 <= i < |r| ==> ShowsStale(r[i])
  {
    var stale := StaleTasks(tasks, now);
    assert forall i :: 0 <= i < |stale| ==> ShowsStale(StaleEntry(stale[i], now)) by {
      forall i | 0 <= i < |stale|
        ensures ShowsStale(StaleEntry(stale[i], now))
      {
        StaleEntryShowsStale(stale[i], now);
      }
    }
    seq(|stale|, i requires 0 <= i < |stale| => StaleEntry(stale[i], now))
  }

  /** `e` is the entry of some stale task of `tasks`. */
  predicate EntryOfStaleTask(tasks: seq<Task>, now: Time, e: StaleItem) {
    exists j :: 0 <= j < |tasks| && IsStale(tasks[j], now) && e == StaleEntry(tasks[j], now)
  }

  /** The stale items are exactly the entries of the stale tasks: each item comes
      from a stale task, and each stale task has its item. */
  lemma StaleItemsOfTasks(tasks: seq<Task>, now: Time)
    ensures forall i :: 0 <= i < |IdentifyStaleTasks(tasks, now)| ==>
      EntryOfStaleTask(tasks, now, IdentifyStaleTasks(tasks, now)[i])
    ensures forall j :: 0 <= j < |tasks| && IsStale(tasks[j], now) ==>
      StaleEntry(tasks[j], now) in IdentifyStaleTasks(tasks, now)
  {
    var r := IdentifyStaleTasks(tasks, now);
    var stale := StaleTasks(tasks, now);
    forall i | 0 <= i < |r|
      ensures EntryOfStaleTask(tasks, now, r[i])
    {
      var j :| 0 <= j < |tasks| && tasks[j] == stale[i];
      assert IsStale(tasks[j], now) && r[i] == StaleEntry(tasks[j], now);
    }
    forall j | 0 <= j < |tasks| && IsStale(tasks[j], now)
      ensures StaleEntry(tasks[j], now) in r
    {
      var k :| 0 <= k < |stale| && stale[k] == tasks[j];
      assert r[k] == StaleEntry(tasks[j], now);
    }
  }

  // ---- next actions -------------------------------------------------------

  datatype Action =
    | ReviewStale(staleCount: nat)
    | CompleteUserActions(userCount: nat)
    | AddressFailures(failedCount: nat)
    | SystemProcessing
    | NoTasksInProgress

  function ActionText(a: Action): string {
    match a
    case ReviewStale(n) => "Review " + NatToString(n) + " stale items requiring attention"
    case CompleteUserActions(n) => "Complete " + NatToString(n) + " pending user actions"
    case AddressFailures(n) => "Address " + NatToString(n) + " failed tasks"
    case SystemProcessing => "System is processing tasks - check back soon"
    case NoTasksInProgress => "No tasks in progress - consider starting new tasks"
  }

  /** The position an action kind takes in the list. */
  function Rank(a: Action): nat {
    match a
    case ReviewStale(_) => 0
    case CompleteUserActions(_) => 1
    case AddressFailures(_) => 2
    case SystemProcessing => 3
    case NoTasksInProgress => 4
  }

  /** `_generate_next_actions`: stale items, then user actions, then failures, each
      with its count; the two fallbacks only when none of those three fired, and
      the second only when the first did not. */
  function NextActions(c: Categories, staleCount: nat): (r: seq<Action>)
    ensures forall i, j :: 0 <= i < j < |r| ==> Rank(r[i]) < Rank(r[j])
    ensures forall i :: 0 <= i < |r| ==>
      (r[i] in {ReviewStale(staleCount), CompleteUserActions(|c.waitingUser|),
                AddressFailures(|c.failed|), SystemProcessing, NoTasksInProgress})
    ensures r == [] <==>
      staleCount == 0 && c.waitingUser == [] && c.failed == [] && c.waitingSystem == []
      && c.completed != []
  {
    var a1 := if staleCount > 0 then [ReviewStale(staleCount)] else [];
    var a2 := a1 + if c.waitingUser != [] then [CompleteUserActions(|c.waitingUser|)] else [];
    var a3 := a2 + if c.failed != [] then [AddressFailures(|c.failed|)] else [];
    var a4 := a3 + if a3 == [] && c.waitingSystem != [] then [SystemProcessing] else [];
    a4 + if a4 == [] && c.completed == [] then [NoTasksInProgress] else []
  }

  /** The leading part of the list: stale items, user actions, failures. */
  function Counted(c: Categories, staleCount: nat): seq<Action> {
    (if staleCount > 0 then [ReviewStale(staleCount)] else [])
    + (if c.waitingUser != [] then [CompleteUserActions(|c.waitingUser|)] else [])
    + (if c.failed != [] then [AddressFailures(|c.failed|)] else [])
  }

  /** The list is the counted part followed by at most one fallback. */
  lemma NextActionsShape(c: Categories, staleCount: nat)
    ensures var k := Counted(c, staleCount);
      NextActions(c, staleCount) ==
        k + (if k == [] && c.waitingSystem != [] then [SystemProcessing]
             else if k == [] && c.completed == [] then [NoTasksInProgress] else [])
  {
  }

  /** The counted part is empty exactly when nothing is stale, waiting or failed. */
  lemma CountedEmpty(c: Categories, staleCount: nat)
    ensures Counted(c, staleCount) == [] <==>
      staleCount == 0 && c.waitingUser == [] && c.failed == []
    ensures SystemProcessing !in Counted(c, staleCount)
    ensures NoTasksInProgress !in Counted(c, staleCount)
  {
  }

  lemma CountedMembers(c: Categories, staleCount: nat)
    ensures ReviewStale(staleCount) in Counted(c, staleCount) <==> staleCount > 0
    ensures CompleteUserActions(|c.waitingUser|) in Counted(c, staleCount) <==> c.waitingUser != []
    ensures AddressFailures(|c.failed|) in Counted(c, staleCount) <==> c.failed != []
  {
  }

  /** Each action is listed exactly when its condition holds. */
  lemma NextActionsPresence(c: Categories, staleCount: nat)
    ensures var r := NextActions(c, staleCount);
      && (ReviewStale(staleCount) in r <==> staleCount > 0)
      && (CompleteUserActions(|c.waitingUser|) in r <==> c.waitingUser != [])
      && (AddressFailures(|c.failed|) in r <==> c.failed != [])
      && (SystemProcessing in r <==>
            staleCount == 0 && c.waitingUser == [] && c.failed == [] && c.waitingSystem != [])
      && (NoTasksInProgress in r <==>
            staleCount == 0 && c.waitingUser == [] && c.failed == [] && c.waitingSystem == []
            && c.completed == [])
  {
    NextActionsShape(c, staleCount);
    CountedEmpty(c, staleCount);
    CountedMembers(c, staleCount);
  }

  /** The recommended actions agree with the overall status: failures are always
      addressed, waiting users always prompted, and an empty list means the
      session reads as completed or, when some task is completed, as pending. */
  lemma ActionsAgreeWithOverall(c: Categories, staleCount: nat)
    ensures OverallStatus(c) == HasFailures ==> AddressFailures(|c.failed|) in NextActions(c, staleCount)
    ensures OverallStatus(c) == AwaitingUser ==>
      CompleteUserActions(|c.waitingUser|) in NextActions(c, staleCount)
    ensures NextActions(c, staleCount) == [] ==> OverallStatus(c) in {AllDone, NotStarted}
    ensures OverallStatus(c) == Running && staleCount == 0 ==>
      NextActions(c, staleCount) == [SystemProcessing]
  {
    var r := NextActions(c, staleCount);
    NextActionsPresence(c, staleCount);
    if OverallStatus(c) == Running && staleCount == 0 {
      assert SystemProcessing in r;
    }
  }

  // ---- task views ---------------------------------------------------------

  /** `_calculate_duration`: seconds from start to completion, or to `now` while
      the task is unfinished; `None` for a task never started. */
  function Duration(t: Task, now: Time): (d: Option<int>)
    ensures d.Some? <==> t.startedAt.Some?
  {
    match t.startedAt
    case None => None
    case Some(start) => Some(t.completedAt.GetOr(now) - start)
  }

  /** A completed task's duration no longer depends on the clock; an unfinished
      one's grows with it. */
  lemma DurationClock(t: Task, earlier: Time, later: Time)
    requires t.startedAt.Some? && earlier <= later
    ensures t.completedAt.Some? ==>
      Duration(t, earlier) == Duration(t, later) == Some(t.completedAt.value - t.startedAt.value)
    ensures t.completedAt.None? ==>
      Duration(t, later).value - Duration(t, earlier).value == later - earlier
  {
  }

  datatype Summary = Summary(
    taskId: TaskId,
    title: string,
    taskType: string,
    status: Status,
    progress: int,
    currentStep: string,
    error: Option<string>,
    createdAt: Time,
    updatedAt: Time,
    completedAt: Option<Time>,
    duration: Option<int>)

  /** `_task_summary`: the error message is shown only for a failed task. */
  function Summarize(t: Task, now: Time): (s: Summary)
    ensures s.taskId == t.id && s.status == t.status && s.progress == t.progress
    ensures s.error.Some? ==> t.status == Failed
    ensures t.status == Failed ==> s.error == t.errorMessage
    ensures s.duration == Duration(t, now)
  {
    Summary(t.id, t.title, t.taskType, t.status, t.progress, t.currentStep,
            if t.status == Failed then t.errorMessage else None,
            t.createdAt, t.updatedAt, t.completedAt, Duration(t, now))
  }

  function Summaries(ts: seq<Task>, now: Time): (r: seq<Summary>)
    ensures |r| == |ts|
    ensures forall i :: 0 <= i < |ts| ==> r[i] == Summarize(ts[i], now)
  {
    seq(|ts|, i requires 0 <= i < |ts| => Summarize(ts[i], now))
  }

  datatype Details = Details(
    summary: Summary,
    description: string,
    dependencies: seq<TaskId>,
    resultData: Option<Payload>,
    retryCount: int,
    maxRetries: int)

  /** `get_task_details`: "Task not found" for an unknown or empty id; the result
      data is shown only for a completed task. */
  function GetTaskDetails(store: TaskStore.Store, id: TaskId, now: Time): (r: Result<Details>)
    ensures r.Fail? <==> id == "" || id !in store
    ensures r.Fail? ==> r.message == "Task not found"
    ensures r.Ok? ==> r.value.summary == Summarize(store[id], now)
    ensures r.Ok? ==> (r.value.resultData.Some? <==> store[id].status == Completed)
    ensures r.Ok? && r.value.resultData.Some? ==> r.value.resultData.value == store[id].resultData
    ensures r.Ok? ==> r.value.dependencies == store[id].dependsOn
  {
    match TaskStore.FindById(store, id)
    case None => Fail("Task not found")
    case Some(t) =>
      Ok(Details(Summarize(t, now), t.description, t.dependsOn,
                 if t.status == Completed then Some(t.resultData) else None,
                 t.retryCount, t.maxRetries))
  }

  /** The summary's error follows the lifecycle: failing a task shows the
      failure message, and a retry or a cancel that goes through hides it. */
  lemma SummaryFollowsLifecycle(db: TaskService.Db, id: TaskId, message: string,
                                io: TaskService.Io, later: Time)
    requires TaskStore.FindById(db.tasks, id).Some? && io.saved
    ensures Summarize(TaskService.FailTask(db, id, message, io).db.tasks[id], later).error
            == Some(message)
    ensures TaskService.RetryTask(db, id, io).reply.Returned? ==>
      Summarize(TaskService.RetryTask(db, id, io).db.tasks[id], later).error.None?
    ensures TaskService.CancelTask(db, id, io).reply.Returned? ==>
      Summarize(TaskService.CancelTask(db, id, io).db.tasks[id], later).error.None?
  {
  }

  /** Completing a task makes its details carry the result data it was completed
      with; failing it afterwards hides the data again. */
  lemma DetailsFollowCompletion(db: TaskService.Db, id: TaskId, resultData: Payload,
                                message: string, io: TaskService.Io, later: Time)
    requires TaskStore.FindById(db.tasks, id).Some? && io.saved
    ensures var done := TaskService.CompleteTask(db, id, resultData, io).db;
      && GetTaskDetails(done.tasks, id, later).Ok?
      && GetTaskDetails(done.tasks, id, later).value.resultData == Some(resultData)
      && GetTaskDetails(TaskService.FailTask(done, id, message, io).db.tasks, id, later)
           .value.resultData.None?
  {
  }

  // ---- dashboard ----------------------------------------------------------

  datatype Breakdown = Breakdown(
    waitingSystem: seq<Summary>,
    waitingUser: seq<Summary>,
    completed: seq<Summary>,
    failed: seq<Summary>,
    pending: seq<Summary>)

  datatype Dashboard = Dashboard(
    sessionId: string,
    targetCompany: string,
    researchType: string,
    overall: Overall,
    completionPercentage: int,
    completedTasks: nat,
    totalTasks: nat,
    breakdown: Breakdown,
    staleItems: seq<StaleItem>,
    nextActions: seq<Action>)

  /** The dashboard body of `get_session_dashboard` for a known session and its
      task list as the database returns it. */
  function BuildDashboard(session: Session, sessionId: string, tasks: seq<Task>, now: Time)
    : (d: Dashboard)
    ensures d.sessionId == sessionId && d.targetCompany == session.targetCompany
    ensures d.totalTasks == |tasks|
    ensures d.completedTasks == |d.breakdown.completed| == Progress.CompletedCount(tasks)
    ensures 0 <= d.completionPercentage <= 100
    ensures d.completionPercentage == 100 <==> tasks != [] && d.completedTasks == |tasks|
    ensures d.overall == HasFailures <==> AnyWith(tasks, Failed)
    ensures |d.breakdown.waitingSystem| + |d.breakdown.waitingUser| + |d.breakdown.completed|
            + |d.breakdown.failed| + |d.breakdown.pending| <= |tasks|
    ensures |d.staleItems| <= |tasks|
    ensures forall i :: 0 <= i < |d.breakdown.failed| ==> d.breakdown.failed[i].error.Some? ==>
              d.breakdown.failed[i].status == Failed
    ensures d.completionPercentage == Progress.CompletionPercentage(tasks)
    ensures d.overall == OverallStatus(Categorize(tasks))
    ensures d.staleItems == IdentifyStaleTasks(tasks, now)
    ensures d.nextActions == NextActions(Categorize(tasks), |d.staleItems|)
  {
    var c := Categorize(tasks);
    var stale := IdentifyStaleTasks(tasks, now);
    var pct := Progress.CompletionPercentage(tasks);
    assert OverallStatus(c) == HasFailures <==> AnyWith(tasks, Failed) by {
      OverallOfTasks(tasks);
    }
    assert Total(c) <= |tasks| by {
      CategoriesPartition(tasks);
    }
    assert pct == 100 <==> tasks != [] && |c.completed| == |tasks| by {
      Seqs.CountAll(Progress.IsCompleted, tasks);
    }
    Dashboard(sessionId, session.targetCompany, session.researchType,
              OverallStatus(c), pct, |c.completed|, |tasks|,
              Breakdown(Summaries(c.waitingSystem, now), Summaries(c.waitingUser, now),
                        Summaries(c.completed, now), Summaries(c.failed, now),
                        Summaries(c.pending, now)),
              stale, NextActions(c, |stale|))
  }

  /** `get_session_dashboard`: "Session not found" for an unknown or empty session
      id, otherwise the dashboard of the session's tasks. */
  function GetSessionDashboard(sessions: map<string, Session>, sessionId: string,
                               tasks: seq<Task>, now: Time): (r: Result<Dashboard>)
    ensures r.Fail? <==> sessionId == "" || sessionId !in sessions
    ensures r.Fail? ==> r.message == "Session not found"
    ensures r.Ok? ==> r.value == BuildDashboard(sessions[sessionId], sessionId, tasks, now)
  {
    if sessionId == "" || sessionId !in sessions then Fail("Session not found")
    else Ok(BuildDashboard(sessions[sessionId], sessionId, tasks, now))
  }

  /** `get_session_dashboard` with `passed` positional arguments given to
      `ResearchSession.find_by_id`; the task listing goes through the task
      service, which passes the database itself. */
  function GetSessionDashboardCall(sessions: map<string, Session>, sessionId: string,
                                   tasks: seq<Task>, now: Time, passed: nat)
    : (r: Calls.Evaluation<Result<Dashboard>>)
  {
    Calls.Bind("find_by_id", Calls.FindByIdParams, passed, GetSessionDashboard(sessions, sessionId, tasks, now))
  }

  /** As written, `find_by_id(session_id)` lacks the database manager, so every
      dashboard request raises `TypeError`, for known and unknown ids alike;
      passing the manager gives the dashboard this model uses. */
  lemma DashboardAsWritten(sessions: map<string, Session>, sessionId: string, tasks: seq<Task>, now: Time)
    ensures GetSessionDashboardCall(sessions, sessionId, tasks, now, 1).Thrown?
    ensures GetSessionDashboardCall(sessions, sessionId, tasks, now, 1).e.OtherError?
    ensures GetSessionDashboardCall(sessions, sessionId, tasks, now, 2)
            == Calls.Normal(GetSessionDashboard(sessions, sessionId, tasks, now))
  {
  }
}

=== FILE: task_record.dfy ===
/** The task record: the union of the two `Task` classes (the service layer's richer
    one in app/database/models.py and the validated one in app/database/models/task.py),
    its status and type vocabularies, `validate()` and `complete()`. */
module TaskRecord {
  import opened Wrappers
  import Text

  type TaskId = string
  /** Timestamps are whole seconds on one clock. */
  type Time = int
  /** The opaque `result_data` dictionary a worker attaches. */
  type Payload = map<string, string>

  /** Every status name the code writes or compares against (app/database/models.py:21). */
  datatype Status =
    | Pending | InProgress | WaitingSystem | WaitingUser
    | Completed | Failed | Cancelled | Stale

  function StatusName(s: Status): string {
    match s
    case Pending => "pending"
    case InProgress => "in_progress"
    case WaitingSystem => "waiting_system"
    case WaitingUser => "waiting_user"
    case Completed => "completed"
    case Failed => "failed"
    case Cancelled => "cancelled"
    case Stale => "stale"
  }

  /** Reads a status string; `None` for a string that names no status. */
  function ParseStatus(name: string): (r: Option<Status>)
    ensures r.Some? ==> StatusName(r.value) == name
  {
    if name == "pending" then Some(Pending)
    else if name == "in_progress" then Some(InProgress)
    else if name == "waiting_system" then Some(WaitingSystem)
    else if name == "waiting_user" then Some(WaitingUser)
    else if name == "completed" then Some(Completed)
    else if name == "failed" then Some(Failed)
    else if name == "cancelled" then Some(Cancelled)
    else if name == "stale" then Some(Stale)
    else None
  }

  /** Every status name reads back as its status, so names are distinct. */
  lemma StatusNameRoundTrip(s: Status)
    ensures ParseStatus(StatusName(s)) == Some(s)
  {
  }

  datatype Task = Task(
    id: TaskId,
    sessionId: string,            // "" when missing
    taskType: string,
    title: string,
    description: string,
    status: Status,
    progress: int,                // `progress` / `progress_percentage`
    currentStep: string,
    startedAt: Option<Time>,
    completedAt: Option<Time>,
    resultData: Payload,
    errorMessage: Option<string>, // `None` only after a retry clears it
    retryCount: int,
    maxRetries: int,
    dependsOn: seq<TaskId>,
    createdAt: Time,
    updatedAt: Time)

  const DefaultMaxRetries := 3

  /** The record invariant the lifecycle is meant to keep: bounded retries and
      progress, completed tasks at 100 with a completion time. */
  predicate Consistent(t: Task) {
    && 0 <= t.retryCount <= t.maxRetries
    && 0 <= t.progress <= 100
    && (t.status == Completed ==> t.progress == 100 && t.completedAt.Some?)
  }

  /** A task built from the constructor's keyword defaults. */
  function NewTask(id: TaskId, sessionId: string, taskType: string, title: string,
                   description: string, dependsOn: seq<TaskId>, now: Time): (t: Task)
    ensures t.status == Pending && t.progress == 0
    ensures t.retryCount == 0 && t.maxRetries == DefaultMaxRetries
    ensures t.startedAt.None? && t.completedAt.None?
    ensures Consistent(t)
  {
    Task(id, sessionId, taskType, title, description, Pending, 0, "", None, None,
         map[], Some(""), 0, DefaultMaxRetries, dependsOn, now, now)
  }

  /** The four `TaskType` values. */
  const TaskTypes: seq<string> := ["research", "data_collection", "analysis", "report"]

  /** The four `TaskStatus` values. */
  const ValidatedStatuses: set<Status> := {Pending, InProgress, Completed, Failed}

  /** The checks of `Task.validate()` in source order, with `typeValues` as the
      collection the task type is looked up in. */
  function ValidateAgainst(t: Task, typeValues: seq<string>): Check {
    if t.sessionId == "" then Invalid("Session ID is required")
    else if Text.IsBlank(t.title) then Invalid("Task title is required")
    else if t.taskType !in typeValues then Invalid("Invalid task type")
    else if t.status !in ValidatedStatuses then Invalid("Invalid task status")
    else if !(0 <= t.progress <= 100) then Invalid("Progress must be between 0 and 100")
    else Valid
  }

  /** `Task.validate()` with the task type checked against the four declared
      `TaskType` values (the evidently intended reading; see `ValidateAsWritten`). */
  function Validate(t: Task): (r: Check)
    ensures r == Valid <==>
      && t.sessionId != ""
      && !Text.IsBlank(t.title)
      && t.taskType in TaskTypes
      && t.status in ValidatedStatuses
      && 0 <= t.progress <= 100
    ensures t.sessionId == "" ==> r == Invalid("Session ID is required")
    ensures t.sessionId != "" && Text.IsBlank(t.title) ==> r == Invalid("Task title is required")
    ensures r == Invalid("Invalid task type") <==>
      t.sessionId != "" && !Text.IsBlank(t.title) && t.taskType !in TaskTypes
  {
    ValidateAgainst(t, TaskTypes)
  }

  /** What `vars(TaskType).values()` holds as strings: the four declared values
      plus the class's `__module__`. Class creation drops `__qualname__` from the
      class dictionary, and the class has no docstring, so `__doc__` is `None`. */
  const TaskTypeClassValues: seq<string> := TaskTypes + [TaskModule]

  /** The module the task classes are defined in, as `__module__` reports it. */
  const TaskModule := "app.database.models.task"

  /** `Task.validate()` exactly as written: membership in `vars(TaskType).values()`. */
  function ValidateAsWritten(t: Task): (r: Check)
    ensures r == Valid <==>
      && t.sessionId != ""
      && !Text.IsBlank(t.title)
      && t.taskType in TaskTypeClassValues
      && t.status in ValidatedStatuses
      && 0 <= t.progress <= 100
  {
    ValidateAgainst(t, TaskTypeClassValues)
  }

  /** The as-written check accepts the class's module name as a task type, which
      the corrected `Validate` rejects; the class's own name is rejected by both. */
  lemma ModuleNameAccepted(t: Task)
    requires t.sessionId != "" && !Text.IsBlank(t.title)
    requires t.status == Pending && t.progress == 0
    ensures t.taskType == TaskModule ==>
      ValidateAsWritten(t) == Valid && Validate(t) == Invalid("Invalid task type")
    ensures t.taskType == "TaskType" ==>
      ValidateAsWritten(t) == Invalid("Invalid task type") && Validate(t) == Invalid("Invalid task type")
  {
    assert TaskModule == TaskTypeClassValues[4];
  }

  /** `Task.complete()`: status completed, progress 100, completion time now;
      every other field is kept. */
  function CompleteRecord(t: Task, now: Time): (r: Task)
    ensures r.status == Completed && r.progress == 100 && r.completedAt == Some(now)
    ensures r.(status := t.status, progress := t.progress, completedAt := t.completedAt) == t
  {
    t.(status := Completed, progress := 100, completedAt := Some(now))
  }

  /** Completing a valid task leaves it valid and consistent-if-consistent. */
  lemma CompletePreservesValidity(t: Task, now: Time)
    ensures Validate(t) == Valid ==> Validate(CompleteRecord(t, now)) == Valid
    ensures Consistent(t) ==> Consistent(CompleteRecord(t, now))
  {
  }
}

=== FILE: task_service.dfy ===
/** `TaskService` (app/services/task_service.py): the task lifecycle over an in-memory
    store plus the append-only audit log. There is no transition table: only retry
    and cancel guard the current status. */
module TaskService {
  import opened Wrappers
  import Text
  import opened TaskRecord
  import opened TaskStore
  import opened StatusLog

  datatype Db = Db(tasks: Store, log: Log)

  /** The environment of one call: the clock reading, whether the task write
      succeeds, and whether the audit write succeeds. */
  datatype Io = Io(now: Time, saved: bool, logged: bool)

  /** How the Python call ends: raising `ValueError(message)`, returning `None`
      (a failed save), or returning the task. */
  datatype Reply = Raised(message: string) | ReturnedNone | Returned(task: Task)

  datatype Step = Step(db: Db, reply: Reply)

  const System := "system"
  const CreatedReason := "Task created"
  const RetryStep := "Task queued for retry"
  const CancelStep := "Task cancelled by user"
  const NotRetryable := "Only failed tasks can be retried"
  const RetriesExhausted := "Maximum retry attempts exceeded"
  const NotCancellable := "Only pending or in-progress tasks can be cancelled"

  function NotFound(id: TaskId): string {
    "Task " + id + " not found"
  }

  /** `f'Retry attempt {n} of {m}'`. */
  function RetryReason(attempt: int, limit: int): string {
    "Retry attempt " + Text.IntToString(attempt) + " of " + Text.IntToString(limit)
  }

  /** `task.save()` whose result decides nothing: the store changes only when the
      write succeeds. */
  function Put(store: Store, id: TaskId, t: Task, io: Io): Store {
    if io.saved then store[id := t] else store
  }

  /** `_log_status_change`: one entry by the system, stamped now; a failed write is
      logged and swallowed, leaving the trail as it was. */
  function Record(log: Log, taskId: TaskId, oldStatus: Option<Status>, newStatus: Status,
                  reason: Option<string>, io: Io): (r: Log)
    ensures log <= r && |r| <= |log| + 1
    ensures io.logged <==> |r| == |log| + 1
    ensures io.logged ==> r[|log|] == AuditEntry(taskId, oldStatus, newStatus, System, reason, io.now)
  {
    if io.logged then log + [AuditEntry(taskId, oldStatus, newStatus, System, reason, io.now)]
    else log
  }

  /** The fields no lifecycle operation writes. */
  predicate SameIdentity(a: Task, b: Task) {
    && a.id == b.id && a.sessionId == b.sessionId && a.taskType == b.taskType
    && a.title == b.title && a.description == b.description
    && a.dependsOn == b.dependsOn && a.createdAt == b.createdAt
  }

  predicate AllConsistent(store: Store) {
    forall id :: id in store ==> Consistent(store[id])
  }

  /** `create_task`: a pending task with no dependencies unless given, and one
      audit entry from no status to pending. The save's result is not checked. */
  function CreateTask(db: Db, id: TaskId, sessionId: string, taskType: string, title: string,
                      description: string, dependsOn: seq<TaskId>, io: Io): (r: Step)
    requires id != "" && id !in db.tasks
    ensures r.reply.Returned?
    ensures var t := r.reply.task;
      && t.id == id && t.status == Pending && t.dependsOn == dependsOn
      && t.progress == 0 && t.retryCount == 0 && t.maxRetries == DefaultMaxRetries
      && t.createdAt == io.now && t.updatedAt == io.now
    ensures io.saved ==> r.db.tasks == db.tasks[id := r.reply.task]
    ensures !io.saved ==> r.db.tasks == db.tasks
    ensures io.logged ==>
      r.db.log == db.log + [AuditEntry(id, None, Pending, System, Some(CreatedReason), io.now)]
    ensures !io.logged ==> r.db.log == db.log
    ensures KeyedById(db.tasks) ==> KeyedById(r.db.tasks)
    ensures AllConsistent(db.tasks) ==> AllConsistent(r.db.tasks)
  {
    var t := NewTask(id, sessionId, taskType, title, description, dependsOn, io.now);
    Step(Db(Put(db.tasks, id, t, io), Record(db.log, id, None, Pending, Some(CreatedReason), io)),
         Returned(t))
  }

  /** The task record `update_task_status` writes. */
  function StatusUpdate(task: Task, newStatus: Status, progress: Option<int>,
                        currentStep: string, errorMessage: string, now: Time): Task
  {
    var t := task.(
      status := newStatus,
      updatedAt := now,
      progress := progress.GetOr(task.progress),
      currentStep := if currentStep != "" then currentStep else task.currentStep,
      errorMessage := if errorMessage != "" then Some(errorMessage) else task.errorMessage);
    if newStatus == InProgress && task.startedAt.None? then t.(startedAt := Some(now))
    else if newStatus == Completed then t.(completedAt := Some(now), progress := 100)
    else t
  }

  /** `update_task_status`: any status may follow any status. Optional inputs
      overwrite only when supplied (`progress` when not None, the strings when
      non-empty); the first move to in_progress stamps `started_at` once; a move to
      completed forces progress 100 and stamps `completed_at`. */
  function UpdateTaskStatus(db: Db, id: TaskId, newStatus: Status, progress: Option<int>,
                            currentStep: string, errorMessage: string, io: Io): (r: Step)
    ensures FindById(db.tasks, id).None? ==> r == Step(db, Raised(NotFound(id)))
    ensures FindById(db.tasks, id).Some? && !io.saved ==> r == Step(db, ReturnedNone)
    ensures r.reply.Returned? <==> FindById(db.tasks, id).Some? && io.saved
    ensures r.reply.Returned? ==>
      var prev := db.tasks[id];
      var t := r.reply.task;
      && r.db.tasks == db.tasks[id := t]
      && r.db.log == Record(db.log, id, Some(prev.status), newStatus, None, io)
      && SameIdentity(t, prev)
      && t.retryCount == prev.retryCount && t.maxRetries == prev.maxRetries
      && t.resultData == prev.resultData
      && t.status == newStatus && t.updatedAt == io.now
      && (newStatus == Completed ==> t.progress == 100 && t.completedAt == Some(io.now))
      && (newStatus != Completed ==>
            t.progress == progress.GetOr(prev.progress) && t.completedAt == prev.completedAt)
      && (prev.startedAt.Some? ==> t.startedAt == prev.startedAt)
      && (newStatus == InProgress ==> t.startedAt.Some?)
      && (newStatus == InProgress && prev.startedAt.None? ==> t.startedAt == Some(io.now))
      && (newStatus != InProgress ==> t.startedAt == prev.startedAt)
      && t.currentStep == (if currentStep != "" then currentStep else prev.currentStep)
      && t.errorMessage == (if errorMessage != "" then Some(errorMessage) else prev.errorMessage)
    ensures KeyedById(db.tasks) ==> KeyedById(r.db.tasks)
    ensures AllConsistent(db.tasks) && (progress.Some? ==> 0 <= progress.value <= 100) ==>
      AllConsistent(r.db.tasks)
  {
    match FindById(db.tasks, id)
    case None => Step(db, Raised(NotFound(id)))
    case Some(task) =>
      var t := StatusUpdate(task, newStatus, progress, currentStep, errorMessage, io.now);
      if !io.saved then Step(db, ReturnedNone)
      else Step(Db(db.tasks[id := t], Record(db.log, id, Some(task.status), newStatus, None, io)),
                Returned(t))
  }

  /** `complete_task`: completed, progress 100, `completed_at` and `result_data` set,
      whatever the prior status. The save's result is not checked, and the audit
      entry reads the status after overwriting it, so it records completed as both
      the old and the new status. */
  function CompleteTask(db: Db, id: TaskId, resultData: Payload, io: Io): (r: Step)
    ensures FindById(db.tasks, id).None? ==> r == Step(db, Raised(NotFound(id)))
    ensures FindById(db.tasks, id).Some? ==> r.reply.Returned?
    ensures r.reply.Returned? ==>
      var prev := db.tasks[id];
      var t := r.reply.task;
      && r.db.tasks == (if io.saved then db.tasks[id := t] else db.tasks)
      && r.db.log == Record(db.log, id, Some(Completed), Completed, None, io)
      && SameIdentity(t, prev)
      && t.status == Completed && t.progress == 100 && t.completedAt == Some(io.now)
      && t.resultData == resultData && t.updatedAt == io.now
      && t.retryCount == prev.retryCount && t.maxRetries == prev.maxRetries
      && t.startedAt == prev.startedAt && t.errorMessage == prev.errorMessage
      && t.currentStep == prev.currentStep
    ensures KeyedById(db.tasks) ==> KeyedById(r.db.tasks)
    ensures AllConsistent(db.tasks) ==> AllConsistent(r.db.tasks)
  {
    match FindById(db.tasks, id)
    case None => Step(db, Raised(NotFound(id)))
    case Some(task) =>
      var t := task.(status := Completed, progress := 100, completedAt := Some(io.now),
                     resultData := resultData, updatedAt := io.now);
      Step(Db(Put(db.tasks, id, t, io), Record(db.log, id, Some(t.status), Completed, None, io)),
           Returned(t))
  }

  /** `fail_task`: failed with the given message from any prior status; the
      completion time is left as it was and the message is the audit reason. */
  function FailTask(db: Db, id: TaskId, errorMessage: string, io: Io): (r: Step)
    ensures FindById(db.tasks, id).None? ==> r == Step(db, Raised(NotFound(id)))
    ensures FindById(db.tasks, id).Some? && !io.saved ==> r == Step(db, ReturnedNone)
    ensures r.reply.Returned? <==> FindById(db.tasks, id).Some? && io.saved
    ensures r.reply.Returned? ==>
      var prev := db.tasks[id];
      var t := r.reply.task;
      && r.db.tasks == db.tasks[id := t]
      && r.db.log == Record(db.log, id, Some(prev.status), Failed, Some(errorMessage), io)
      && t == prev.(status := Failed, errorMessage := Some(errorMessage), updatedAt := io.now)
      && t.completedAt == prev.completedAt
    ensures KeyedById(db.tasks) ==> KeyedById(r.db.tasks)
    ensures AllConsistent(db.tasks) ==> AllConsistent(r.db.tasks)
  {
    match FindById(db.tasks, id)
    case None => Step(db, Raised(NotFound(id)))
    case Some(task) =>
      var t := task.(status := Failed, errorMessage := Some(errorMessage), updatedAt := io.now);
      if !io.saved then Step(db, ReturnedNone)
      else Step(Db(db.tasks[id := t],
                   Record(db.log, id, Some(task.status), Failed, Some(errorMessage), io)),
                Returned(t))
  }

  /** `retry_task`: refuses, in this order, an unknown task, a task that is not
      failed, and a task whose retries are used up; otherwise counts the attempt and
      puts the task back to pending with its error and progress cleared. */
  function RetryTask(db: Db, id: TaskId, io: Io): (r: Step)
    ensures FindById(db.tasks, id).None? ==> r == Step(db, Raised(NotFound(id)))
    ensures FindById(db.tasks, id).Some? && db.tasks[id].status != Failed ==>
      r == Step(db, Raised(NotRetryable))
    ensures FindById(db.tasks, id).Some? && db.tasks[id].status == Failed &&
            db.tasks[id].retryCount >= db.tasks[id].maxRetries ==>
      r == Step(db, Raised(RetriesExhausted))
    ensures r.reply.Raised? || r.reply.ReturnedNone? ==> r.db == db
    ensures r.reply.Returned? <==>
      && FindById(db.tasks, id).Some? && db.tasks[id].status == Failed
      && db.tasks[id].retryCount < db.tasks[id].maxRetries && io.saved
    ensures r.reply.Returned? ==>
      var prev := db.tasks[id];
      var t := r.reply.task;
      && r.db.tasks == db.tasks[id := t]
      && r.db.log == Record(db.log, id, Some(Failed), Pending,
                            Some(RetryReason(prev.retryCount + 1, prev.maxRetries)), io)
      && SameIdentity(t, prev)
      && t.retryCount == prev.retryCount + 1 && t.retryCount <= t.maxRetries
      && t.maxRetries == prev.maxRetries
      && t.status == Pending && t.errorMessage.None? && t.progress == 0
      && t.currentStep == RetryStep && t.updatedAt == io.now
    ensures KeyedById(db.tasks) ==> KeyedById(r.db.tasks)
    ensures AllConsistent(db.tasks) ==> AllConsistent(r.db.tasks)
  {
    match FindById(db.tasks, id)
    case None => Step(db, Raised(NotFound(id)))
    case Some(task) =>
      if task.status != Failed then Step(db, Raised(NotRetryable))
      else if task.retryCount >= task.maxRetries then Step(db, Raised(RetriesExhausted))
      else
        var t := task.(retryCount := task.retryCount + 1, status := Pending,
                       errorMessage := None, progress := 0, currentStep := RetryStep,
                       updatedAt := io.now);
        if !io.saved then Step(db, ReturnedNone)
        else Step(Db(db.tasks[id := t],
                     Record(db.log, id, Some(task.status), Pending,
                            Some(RetryReason(t.retryCount, t.maxRetries)), io)),
                  Returned(t))
  }

  predicate Cancellable(s: Status) {
    s == Pending || s == InProgress
  }

  /** `cancel_task`: only a pending or running task can be cancelled. */
  function CancelTask(db: Db, id: TaskId, io: Io): (r: Step)
    ensures FindById(db.tasks, id).None? ==> r == Step(db, Raised(NotFound(id)))
    ensures FindById(db.tasks, id).Some? && !Cancellable(db.tasks[id].status) ==>
      r == Step(db, Raised(NotCancellable))
    ensures r.reply.Raised? || r.reply.ReturnedNone? ==> r.db == db
    ensures r.reply.Returned? <==>
      FindById(db.tasks, id).Some? && Cancellable(db.tasks[id].status) && io.saved
    ensures r.reply.Returned? ==>
      var prev := db.tasks[id];
      var t := r.reply.task;
      && r.db.tasks == db.tasks[id := t]
      && r.db.log == Record(db.log, id, Some(prev.status), Cancelled, Some(CancelStep), io)
      && t == prev.(status := Cancelled, currentStep := CancelStep, updatedAt := io.now)
    ensures KeyedById(db.tasks) ==> KeyedById(r.db.tasks)
    ensures AllConsistent(db.tasks) ==> AllConsistent(r.db.tasks)
  {
    match FindById(db.tasks, id)
    case None => Step(db, Raised(NotFound(id)))
    case Some(task) =>
      if !Cancellable(task.status) then Step(db, Raised(NotCancellable))
      else
        var t := task.(status := Cancelled, currentStep := CancelStep, updatedAt := io.now);
        if !io.saved then Step(db, ReturnedNone)
        else Step(Db(db.tasks[id := t],
                     Record(db.log, id, Some(task.status), Cancelled, Some(CancelStep), io)),
                  Returned(t))
  }

  /** The reference meaning of readiness: every listed dependency is a stored,
      completed task (an empty list is trivially satisfied). */
  predicate Ready(store: Store, t: Task) {
    forall i :: 0 <= i < |t.dependsOn| ==>
      FindById(store, t.dependsOn[i]).Some? && store[t.dependsOn[i]].status == Completed
  }

  /** `_dependencies_satisfied`: walks the dependency list and stops at the first
      dependency that is missing or not completed. */
  method DependenciesSatisfied(store: Store, t: Task) returns (ok: bool)
    ensures ok <==> Ready(store, t)
    ensures t.dependsOn == [] ==> ok
  {
    if t.dependsOn == [] {
      return true;
    }
    var i := 0;
    while i < |t.dependsOn|
      invariant 0 <= i <= |t.dependsOn|
      invariant forall j :: 0 <= j < i ==>
        FindById(store, t.dependsOn[j]).Some? && store[t.dependsOn[j]].status == Completed
    {
      var dep := FindById(store, t.dependsOn[i]);
      if dep.None? || dep.value.status != Completed {
        return false;
      }
      i := i + 1;
    }
    return true;
  }

  /** `get_ready_tasks`: exactly the session's pending tasks whose dependencies are
      all completed. */
  function GetReadyTasks(store: Store, sessionId: string): (r: Store)
    ensures forall id :: id in r <==>
      && id in store && store[id].sessionId == sessionId
      && store[id].status == Pending && Ready(store, store[id])
    ensures forall id :: id in r ==> r[id] == store[id]
  {
    var pending := FindBySessionAndStatus(store, sessionId, Pending);
    map id | id in pending && Ready(store, pending[id]) :: pending[id]
  }

  /** `_check_dependent_tasks`: the dependents of a completed task that are now
      ready to start (the source only logs them). */
  function CheckDependentTasks(store: Store, completedId: TaskId): (r: set<TaskId>)
    ensures forall id :: id in r <==>
      && id in store && completedId in store[id].dependsOn
      && store[id].status == Pending && Ready(store, store[id])
  {
    var dependents := FindDependentTasks(store, completedId);
    set id | id in dependents && dependents[id].status == Pending && Ready(store, dependents[id])
  }

  /** A saved new task is found among the dependents of each task it lists. */
  lemma CreatedTaskIsDependent(db: Db, id: TaskId, sessionId: string, taskType: string,
                               title: string, description: string, dependsOn: seq<TaskId>,
                               io: Io, dep: TaskId)
    requires id != "" && id !in db.tasks && io.saved && dep in dependsOn
    ensures id in FindDependentTasks(
      CreateTask(db, id, sessionId, taskType, title, description, dependsOn, io).db.tasks, dep)
  {
  }

  /** The tasks reported ready after a completion are dependents of the completed
      task, and a pending dependent is reported exactly when it is ready. */
  lemma CheckedAreDependents(store: Store, completedId: TaskId)
    ensures CheckDependentTasks(store, completedId) <= FindDependentTasks(store, completedId).Keys
    ensures forall id :: id in FindDependentTasks(store, completedId) && store[id].status == Pending ==>
      (id in CheckDependentTasks(store, completedId) <==> Ready(store, store[id]))
  {
  }

  /** `get_stale_tasks`: the store's stale query with the threshold `hours` before now. */
  function GetStaleTasks(store: Store, hours: int, now: Time): (r: Store)
    ensures forall id :: id in r <==>
      && id in store && MayGoStale(store[id].status)
      && store[id].updatedAt < now - hours * SecondsPerHour
    ensures forall id :: id in r ==> r[id] == store[id]
  {
    FindStaleTasks(store, now - hours * SecondsPerHour)
  }

  /** Completing a task never takes readiness away from any task. */
  lemma CompletionKeepsReadiness(db: Db, id: TaskId, resultData: Payload, io: Io, t: Task)
    requires Ready(db.tasks, t)
    ensures Ready(CompleteTask(db, id, resultData, io).db.tasks, t)
  {
    var store' := CompleteTask(db, id, resultData, io).db.tasks;
    forall i | 0 <= i < |t.dependsOn|
      ensures FindById(store', t.dependsOn[i]).Some? && store'[t.dependsOn[i]].status == Completed
    {
      assert FindById(db.tasks, t.dependsOn[i]).Some?;
    }
  }

  /** One call of the task lifecycle API, naming the task it acts on. */
  datatype Call =
    | UpdateCall(id: TaskId, newStatus: Status, progress: Option<int>, currentStep: string,
                 errorMessage: string)
    | CompleteCall(id: TaskId, resultData: Payload)
    | FailCall(id: TaskId, errorMessage: string)
    | RetryCall(id: TaskId)
    | CancelCall(id: TaskId)

  function Perform(db: Db, c: Call, io: Io): Step {
    match c
    case UpdateCall(id, s, p, step, message) => UpdateTaskStatus(db, id, s, p, step, message, io)
    case CompleteCall(id, data) => CompleteTask(db, id, data, io)
    case FailCall(id, message) => FailTask(db, id, message, io)
    case RetryCall(id) => RetryTask(db, id, io)
    case CancelCall(id) => CancelTask(db, id, io)
  }

  /** Whether the call was a retry of task `id` that went through. */
  predicate RetriedTask(c: Call, s: Step, id: TaskId) {
    c.RetryCall? && c.id == id && s.reply.Returned?
  }

  /** The database after the calls in order, each under its own environment, with
      the number of retries of `id` that went through on the way. */
  function Run(db: Db, calls: seq<(Call, Io)>, id: TaskId): (Db, nat)
    decreases |calls|
  {
    if calls == [] then (db, 0)
    else
      var s := Perform(db, calls[0].0, calls[0].1);
      var rest := Run(s.db, calls[1..], id);
      (rest.0, rest.1 + if RetriedTask(calls[0].0, s, id) then 1 else 0)
  }

  /** No lifecycle call adds or removes a task; only a retry that goes through
      moves a task's retry counter, by one and never past `max_retries`; nothing
      moves `max_retries`. */
  lemma CallKeepsCounters(db: Db, c: Call, io: Io, id: TaskId)
    ensures var s := Perform(db, c, io);
      && s.db.tasks.Keys == db.tasks.Keys
      && (id !in db.tasks ==> !RetriedTask(c, s, id))
      && (id in db.tasks ==>
            && s.db.tasks[id].maxRetries == db.tasks[id].maxRetries
            && s.db.tasks[id].retryCount
               == db.tasks[id].retryCount + (if RetriedTask(c, s, id) then 1 else 0)
            && (RetriedTask(c, s, id) ==> s.db.tasks[id].retryCount <= db.tasks[id].maxRetries))
  {
  }

  /** The retry budget of `retry_task`: however the lifecycle calls interleave, the
      retries of a task that go through number exactly the growth of its retry
      counter, so at most `max_retries - retry_count` of them ever succeed, and
      none for a task that is not stored. */
  lemma {:induction false} RetryBound(db: Db, calls: seq<(Call, Io)>, id: TaskId)
    ensures var r := Run(db, calls, id);
      && r.0.tasks.Keys == db.tasks.Keys
      && (id !in db.tasks ==> r.1 == 0)
      && (id in db.tasks ==>
            && r.0.tasks[id].maxRetries == db.tasks[id].maxRetries
            && r.0.tasks[id].retryCount == db.tasks[id].retryCount + r.1
            && (r.1 > 0 ==> r.0.tasks[id].retryCount <= db.tasks[id].maxRetries)
            && r.1 <= if db.tasks[id].retryCount < db.tasks[id].maxRetries
                      then db.tasks[id].maxRetries - db.tasks[id].retryCount else 0)
    decreases |calls|
  {
    if calls != [] {
      var s := Perform(db, calls[0].0, calls[0].1);
      CallKeepsCounters(db, calls[0].0, calls[0].1, id);
      RetryBound(s.db, calls[1..], id);
    }
  }
}

=== FILE: task_store.dfy ===
/** The task collection as an in-memory map from id to task, and the query helpers
    of the service layer's `Task` class (app/database/models.py:74-115). */
module TaskStore {
  import opened Wrappers
  import opened TaskRecord

  type Store = map<TaskId, Task>

  /** Every stored task sits under its own id. */
  predicate KeyedById(store: Store) {
    forall id :: id in store ==> store[id].id == id
  }

  /** `Task.find_by_id`: an empty id finds nothing without a lookup. */
  function FindById(store: Store, id: TaskId): (r: Option<Task>)
    ensures r.Some? <==> id != "" && id in store
    ensures r.Some? ==> r.value == store[id]
  {
    if id == "" then None
    else if id in store then Some(store[id])
    else None
  }

  /** `Task.find_by_session`: the tasks bound to `sessionId`, whatever their status. */
  function FindBySession(store: Store, sessionId: string): (r: Store)
    ensures forall id :: id in r <==> id in store && store[id].sessionId == sessionId
    ensures forall id :: id in r ==> r[id] == store[id]
  {
    map id | id in store && store[id].sessionId == sessionId :: store[id]
  }

  /** `Task.find_by_session_and_status`: both the session and the status must match. */
  function FindBySessionAndStatus(store: Store, sessionId: string, status: Status): (r: Store)
    ensures forall id :: id in r <==>
      id in store && store[id].sessionId == sessionId && store[id].status == status
    ensures forall id :: id in r ==> r[id] == store[id]
  {
    map id | id in store && store[id].sessionId == sessionId && store[id].status == status
      :: store[id]
  }

  /** The session-and-status query is the session query cut down to one status. */
  lemma SessionAndStatusRefinesSession(store: Store, sessionId: string, status: Status)
    ensures var bySession := FindBySession(store, sessionId);
      forall id :: id in FindBySessionAndStatus(store, sessionId, status) <==>
        id in bySession && bySession[id].status == status
  {
  }

  /** `Task.find_dependent_tasks`: the tasks whose `depends_on` lists `taskId`. */
  function FindDependentTasks(store: Store, taskId: TaskId): (r: Store)
    ensures forall id :: id in r <==> id in store && taskId in store[id].dependsOn
    ensures forall id :: id in r ==> r[id] == store[id]
  {
    map id | id in store && taskId in store[id].dependsOn :: store[id]
  }

  /** The statuses a stale task may have. */
  predicate MayGoStale(s: Status) {
    s == Pending || s == InProgress
  }

  /** `Task.find_stale_tasks`: pending or running tasks last updated strictly
      before `threshold`. */
  function FindStaleTasks(store: Store, threshold: Time): (r: Store)
    ensures forall id :: id in r <==>
      id in store && MayGoStale(store[id].status) && store[id].updatedAt < threshold
    ensures forall id :: id in r ==> r[id] == store[id]
  {
    map id | id in store && MayGoStale(store[id].status) && store[id].updatedAt < threshold
      :: store[id]
  }

  /** A later threshold finds every task an earlier one found. */
  lemma StaleTasksMonotone(store: Store, earlier: Time, later: Time)
    requires earlier <= later
    ensures FindStaleTasks(store, earlier).Keys <= FindStaleTasks(store, later).Keys
  {
  }
}

=== FILE: text.dfy ===
/** String helpers the Python code gets from `str`: `isspace`, `strip()`-emptiness,
    `lower()`, the substring test `p in s`, and `str(n)` for integers. */
module Text {
  import opened Wrappers

  /** The characters Python's `str.isspace()` (and the regex class `\s`) accept. */
  predicate IsSpace(c: char) {
    || c == ' ' || c == '\t' || c == '\n' || c == '\r'
    || c == '\U{000B}' || c == '\U{000C}'
    || ('\U{001C}' <= c <= '\U{001F}')
    || c == '\U{0085}' || c == '\U{00A0}' || c == '\U{1680}'
    || ('\U{2000}' <= c <= '\U{200A}')
    || c == '\U{2028}' || c == '\U{2029}' || c == '\U{202F}' || c == '\U{205F}'
    || c == '\U{3000}'
  }

  /** `not s.strip()`: the string is empty or whitespace only. */
  predicate IsBlank(s: string) {
    forall i :: 0 <= i < |s| ==> IsSpace(s[i])
  }

  function LowerChar(c: char): char {
    if 'A' <= c <= 'Z' then (c as int + 32) as char else c
  }

  /** `s.lower()` on the ASCII letters. */
  function Lower(s: string): string {
    seq(|s|, i requires 0 <= i < |s| => LowerChar(s[i]))
  }

  /** Lower-casing twice is lower-casing once. */
  lemma LowerIdempotent(s: string)
    ensures Lower(Lower(s)) == Lower(s)
  {
  }

  lemma LowerAppend(a: string, b: string)
    ensures Lower(a + b) == Lower(a) + Lower(b)
  {
  }

  /** `p` occurs in `s` starting at index `k`. */
  predicate OccursAt(p: string, s: string, k: int) {
    0 <= k && k + |p| <= |s| && s[k..k + |p|] == p
  }

  /** Python's substring test `p in s`. */
  predicate Contains(s: string, p: string) {
    exists k | 0 <= k <= |s| :: OccursAt(p, s, k)
  }

  /** Every character of a contained string is a character of the container,
      so a missing character rules an occurrence out. */
  lemma ContainsHasChar(s: string, p: string, i: int)
    requires Contains(s, p) && 0 <= i < |p|
    ensures p[i] in s
  {
    var k :| 0 <= k <= |s| && OccursAt(p, s, k);
    assert s[k..k + |p|][i] == s[k + i];
  }

  lemma ContainsSuffix(s: string, p: string)
    ensures Contains(s + p, p)
  {
    assert OccursAt(p, s + p, |s|);
  }

  predicate IsDigit(c: char) {
    '0' <= c <= '9'
  }

  function DigitChar(d: int): char
    requires 0 <= d < 10
  {
    ('0' as int + d) as char
  }

  /** Python's `str(n)` for a non-negative integer. */
  function NatToString(n: nat): (r: string)
    ensures |r| > 0
    ensures forall i :: 0 <= i < |r| ==> IsDigit(r[i])
    decreases n
  {
    if n < 10 then [DigitChar(n)] else NatToString(n / 10) + [DigitChar(n % 10)]
  }

  /** Python's `str(i)` for any integer. */
  function IntToString(i: int): string {
    if i < 0 then "-" + NatToString(-i) else NatToString(i)
  }

  /** Reads a decimal digit string back as a number (the partner of `NatToString`). */
  function DigitsValue(s: string): int
    requires forall i :: 0 <= i < |s| ==> IsDigit(s[i])
  {
    if s == [] then 0
    else DigitsValue(s[..|s| - 1]) * 10 + (s[|s| - 1] as int - '0' as int)
  }

  /** The decimal rendering of a count reads back as the same count. */
  lemma {:induction false} NatToStringRoundTrip(n: nat)
    ensures DigitsValue(NatToString(n)) == n
    decreases n
  {
    if n >= 10 {
      NatToStringRoundTrip(n / 10);
      var s := NatToString(n);
      assert s[..|s| - 1] == NatToString(n / 10);
    }
  }

  /** `s.lstrip()`: the text after its leading whitespace. */
  function StripLeft(s: string): (r: string)
    ensures |r| <= |s| && r == s[|s| - |r|..]
    ensures r != [] ==> !IsSpace(r[0])
    ensures forall i :: 0 <= i < |s| - |r| ==> IsSpace(s[i])
    decreases |s|
  {
    if s != [] && IsSpace(s[0]) then
      assert forall i :: 1 <= i < |s| ==> s[i] == s[1..][i - 1];
      StripLeft(s[1..])
    else s
  }

  /** `s.rstrip()`: the text before its trailing whitespace. */
  function StripRight(s: string): (r: string)
    ensures |r| <= |s| && r == s[..|r|]
    ensures r != [] ==> !IsSpace(r[|r| - 1])
    ensures forall i :: |r| <= i < |s| ==> IsSpace(s[i])
    decreases |s|
  {
    if s != [] && IsSpace(s[|s| - 1]) then StripRight(s[..|s| - 1]) else s
  }

  /** `s.strip()`. */
  function Strip(s: string): string {
    StripRight(StripLeft(s))
  }

  /** A run of ASCII digits read as a number; `None` for anything else. */
  function ReadDigits(d: string): (r: Option<int>)
    ensures r.Some? <==> d != [] && forall i :: 0 <= i < |d| ==> IsDigit(d[i])
  {
    if d != [] && forall i :: 0 <= i < |d| ==> IsDigit(d[i]) then Some(DigitsValue(d)) else None
  }

  /** An optional sign followed by a run of digits. */
  function ReadSigned(t: string): Option<int> {
    if t != [] && (t[0] == '-' || t[0] == '+') then
      match ReadDigits(t[1..])
      case Some(n) => Some(if t[0] == '-' then -n else n)
      case None => None
    else ReadDigits(t)
  }

  /** `float(s)` on the strings that denote whole numbers: surrounding whitespace,
      an optional sign, and one or more ASCII digits. */
  function ParseWhole(s: string): (r: Option<int>)
    ensures r.Some? ==> exists i :: 0 <= i < |s| && IsDigit(s[i])
  {
    var t := Strip(s);
    var r := ReadSigned(t);
    if r.Some? then
      var j := if t[0] == '-' || t[0] == '+' then 1 else 0;
      assert IsDigit(t[j]);
      StripInside(s, j);
      r
    else r
  }

  /** The characters `strip()` keeps sit in the original string, after the
      leading whitespace. */
  lemma StripInside(s: string, j: int)
    requires 0 <= j < |Strip(s)|
    ensures |s| - |StripLeft(s)| + j < |s|
    ensures s[|s| - |StripLeft(s)| + j] == Strip(s)[j]
  {
    var l := StripLeft(s);
    assert Strip(s)[j] == l[j];
  }

  /** A string without whitespace is its own `strip()`. */
  lemma StripNoSpace(s: string)
    requires forall i :: 0 <= i < |s| ==> !IsSpace(s[i])
    ensures Strip(s) == s
  {
  }

  /** The sign and digits `str(i)` writes read back as `i`. */
  lemma ReadSignedRoundTrip(i: int)
    ensures ReadSigned(IntToString(i)) == Some(i)
  {
    var n: nat := if i < 0 then -i else i;
    var digits := NatToString(n);
    NatToStringRoundTrip(n);
    assert ReadDigits(digits) == Some(n);
    if i < 0 {
      assert IntToString(i)[1..] == digits;
    } else {
      assert IsDigit(digits[0]);
    }
  }

  /** `float(str(i))` reads back `i`. */
  lemma WholeRoundTrip(i: int)
    ensures ParseWhole(IntToString(i)) == Some(i)
  {
    var s := IntToString(i);
    assert forall k :: 0 <= k < |s| ==> !IsSpace(s[k]);
    StripNoSpace(s);
    ReadSignedRoundTrip(i);
  }

  /** A string whose only non-blank text is a word of letters is not a number. */
  lemma WordIsNoNumber(s: string)
    requires forall i :: 0 <= i < |s| ==> 'a' <= s[i] <= 'z'
    ensures ParseWhole(s) == None
  {
  }
}

=== FILE: wrappers.dfy ===
/** Option and validation-outcome datatypes shared by every module of the model.
    Python's `None` becomes `None`; a `validate()` that raises becomes `Invalid`. */
module Wrappers {

  datatype Option<+T> = None | Some(value: T) {

    /** The wrapped value, or `default` for `None` (Python's `x or default`). */
    function GetOr(default: T): T {
      match this
      case Some(v) => v
      case None => default
    }
  }

  /** A value, or the message of the `ValueError` raised instead. */
  datatype Result<+T> = Ok(value: T) | Fail(message: string)

  /** Outcome of a record's `validate()`: `Valid` where it returns True,
      `Invalid(reason)` where it raises `ValueError(reason)`. */
  datatype Check = Valid | Invalid(reason: string)
}
